=== FILE: README.md ===
# FluxMic virtual camera: a Dafny model of the frame path

FluxMic is a Windows virtual camera. A desktop application encodes frames as
H.264 and writes each one as a message to the named pipe
`\\.\pipe\FluxMicVideoFeed`. A Media Foundation media source then serves
those frames as an NV12 camera stream. It runs inside Frame Server, as
`FluxMicMediaSource` together with its single `FluxMicMediaStream`.

This project models the path a frame takes, as pure functions over immutable
state:

- **Wire format** (module `Wire`). A 24-byte little-endian header (width,
  height, timestamp, sequence, frame size) followed by the payload. The module
  also holds the check that decides whether a message is accepted.
- **Pipe reader** (module `FrameReader`). This is `SharedFrameReader`: open and
  close, the polling `WaitForFrame` that drains to the newest accepted
  message, `ReadHeader` and `ReadFrameData`. The pipe is a script of queued
  messages, read errors, and messages that arrive while the reader sleeps;
  a peek reports the queued byte count, to which an empty message adds
  nothing.
- **NV12 copy and blank fills** (module `Nv12`). This covers
  `CopyNv12ToBuffer` with its three paths: contiguous copy, re-strided row
  copy, and nearest-neighbour scaling. It also covers the black fills for
  pitched and packed buffers, and the picture geometry the stream derives
  from a locked 2D buffer.
- **H.264 decoder wrapper** (module `H264`). `Initialize`, `Shutdown`,
  output-type negotiation, `DrainOutput` and `DecodeNal`. Every transform
  call is replaced by its outcome, given as input.
- **Stream** (module `MediaStream`). `RequestSample` and the state machine
  around it: `SetStreamState`, `Start`, `Stop`, `Shutdown`,
  `SetSampleAllocator`, the lazy allocator initialisation, and
  `CreateBlackSample`.
- **Source** (module `MediaSource`). `Initialize` with its four media types,
  `Start`, `Stop`, `Pause`, `Shutdown`, the shutdown guards, the stream-id
  checks and the allocator entry points.
- **Shared vocabulary** (modules `Bytes` and `Media`). Status codes, events,
  and what a delivered sample holds.

Every Windows call is represented by its outcome, which is passed in as
input. This covers pipe connection and reads, the decoder transform, the
sample allocator and its buffers, the system clock, and the event queues
wherever the code looks at their results (sample delivery, event retrieval
and client `QueueEvent` calls).
Each operation returns the new state, the status it reports and the events
it queued. The source and its stream share one event log, in queue order.

A delivered sample is described by its `Picture`, meaning which decoded frame
it shows and in what geometry. The byte-level content of each kind of
picture is given by the `Nv12` operations and their contracts.

Four behaviours of the code that are easy to miss are kept as written:

- **Sample counter:** it advances whenever a sample was built, even if
  queueing it failed.
- **No allocator:** without an allocator, every sample is black.
- **Cached frame:** the last good frame is replayed only while the pipe is
  open.
- **Stream Stop:** it forgets the cached frame.

## Model

| member | source | states |
|---|---|---|
| Wire.CheckMessage | src/mf_source/SharedFrameBuffer.cpp:124-133 | a message is accepted exactly when it holds a whole header, announces a payload size between 1 and the 1920x1080x4 maximum, and is exactly header plus that many bytes; the accepted header is the parsed one |
| Wire.HeaderRoundTrip | src/mf_source/SharedFrameBuffer.h:14-20 | parsing the 24-byte little-endian encoding of a header gives back the header |
| Wire.HeaderEncodeParse | src/mf_source/SharedFrameBuffer.h:38-47 | re-encoding the header parsed from 24 bytes gives back exactly those bytes |
| Wire.U32RoundTrip | src/mf_source/SharedFrameBuffer.h:15-19 | a 32-bit little-endian field decodes to the value encoded |
| Wire.U64RoundTrip | src/mf_source/SharedFrameBuffer.h:17 | the 64-bit timestamp field decodes to the value encoded |
| Wire.AcceptsExactlyTrueSizes | src/mf_source/SharedFrameBuffer.cpp:124-133 | a header-plus-payload message is accepted, with its own header, if and only if the payload is non-empty, within the maximum and equal to the announced size |
| Wire.AcceptedIsMessage | src/mf_source/SharedFrameBuffer.cpp:124-137 | every accepted message is its header followed by a payload of the announced size, and fits the receive buffer |
| Wire.WellFormedFits | src/mf_source/SharedFrameBuffer.h:29-35 | an accepted message never exceeds header size plus maximum payload |
| FrameReader.Close | src/mf_source/SharedFrameBuffer.cpp:72-78 | closing releases the handle and clears the frame flag, keeping buffer, cached header and last sequence |
| FrameReader.CloseIdempotent | src/mf_source/SharedFrameBuffer.cpp:72-78 | closing twice is closing once, and a closed reader reports not open |
| FrameReader.Open | src/mf_source/SharedFrameBuffer.cpp:33-70 | open succeeds exactly when the pipe connects in message mode; success starts with no frame, sequence 0 and a full-size buffer; failure leaves the reader closed |
| FrameReader.OpenClosesFirst | src/mf_source/SharedFrameBuffer.cpp:33-35 | opening an open reader behaves as closing it and then opening |
| FrameReader.ReadIntoIsMemcpy | src/mf_source/SharedFrameBuffer.cpp:105-111 | one read writes the bytes read to the front of the receive buffer and leaves the rest |
| FrameReader.Accept | src/mf_source/SharedFrameBuffer.cpp:124-137 | an accepted read caches its parsed header and sets the frame flag without touching the sequence |
| FrameReader.AcceptFillsFront | src/mf_source/SharedFrameBuffer.cpp:105-137 | after an accepted read the buffer starts with that message |
| FrameReader.Reject | src/mf_source/SharedFrameBuffer.cpp:113-133 | a read error closes the reader; an oversized message leaves its tail queued; a malformed message is dropped; the cached header survives and the result so far is reported |
| FrameReader.QueuedBytesAppend | src/mf_source/SharedFrameBuffer.cpp:89-98 | the byte count the peek reports for two queues in a row is the sum of their counts |
| FrameReader.Arrival | src/mf_source/SharedFrameBuffer.cpp:85-159 | the queue found by the first peek that reports bytes is non-empty in bytes and the connection state is unchanged by sleeping |
| FrameReader.SilentQueue | src/mf_source/SharedFrameBuffer.cpp:98 | a queue the peek reports as zero bytes holds only empty messages, none of them accepted |
| FrameReader.Drain | src/mf_source/SharedFrameBuffer.cpp:98-147 | the drain reports a frame exactly when one was already held or the first slot is accepted, and the frame flag agrees with the result and the open state |
| FrameReader.DrainStep | src/mf_source/SharedFrameBuffer.cpp:135-145 | after an accepted read the drain reads again exactly when the peek still reports bytes, and otherwise stops with a frame |
| FrameReader.Poll | src/mf_source/SharedFrameBuffer.cpp:85-159 | the polling loop peeks at least once and sleeps no longer than the time left; it reports a frame exactly when the pipe is connected and the first peek that reports bytes, within the time left, finds an accepted message at the head of the queue; a broken pipe closes the reader |
| FrameReader.WaitWith | src/mf_source/SharedFrameBuffer.cpp:80-160 | on a closed reader waiting returns false at once; otherwise it peeks at least once, sleeps at most the timeout, never changes the last sequence, and returns true exactly when the first peek that reports bytes before the timeout finds at least one leading accepted message, in either read mode |
| FrameReader.WaitForFrame | src/mf_source/SharedFrameBuffer.cpp:80-160 | the as-written wait: false at once when closed; true exactly when the first peek that reports bytes before the timeout finds a leading accepted message; the frame flag agrees with the result on an open reader |
| FrameReader.ReadHeader | src/mf_source/SharedFrameBuffer.cpp:162-166 | a header is returned exactly when a frame is held, and it is the cached header |
| FrameReader.ReadFrameData | src/mf_source/SharedFrameBuffer.cpp:168-177 | copies the payload after the header exactly when a frame is held, the destination is present and both the destination and the maximum admit the size; on success records the header's sequence |
| FrameReader.LeadingAccepted | src/mf_source/SharedFrameBuffer.cpp:139-145 | counts the leading accepted slots; the next slot, if any, is not accepted |
| FrameReader.DrainToLatest | src/mf_source/SharedFrameBuffer.cpp:135-145 | after a drain, the cached header is that of the last accepted message before the first rejected slot, or unchanged if none |
| FrameReader.DrainClosesOnlyOnFault | src/mf_source/SharedFrameBuffer.cpp:113-121 | a drain leaves the reader open exactly when it ran out of messages or stopped at a written message, not a read error |
| FrameReader.DrainStopsAtFirstRejected | src/mf_source/SharedFrameBuffer.cpp:113-145 | a drain consumes exactly the accepted prefix and the slot that stopped it, keeping an oversized message's tail queued; when only empty messages follow the accepted prefix they stay unread |
| FrameReader.DrainKeepsLatestPayload | src/mf_source/SharedFrameBuffer.cpp:105-145 | staged reads always leave the last accepted payload after the header; in-place reads do so only when the stopping slot is harmless |
| FrameReader.AcceptKeepsPayload | src/mf_source/SharedFrameBuffer.cpp:105-137 | accepting a message puts its payload right after the header in the buffer |
| FrameReader.HarmlessRejectKeepsPayload | src/mf_source/SharedFrameBuffer.cpp:113-133 | a rejected slot that is a fault or at most a header long ends the drain without touching the payload area |
| FrameReader.StagedWaitReadsLatest | src/mf_source/SharedFrameBuffer.cpp:80-177 | with bytes queued, the corrected wait reports a frame exactly when some message was accepted, and the header and payload then read are those of the last accepted one |
| FrameReader.SilentPipeTimesOut | src/mf_source/SharedFrameBuffer.cpp:89-159 | with no bytes queued or arriving, waiting sleeps exactly until the timeout, peeks once more than it sleeps, reports no frame and leaves the queued empty messages unread |
| FrameReader.EmptyMessageStallsWait | src/mf_source/SharedFrameBuffer.cpp:89-159 | a wait that finds only an empty message times out and leaves it queued; the next wait reads and rejects it first and reports no frame although an accepted message follows |
| FrameReader.DrainModesAgree | src/mf_source/SharedFrameBuffer.cpp:100-147 | within one drain, reading in place or staged changes only the receive buffer |
| FrameReader.PollModesAgree | src/mf_source/SharedFrameBuffer.cpp:85-159 | within one poll, reading in place or staged changes only the receive buffer |
| FrameReader.ReadModesAgree | src/mf_source/SharedFrameBuffer.cpp:80-160 | the as-written and the staged wait agree on result, header, open state, sequence, queue and timing, and differ only in the receive buffer |
| FrameReader.BrokenPipeCloses | src/mf_source/SharedFrameBuffer.cpp:90-96 | a failed peek closes the reader and reports no frame after one peek |
| FrameReader.DrainAcceptThenReject | src/mf_source/SharedFrameBuffer.cpp:80-145 | a wait over an accepted message followed by a rejected one: both reads report the first header, but only the staged read keeps the first message's bytes |
| FrameReader.RejectedTwinOverwritesPayload | src/mf_source/SharedFrameBuffer.cpp:105-177 | an accepted one-byte message followed by a rejected message of the same length: the as-written wait hands out the second message's byte under the first header, the staged wait the first's |
| FrameReader.CounterexampleMessages | src/mf_source/SharedFrameBuffer.cpp:124-133 | the one-byte message with a matching header is accepted and the one announcing zero bytes is rejected |
| FrameReader.InPlaceDrainCorruptsPayload | src/mf_source/SharedFrameBuffer.cpp:105-177 | on a concrete pipe the as-written wait returns the first header with the second message's byte as its payload, while the staged wait returns the right byte |
| Nv12.FillBlankLinear | src/mf_source/FluxMicMediaStream.cpp:344-348 | a packed black frame is luma 16 for width x height bytes, then chroma 128 up to the NV12 size, and the rest of the buffer is untouched |
| Nv12.LinearBlankIsPlanar | src/mf_source/FluxMicMediaStream.cpp:315-348 | for even heights, the packed black fill is the pitched black fill at pitch equal to the width |
| Nv12.FillBlankPlanar | src/mf_source/FluxMicMediaStream.cpp:315-323 | the pitched black fill writes luma 16 into height rows and chroma 128 into height/2 rows, width bytes each, and changes nothing else |
| Nv12.WriteRows | src/mf_source/FluxMicMediaStream.cpp:579-588 | writing rows at a pitch puts each row at its row start, keeps the padding after each row, and changes nothing outside the rows |
| Nv12.CopyContiguous | src/mf_source/FluxMicMediaStream.cpp:569-578 | the contiguous path copies exactly the NV12 size of bytes and keeps the rest |
| Nv12.CopyRestrided | src/mf_source/FluxMicMediaStream.cpp:579-588 | the re-strided path copies each of the luma and chroma rows to its pitched row and changes nothing but the picture area |
| Nv12.CopyScaled | src/mf_source/FluxMicMediaStream.cpp:589-616 | the scaled path fills every destination luma and chroma byte from its nearest-neighbour source byte and changes nothing but the picture area, for odd destination widths too (the corrected chroma loop; see Findings) |
| Nv12.PairColumns | src/mf_source/FluxMicMediaStream.cpp:608-614 | the as-written chroma loop writes the columns 0 up to the width rounded up to even, each once and in order |
| Nv12.OddWidthWritesPastRow | src/mf_source/FluxMicMediaStream.cpp:606-614 | with an odd destination width the as-written chroma loop writes column `dstW`; when the width is the pitch, the byte written past the last chroma row is the first byte after the picture's planes |
| Nv12.OddPitchOverrunsBuffer | src/mf_source/FluxMicMediaStream.cpp:305-314 | a locked buffer of pitch 3 and length 9 gets a 3x2 picture that the copy accepts; scaling a 4x4 frame into it writes byte 9 as written, while the planes end at byte 9 |
| Nv12.CopyNv12ToBuffer | src/mf_source/FluxMicMediaStream.cpp:565-617 | for any destination width, chooses the contiguous copy exactly for equal sizes with pitch equal to width, the row copy for equal sizes at another pitch, scaling otherwise, and states the content each path produces |
| Nv12.ContiguousIsRowCopy | src/mf_source/FluxMicMediaStream.cpp:575-588 | for even heights the contiguous copy and the row copy at pitch equal to width produce the same picture |
| Nv12.ScalingAtUnitScaleIsIdentity | src/mf_source/FluxMicMediaStream.cpp:589-616 | at equal sizes the scaling maps every luma and chroma byte to the byte at the same place |
| Nv12.LumaAllInside | src/mf_source/FluxMicMediaStream.cpp:592-600 | every luma source position the scaler reads lies inside the source luma plane |
| Nv12.ChromaAllInside | src/mf_source/FluxMicMediaStream.cpp:601-615 | every chroma source position the scaler reads lies inside the source picture |
| Nv12.LockedGeometry | src/mf_source/FluxMicMediaStream.cpp:306-309 | a positive pitch is the picture width and the height is the largest h with 3h at most twice the whole rows the buffer holds; otherwise the stream's size stands in |
| Nv12.LockedGeometryFits | src/mf_source/FluxMicMediaStream.cpp:306-323 | with a positive pitch and length, the luma and chroma rows of that geometry fit inside the locked buffer |
| H264.FrameBytes | src/mf_source/H264Decoder.cpp:139 | the 32-bit wrapped NV12 size is always below 2^31 |
| H264.FrameBytesExact | src/mf_source/H264Decoder.cpp:237 | when width x height x 3 fits 32 bits, the wrapped NV12 size is the true one |
| H264.Shutdown | src/mf_source/H264Decoder.cpp:100-110 | shutting down releases the transform, clears both flags, the size and the output buffer |
| H264.ShutdownIdempotent | src/mf_source/H264Decoder.cpp:100-110 | shutting down twice is shutting down once |
| H264.Initialize | src/mf_source/H264Decoder.cpp:41-98 | an initialised decoder is left alone; otherwise initialisation succeeds exactly when creation, input type creation and setting the input type succeed, with output not yet configured |
| H264.FailedInitializeResets | src/mf_source/H264Decoder.cpp:51-92 | a failed initialisation leaves the decoder as new |
| H264.FirstNv12 | src/mf_source/H264Decoder.cpp:116-148 | finds the first NV12 type, and none exactly when no type is NV12 |
| H264.Negotiate | src/mf_source/H264Decoder.cpp:112-152 | negotiation succeeds exactly when there is a transform, an NV12 type and setting it succeeds; it then adopts that type's size and resizes the output to its wrapped NV12 size; failure changes nothing |
| H264.NegotiateIgnoresLaterTypes | src/mf_source/H264Decoder.cpp:126-145 | types listed after the first NV12 one never matter |
| H264.FirstNv12Prefix | src/mf_source/H264Decoder.cpp:116-148 | appending types after an NV12 type does not change which one is found |
| H264.OutputBufferSize | src/mf_source/H264Decoder.cpp:176-181 | the output buffer uses the transform's size if given, else the current NV12 size, else the 32-bit NV12 size of 1920x1080 (which is exact), and is never empty |
| H264.StoreFrame | src/mf_source/H264Decoder.cpp:236-243 | a long enough decoded buffer overwrites the first NV12-size bytes of the output, growing it if needed; a shorter one leaves the output as it was |
| H264.DrainOutput | src/mf_source/H264Decoder.cpp:154-251 | a frame is reported exactly when ProcessOutput is reached and produces a sample that is returned (when the transform allocates), made contiguous, locked and non-empty; a stream or type change renegotiates and reports none; every other failure changes nothing; an output buffer of `cbSize`, else one frame, else one 1920x1080 frame is supplied exactly when the transform does not allocate and creating the sample and the buffer both succeed |
| H264.ShortSampleReportsStaleFrame | src/mf_source/H264Decoder.cpp:236-250 | a non-empty output shorter than the NV12 size is reported as a frame while the output buffer keeps the previous picture |
| H264.StreamChangeConfiguresWithoutFrame | src/mf_source/H264Decoder.cpp:198-207 | a stream change with an NV12 type available configures the output at that type's size and reports no frame |
| H264.SubmitInput | src/mf_source/H264Decoder.cpp:258-301 | input is taken exactly when the first submit is accepted, or it was refused as not accepting and the resubmit after one drain is accepted |
| H264.DecodeNal | src/mf_source/H264Decoder.cpp:253-329 | an uninitialised decoder, a missing or empty NAL gives no frame and no calls; a reported frame means the output is configured; at most five transform calls |
| H264.NotAcceptingDrainsThenResubmits | src/mf_source/H264Decoder.cpp:286-301 | a not-accepting input is followed by one drain and the same NAL submitted again |
| H264.RetriesOnceWhenConfigured | src/mf_source/H264Decoder.cpp:286-328 | once the input is taken, on the first submit or on the resubmit after not-accepting: unconfigured after the first pull gives no frame; configured but empty retries exactly once; a frame on the first pull is returned without retry; the drain counts include the one before a resubmit |
| H264.DrainsAppend | src/mf_source/H264Decoder.cpp:286-328 | the drains of consecutive call sequences add up |
| H264.FirstFrameAfterNegotiation | src/mf_source/H264Decoder.cpp:312-328 | the first NAL after a stream change negotiates NV12 and returns what the retry drain produces at the new size |
| MediaStream.Create | src/mf_source/FluxMicMediaStream.cpp:46-79 | a new stream is stopped, without pipe, decoder or allocator, and takes its size from the descriptor's current type when it can be read, else 1920x1080 |
| MediaStream.InitializeAllocator | src/mf_source/FluxMicMediaStream.cpp:511-527 | initialisation is attempted exactly when an allocator is set but not initialised and the handler and current type are obtained; it marks the allocator initialised only on success |
| MediaStream.SetSampleAllocator | src/mf_source/FluxMicMediaStream.cpp:496-509 | refused after shutdown or while running; otherwise replaces the allocator and marks it uninitialised |
| MediaStream.NegotiatesOncePerAllocator | src/mf_source/FluxMicMediaStream.cpp:496-527 | a successful initialisation is not repeated until a new allocator is set, after which it is attempted again |
| MediaStream.FailedNegotiationRetries | src/mf_source/FluxMicMediaStream.cpp:511-527 | a failed initialisation is retried on the next start |
| MediaStream.SetStreamState | src/mf_source/FluxMicMediaStream.cpp:405-419 | refused after shutdown; otherwise adopts the state, initialises the allocator when running, and queues stream-started, stream-stopped or nothing |
| MediaStream.Start | src/mf_source/FluxMicMediaStream.cpp:432-442 | starting runs the allocator setup, resets the sample index, records the start time and queues stream-started |
| MediaStream.Stop | src/mf_source/FluxMicMediaStream.cpp:444-451 | stopping closes the pipe, forgets the cached frame and queues stream-stopped |
| MediaStream.Shutdown | src/mf_source/FluxMicMediaStream.cpp:453-484 | shutdown closes the pipe, shuts the decoder, drops allocator, attributes and descriptor; a second shutdown changes nothing |
| MediaStream.ShutdownIdempotent | src/mf_source/FluxMicMediaStream.cpp:453-484 | shutting down twice is shutting down once |
| MediaStream.GetAttributes | src/mf_source/FluxMicMediaStream.cpp:486-494 | succeeds exactly for a present out pointer on a live stream that has attributes; null pointer and shutdown errors come first |
| MediaStream.GetStreamDescriptor | src/mf_source/FluxMicMediaStream.cpp:168-176 | succeeds exactly for a present out pointer on a live stream that has a descriptor |
| MediaStream.QueueEvent | src/mf_source/FluxMicMediaStream.cpp:147-152 | refused with the shutdown error after shutdown; otherwise the event queue's result is returned and the event is queued only when that result is a success |
| MediaStream.Fetch | src/mf_source/FluxMicMediaStream.cpp:228-265 | with a frame held, the NAL buffer gets its payload and the sequence is recorded; a decoded frame becomes the cached last good frame; otherwise the cache is untouched |
| MediaStream.Load | src/mf_source/FluxMicMediaStream.cpp:228-240 | a held message's payload is read exactly when a frame is held, into a NAL buffer grown to fit it, and its sequence is recorded; nothing else changes |
| MediaStream.DecodeInto | src/mf_source/FluxMicMediaStream.cpp:242-256 | a decoded NAL leaves the decoder configured and its picture cached as the last good frame; otherwise the cache is untouched |
| MediaStream.Prepare | src/mf_source/FluxMicMediaStream.cpp:199-213 | a closed pipe is opened and an uninitialised decoder is initialised once per request, nothing else changes |
| MediaStream.Collect | src/mf_source/FluxMicMediaStream.cpp:220-273 | with pipe and decoder ready, a new decoded frame is used and cached; without one, the cached frame is replayed if there is one |
| MediaStream.Acquire | src/mf_source/FluxMicMediaStream.cpp:199-276 | the frame shown is the new decoded one, else the cached one when pipe and decoder are ready, else none; a chosen frame always covers its NV12 size |
| MediaStream.CreateBlackSample | src/mf_source/FluxMicMediaStream.cpp:530-561 | a black sample is built exactly when sample and buffer creation succeed, filled when the lock succeeds; otherwise the first failure is reported |
| MediaStream.Produce | src/mf_source/FluxMicMediaStream.cpp:279-367 | without allocator or allocated sample a black sample; a locked 2D buffer gets the frame copied or black rows at the derived geometry; a 1D buffer shows the frame only when it fits; lock failures are reported |
| MediaStream.LockedPictureFits | src/mf_source/FluxMicMediaStream.cpp:305-323 | the picture written into a locked 2D buffer fits the locked length, a copied frame covers its own NV12 size, the destination width is the pitch, and `CopyNv12ToBuffer` accepts a copied picture exactly when its geometry lets the copy read inside the source |
| MediaStream.PackedPictureFits | src/mf_source/FluxMicMediaStream.cpp:329-353 | a 1D buffer receives the frame or a black frame only when its NV12 size fits the maximum length, and is left as allocated otherwise |
| MediaStream.RequestSample | src/mf_source/FluxMicMediaStream.cpp:178-399 | refused after shutdown or when not running, with nothing changed; on success exactly one sample is queued, stamped with the clock, duration 333333 and the token, and the index advances |
| MediaStream.Deliver | src/mf_source/FluxMicMediaStream.cpp:279-396 | a built sample is counted even when queueing fails; a queued sample carries the clock time, duration 333333, the token and the picture built for the chosen frame |
| MediaStream.SampleShowsChosenFrame | src/mf_source/FluxMicMediaStream.cpp:283-327 | with a locked 2D buffer, the queued sample shows exactly the frame picture choice made |
| MediaStream.WithoutAllocatorAlwaysBlack | src/mf_source/FluxMicMediaStream.cpp:364-367 | without an allocator every queued sample is black at the stream's size |
| MediaStream.RefusedRequestIsInert | src/mf_source/FluxMicMediaStream.cpp:180-187 | a refused request changes nothing and queues nothing |
| MediaStream.CachedFrameReplayed | src/mf_source/FluxMicMediaStream.cpp:248-273 | after a decoded frame, a later request without a new one while the pipe stays open shows the same picture |
| MediaStream.ClosedPipeHidesCache | src/mf_source/FluxMicMediaStream.cpp:220-276 | with the pipe closed and reconnection failing, the cached frame is kept but not shown |
| MediaStream.StopForgetsLastFrame | src/mf_source/FluxMicMediaStream.cpp:444-451 | after a stop, only a newly decoded frame can be shown |
| MediaStream.StopThenStart | src/mf_source/FluxMicMediaStream.cpp:432-451 | stop then start queues stream-stopped then stream-started and leaves a running stream with index 0, no cache and the pipe closed |
| MediaStream.ShutdownIsTerminal | src/mf_source/FluxMicMediaStream.cpp:453-509 | after shutdown, requests, client events, state changes, allocator changes and attribute queries fail with the shutdown error and change nothing |
| MediaSource.TypesFor | src/mf_source/FluxMicMediaSource.cpp:206-220 | each resolution contributes an NV12 type followed by an RGB32 type of the same size and rate |
| MediaSource.OfferedTypes | src/mf_source/FluxMicMediaSource.cpp:206-220 | the source offers four media types |
| MediaSource.OfferedTypesInOrder | src/mf_source/FluxMicMediaSource.cpp:206-220 | the types are NV12 and RGB32 at 1920x1080, then NV12 and RGB32 at 1280x720, all at 30 fps |
| MediaSource.Initialize | src/mf_source/FluxMicMediaSource.cpp:142-266 | initialisation succeeds exactly when every creation step succeeds; otherwise it reports the first failing step's status, or E_OUTOFMEMORY when the stream cannot be allocated; the new source is stopped, with a stopped stream |
| MediaSource.StreamSizedFromFirstType | src/mf_source/FluxMicMediaSource.cpp:235-262 | the stream of an initialised source is sized 1920x1080, the first offered type |
| MediaSource.EventAccess | src/mf_source/FluxMicMediaSource.cpp:308-332 | event retrieval fails with the shutdown error after shutdown and forwards the queue's result otherwise |
| MediaSource.QueueEvent | src/mf_source/FluxMicMediaSource.cpp:334-339 | refused with the shutdown error after shutdown; otherwise the event queue's result is returned and the event joins the log only when that result is a success |
| MediaSource.GetCharacteristics | src/mf_source/FluxMicMediaSource.cpp:345-351 | succeeds exactly for a present out pointer on a live source |
| MediaSource.CreatePresentationDescriptor | src/mf_source/FluxMicMediaSource.cpp:353-394 | null pointer, shutdown, then a missing descriptor are reported in that order; otherwise the clone's result |
| MediaSource.Start | src/mf_source/FluxMicMediaSource.cpp:396-436 | refused after shutdown or for a non-default time format; otherwise records the start time and queues source-started, then new-stream on a first start or updated-stream on a restart, then stream-started |
| MediaSource.Stop | src/mf_source/FluxMicMediaSource.cpp:438-450 | refused after shutdown; otherwise stops the stream and queues stream-stopped then source-stopped |
| MediaSource.Pause | src/mf_source/FluxMicMediaSource.cpp:452-455 | pausing is always an invalid state transition and changes nothing |
| MediaSource.Shutdown | src/mf_source/FluxMicMediaSource.cpp:457-490 | shutdown detaches the stream and marks the source shut down and not started, queuing nothing; a second shutdown changes nothing |
| MediaSource.DetachedStream | src/mf_source/FluxMicMediaSource.cpp:466-470 | the stream a shutdown detaches is itself shut down |
| MediaSource.GetSourceAttributes | src/mf_source/FluxMicMediaSource.cpp:496-505 | succeeds exactly for a present out pointer on a live source that has attributes |
| MediaSource.GetStreamAttributes | src/mf_source/FluxMicMediaSource.cpp:507-518 | any stream id but 0 is an invalid stream number; stream 0 forwards to the stream's own attributes |
| MediaSource.SetDefaultAllocator | src/mf_source/FluxMicMediaSource.cpp:567-583 | refused after shutdown, for a wrong stream id, or for an object that is not a video sample allocator; otherwise forwards to the stream's allocator setter |
| MediaSource.GetAllocatorUsage | src/mf_source/FluxMicMediaSource.cpp:585-593 | a missing usage pointer is a null-pointer error; otherwise the provided allocator is used and the input stream is the output stream |
| MediaSource.RequestSample | src/mf_source/FluxMicMediaStream.cpp:178-187 | a request reaches the attached stream and its events join the log; with the stream detached it is a shutdown error |
| MediaSource.FirstStartAnnouncesNewStream | src/mf_source/FluxMicMediaSource.cpp:412-433 | the first start after initialisation queues source-started, new-stream and stream-started and runs the stream |
| MediaSource.RestartAnnouncesUpdatedStream | src/mf_source/FluxMicMediaSource.cpp:412-433 | a second start announces the stream as updated |
| MediaSource.StopMakesNextStartNew | src/mf_source/FluxMicMediaSource.cpp:438-450 | after a stop the next start announces a new stream again |
| MediaSource.ShutdownIsTerminal | src/mf_source/FluxMicMediaSource.cpp:457-593 | after shutdown every guarded entry point fails with the shutdown error and changes nothing |

## Left out

- **Environment.** Named-pipe, COM and Media Foundation calls, the system
  clock and sleeping are outcomes given as input. Real time is counted as
  one-millisecond sleep steps.
- **Read errors.** A scripted read error counts as one queued byte, so the
  peek before it reports data and the read that follows meets the error.
- FrameReader.Poll: the pipe's `connected` flag is fixed for one wait. A
  producer that disconnects partway through a wait (a later failed peek)
  is expressed as a read-error arrival instead. That gives the same
  outcome: the reader closes and no frame is reported.
- H264.SubmitInput: the resubmission after not-accepting assumes that
  creating its sample and buffer and locking the buffer succeed. The code
  does not check these three results (`H264Decoder.cpp:291-298`), so a
  failure there would use a null or stale pointer.
- **Ignored event-queue results.** Where the code ignores the result of
  queueing an event, the model assumes the event is queued. This covers the
  source's `Start` and `Stop` (`FluxMicMediaSource.cpp:425`, `:430`, `:448`)
  and the stream's `SetStreamState`, `Start` and `Stop`
  (`FluxMicMediaStream.cpp:413`, `:415`, `:439`, `:449`).
- MediaSource.SetDefaultAllocator: a null allocator pointer is outside the
  model, since `AllocatorObject` has no null case. The code calls
  `QueryInterface` on it without a check (`FluxMicMediaSource.cpp:576`), so
  a null pointer would be dereferenced.
- **Not modelled:**
  - threads and the mutexes;
  - reference counting and `QueryInterface`;
  - debug logging and the performance timers.
- **Decoder.** The low-latency codec setting is not modelled, because it does
  not affect any result.
- **Source initialisation.** These parts have no effect on the model's
  results, so they are not modelled:
  - the copy of the activation attributes;
  - the sensor-profile attributes;
  - the per-type attributes other than subtype, size and frame rate.
- **Excluded files.** `FluxMicActivate`, `dllmain` and `softcam` are not
  part of this model, and neither are the BGRA converters.
- **Stubs.** `SetD3DManager`, `GetService`, `KsProperty`, `KsMethod`,
  `KsEvent`, `GetStreamState` and `GetMediaSource` are stubs or plain
  accessors.
- **Presentation descriptor.** The diagnostics logged when cloning it are not
  modelled.
- Nv12.CopyNv12ToBuffer:
  - negative and zero pitches are not modelled;
  - the scaled path needs a source width that is even and at least two, and
    a source height of at least two. Otherwise the code reads past the
    source picture's chroma rows. A decoded NV12 picture has even sides;
  - at equal sizes any geometry is accepted;
  - an odd destination width, meaning an odd locked pitch, is accepted but
    copied with the corrected chroma loop, which writes nothing past the
    row. The code as written writes one byte past it (see Findings).
- Nv12.CopyScaled: for an odd destination width it does not model the byte
  that the as-written chroma loop writes at column `dstW` of each chroma row.
  That byte can lie past the locked buffer. `PictureOnly` states the
  corrected behaviour instead (see Findings and `Nv12.OddWidthWritesPastRow`).
- Nv12.LockedGeometry: `length / pitch * 2` is not wrapped at 32 bits. This
  matters only for a pitch of 1 with a buffer over 2 GiB.
- **Integer width.**
  - `H264.FrameBytes` models the wrapper's 32-bit `w * h * 3 / 2` exactly.
  - Elsewhere sizes are unbounded integers:
    - the NV12 size used for copies and fills;
    - the 64-bit sample index, which cannot wrap in practice.
- MediaStream.Start: `requires` that the stream is not shut down. The source
  only starts a stream it still holds, and a held stream is never shut down.
- MediaStream.Stop: `requires` that the stream is not shut down, for the same
  reason.
- MediaStream.Collect: reads the pipe through the staged reader, the
  correction described under Findings. `FrameReader.ReadModesAgree` shows
  that the two readers differ only in the receive buffer, so only the bytes
  handed to the decoder differ from the code as written.
- MediaStream.CreateBlackSample: the null out-pointer error is not modelled,
  because its only caller always passes a pointer.
- MediaStream.Create:
  - creating the stream's event queue is assumed to succeed;
  - a `vector::data()` of an empty vector is taken to be non-null, which is
    how `RequestSample` uses the cached frame.
- **Stale header fields.** The header's width, height and timestamp are
  carried through the model but not interpreted, as in the code.
- **Behaviours that are easy to misread, kept as the code has them.**
  - A drain stops at the first message it rejects. Newer messages queued
    behind a malformed one stay queued for the next call; they are not read
    through to the latest (`FrameReader.DrainStopsAtFirstRejected`).
  - Data is "available" when the peek reports a positive byte count. An
    empty message adds no bytes: alone it is not seen and the wait times
    out; once other bytes arrive it is read first and rejected
    (`FrameReader.EmptyMessageStallsWait`).
  - A rejected message can corrupt the payload handed out for the accepted
    one before it. See Findings.
  - The decoder reports a picture when the transform hands back a non-empty
    buffer shorter than a frame, without copying it. The caller then caches
    and shows the previous picture (`H264.ShortSampleReportsStaleFrame`).
  - The cached frame is a fallback only while the pipe is open and the
    decoder started. With the pipe closed the sample is blank
    (`MediaStream.ClosedPipeHidesCache`).
  - The stream has a Paused state as well as Stopped and Running. Entering
    it queues no event.
  - The sample counter advances for every sample built, including one whose
    queueing failed.

## Findings

| source | as written | input that shows it | evidently intended | confidence | as-written member | corrected member |
|---|---|---|---|---|---|---|
| src/mf_source/SharedFrameBuffer.cpp:105-137 | each `ReadFile` in the drain loop writes straight into the receive buffer, so a rejected message read after an accepted one overwrites the accepted payload while the accepted header stays cached | a one-byte message announcing one byte, then a one-byte message announcing zero bytes, queued together: `ReadFrameData` returns the second message's byte under the first header | a rejected read leaves the accepted message intact: read into a scratch buffer and copy only what passes validation | not executed | FrameReader.InPlaceDrainCorruptsPayload | FrameReader.StagedWaitReadsLatest |
| src/mf_source/FluxMicMediaStream.cpp:608-614 | the chroma loop of the scaling path writes a U/V pair for every even column below the destination width, so an odd width (the width is the locked pitch) gets one byte written past each chroma row | a 4x4 frame into a locked buffer of pitch 3 and length 9: the picture is 3x2 and its only chroma row starts at byte 6, so the loop writes byte 9 of the 9-byte buffer | the last pair of an odd-width row writes only its U byte, so every write stays inside the picture | not executed | Nv12.OddPitchOverrunsBuffer | Nv12.CopyScaled |

=== FILE: bytes.dfy ===
/**
 Byte-level vocabulary shared by every component: bounded integer types,
 an optional value, and the three buffer primitives the C++ code relies on
 (`std::vector::resize`, `memcpy` into a prefix, `memset`).
 */
module Bytes {

  type byte = b: int | 0 <= b < 0x100
  type u32 = x: int | 0 <= x < 0x1_0000_0000
  type u64 = x: int | 0 <= x < 0x1_0000_0000_0000_0000

  datatype Option<+T> = None | Some(value: T)

  /** `n` copies of the byte `v`. */
  function Repeat(n: nat, v: byte): (r: seq<byte>)
    ensures |r| == n
    ensures forall i :: 0 <= i < n ==> r[i] == v
  {
    seq(n, _ => v)
  }

  /** `std::vector<uint8_t>::resize(n)`: the first bytes survive, new bytes are zero. */
  function Resize(v: seq<byte>, n: nat): (r: seq<byte>)
    ensures |r| == n
    ensures forall i :: 0 <= i < n ==> r[i] == (if i < |v| then v[i] else 0)
  {
    if n <= |v| then v[..n] else v + Repeat(n - |v|, 0)
  }

  /** `memcpy(buf + off, data, |data|)`: every byte outside the copied range is kept. */
  function Memcpy(buf: seq<byte>, off: nat, data: seq<byte>): (r: seq<byte>)
    requires off + |data| <= |buf|
    ensures |r| == |buf|
    ensures forall k :: 0 <= k < |buf| ==> r[k] == if off <= k < off + |data| then data[k - off] else buf[k]
  {
    buf[..off] + data + buf[off + |data|..]
  }

  /** `memset(buf + off, v, n)`. */
  function Memset(buf: seq<byte>, off: nat, n: nat, v: byte): (r: seq<byte>)
    requires off + n <= |buf|
    ensures |r| == |buf|
    ensures forall k :: 0 <= k < |buf| ==> r[k] == if off <= k < off + n then v else buf[k]
  {
    Memcpy(buf, off, Repeat(n, v))
  }
}

=== FILE: decoder.dfy ===
/**
 The H.264 decoder wrapper (`H264Decoder`): the flag-and-geometry state
 machine around the Media Foundation decoder transform (MFT). The MFT is not
 modelled; every result it gives is an input to the operation that asks for
 it.
 */
module H264 {
  import opened Bytes
  import opened Nv12

  /**
   The wrapper's fields; `mft` stands for a non-null transform pointer and
   `output` for `m_nv12Output`.
   */
  datatype Decoder = Decoder(
    mft: bool,
    initialized: bool,
    configured: bool,
    width: u32,
    height: u32,
    output: seq<byte>)

  /** A freshly constructed (or shut down) wrapper. */
  const Fresh := Decoder(false, false, false, 0, 0, [])

  /**
   What every operation keeps: an uninitialised wrapper is in its fresh
   state, an initialised one holds a transform, and a configured one holds
   at least a whole frame of the negotiated geometry.
   */
  ghost predicate Valid(d: Decoder) {
    && (!d.initialized ==> d == Fresh)
    && (d.initialized ==> d.mft)
    && (d.configured ==> |d.output| >= FrameBytes(d.width, d.height))
  }

  /** `w * h * 3 / 2` evaluated in 32-bit unsigned arithmetic, as the wrapper computes it. */
  function FrameBytes(w: u32, h: u32): (n: nat)
    ensures n < 0x8000_0000
  {
    (w * h % 0x1_0000_0000) * 3 % 0x1_0000_0000 / 2
  }

  /** For every geometry whose NV12 size fits 32 bits the wrapper's arithmetic is exact. */
  lemma {:induction false} FrameBytesExact(w: u32, h: u32)
    requires w * h * 3 < 0x1_0000_0000
    ensures FrameBytes(w, h) == Nv12Size(w, h)
  {
    var p := w as int * h as int;
    assert p * 3 == w * h * 3;
    assert p < 0x1_0000_0000 && p % 0x1_0000_0000 == p;
    assert p * 3 % 0x1_0000_0000 == p * 3;
    assert Nv12Size(w, h) == p * 3 / 2;
  }

  // ---------------------------------------------------------------------------
  // Initialize and Shutdown
  // ---------------------------------------------------------------------------

  /** Outcomes of the calls `Initialize` makes; setting low-latency mode is non-fatal and not listed. */
  datatype InitScript = InitScript(created: bool, inputTypeCreated: bool, inputTypeSet: bool)

  datatype Started = Started(dec: Decoder, ok: bool)

  /** Releases the transform and forgets the negotiated output. */
  function Shutdown(d: Decoder): (s: Decoder)
    ensures !s.mft && !s.initialized && !s.configured
    ensures s.width == 0 && s.height == 0 && s.output == []
    ensures Valid(s)
  {
    Fresh
  }

  lemma ShutdownIdempotent(d: Decoder)
    ensures Shutdown(Shutdown(d)) == Shutdown(d)
  {
  }

  function IsInitialized(d: Decoder): bool {
    d.initialized
  }

  /**
   Creates the transform and sets its input type (H.264 elementary stream).
   Does nothing when already initialised; a failure after creation shuts the
   wrapper down.
   */
  function Initialize(d: Decoder, s: InitScript): (r: Started)
    ensures d.initialized ==> r == Started(d, true)
    ensures !d.initialized ==> (r.ok <==> s.created && s.inputTypeCreated && s.inputTypeSet)
    ensures !d.initialized && r.ok ==> r.dec.initialized && !r.dec.configured && r.dec.mft
    ensures !r.ok ==> !r.dec.initialized && !r.dec.mft
    ensures Valid(d) ==> Valid(r.dec)
  {
    if d.initialized then Started(d, true)
    else if !s.created then Started(d.(mft := false), false)
    else if !s.inputTypeCreated || !s.inputTypeSet then Started(Shutdown(d), false)
    else Started(d.(mft := true, initialized := true, configured := false), true)
  }

  /** From any valid state a failed `Initialize` leaves the wrapper exactly as a fresh one. */
  lemma {:induction false} FailedInitializeResets(d: Decoder, s: InitScript)
    requires Valid(d)
    ensures !Initialize(d, s).ok ==> Initialize(d, s).dec == Fresh
  {
  }

  // ---------------------------------------------------------------------------
  // Output negotiation
  // ---------------------------------------------------------------------------

  /** One output type the transform offers (`GetOutputAvailableType`). */
  datatype OutputType = OutputType(nv12: bool, width: u32, height: u32)

  /** Index of the first NV12 type in the enumeration, if any. */
  function FirstNv12(types: seq<OutputType>): (i: Option<nat>)
    ensures i.Some? ==> i.value < |types| && types[i.value].nv12
    ensures i.Some? ==> forall j :: 0 <= j < i.value ==> !types[j].nv12
    ensures i.None? ==> forall j :: 0 <= j < |types| ==> !types[j].nv12
  {
    if |types| == 0 then None
    else if types[0].nv12 then Some(0)
    else match FirstNv12(types[1..])
      case None => None
      case Some(k) => Some(k + 1)
  }

  /**
   `NegotiateOutputType`: picks the first NV12 type the transform offers
   (`types` are the ones enumerated before `GetOutputAvailableType` fails) and,
   when `SetOutputType` accepts it (`setOk`), adopts its geometry and sizes
   the output buffer for one frame.
   */
  function Negotiate(d: Decoder, types: seq<OutputType>, setOk: bool): (r: Started)
    ensures r.ok <==> d.mft && FirstNv12(types).Some? && setOk
    ensures !r.ok ==> r.dec == d
    ensures r.ok ==> var t := types[FirstNv12(types).value];
                     && r.dec == d.(width := t.width, height := t.height, configured := true,
                                    output := r.dec.output)
                     && |r.dec.output| == FrameBytes(t.width, t.height)
                     && r.dec.output == Resize(d.output, FrameBytes(t.width, t.height))
  {
    if !d.mft then Started(d, false)
    else match FirstNv12(types)
      case None => Started(d, false)
      case Some(i) =>
        if !setOk then Started(d, false)
        else
          var t := types[i];
          Started(d.(width := t.width, height := t.height, configured := true,
                     output := Resize(d.output, FrameBytes(t.width, t.height))), true)
  }

  /** Negotiation succeeds on the first NV12 type regardless of what the others offer. */
  lemma {:induction false} NegotiateIgnoresLaterTypes(d: Decoder, types: seq<OutputType>, more: seq<OutputType>, setOk: bool)
    requires FirstNv12(types).Some?
    ensures Negotiate(d, types + more, setOk) == Negotiate(d, types, setOk)
  {
    var i := FirstNv12(types).value;
    FirstNv12Prefix(types, more);
    assert (types + more)[i] == types[i];
  }

  lemma {:induction false} FirstNv12Prefix(types: seq<OutputType>, more: seq<OutputType>)
    requires FirstNv12(types).Some?
    ensures FirstNv12(types + more) == FirstNv12(types)
  {
    var i := FirstNv12(types).value;
    var all := types + more;
    assert all[i] == types[i];
    assert forall j :: 0 <= j < i ==> all[j] == types[j];
  }

  // ---------------------------------------------------------------------------
  // DrainOutput
  // ---------------------------------------------------------------------------

  /** Result of one `ProcessOutput` call. */
  datatype OutputResult = Produced | StreamChange | TypeNotSet | NeedMoreInput | OutputFailed

  /**
   Everything `DrainOutput` learns from the transform and the buffer calls:
   stream info and its flags, whether creating our own sample and buffer
   succeeds, the `ProcessOutput` result, what negotiation would see, whether
   an output sample came back, and the locked bytes (`data`, `dataLen` bytes).
   */
  datatype OutputScript = OutputScript(
    infoOk: bool,
    providesSamples: bool,
    cbSize: u32,
    sampleOk: bool,
    bufferOk: bool,
    result: OutputResult,
    types: seq<OutputType>,
    setOk: bool,
    sampleReturned: bool,
    contiguousOk: bool,
    lockOk: bool,
    data: seq<byte>)

  /** Outcome of `DrainOutput`; `supplied` is the size of the output buffer the wrapper supplied, if any. */
  datatype Drained = Drained(dec: Decoder, got: bool, supplied: Option<nat>)

  /** Size of the output buffer the wrapper supplies: `cbSize`, else one frame, else one 1920x1080 frame. */
  function OutputBufferSize(cbSize: u32, w: u32, h: u32): (n: nat)
    ensures cbSize > 0 ==> n == cbSize
    ensures cbSize == 0 && FrameBytes(w, h) > 0 ==> n == FrameBytes(w, h)
    ensures cbSize == 0 && FrameBytes(w, h) == 0 ==> n == FrameBytes(1920, 1080) == Nv12Size(1920, 1080)
    ensures n > 0
  {
    if cbSize != 0 then cbSize
    else if FrameBytes(w, h) != 0 then FrameBytes(w, h)
    else 1920 * 1080 * 3 / 2
  }

  /** Stores a produced frame: exactly one frame's bytes, and only when the transform produced at least that many. */
  function StoreFrame(d: Decoder, data: seq<byte>): (s: Decoder)
    ensures s == d.(output := s.output)
    ensures var e := FrameBytes(d.width, d.height);
            && (|data| < e ==> s.output == d.output)
            && (|data| >= e ==> |s.output| == (if |d.output| < e then e else |d.output|)
                                && s.output[..e] == data[..e]
                                && (|d.output| >= e ==> s.output[e..] == d.output[e..]))
  {
    var e := FrameBytes(d.width, d.height);
    if |data| < e then d
    else
      var grown := if |d.output| < e then Resize(d.output, e) else d.output;
      d.(output := data[..e] + grown[e..])
  }

  /** Whether `DrainOutput` gets as far as calling `ProcessOutput`. */
  predicate ReachesProcessOutput(d: Decoder, o: OutputScript) {
    d.mft && o.infoOk && (o.providesSamples || (o.sampleOk && o.bufferOk))
  }

  /** `DrainOutput`: tries to pull one decoded frame out of the transform. */
  function DrainOutput(d: Decoder, o: OutputScript): (r: Drained)
    ensures r.got <==> (ReachesProcessOutput(d, o) && o.result == Produced && (o.providesSamples ==> o.sampleReturned)
                        && o.contiguousOk && o.lockOk && |o.data| > 0)
    ensures r.got ==> r.dec == StoreFrame(d, o.data)
    ensures o.result == StreamChange || o.result == TypeNotSet ==> !r.got
    ensures (o.result == StreamChange || o.result == TypeNotSet) && ReachesProcessOutput(d, o) ==>
              r.dec == Negotiate(d, o.types, o.setOk).dec
    ensures !r.got && ((o.result != StreamChange && o.result != TypeNotSet) || !ReachesProcessOutput(d, o)) ==>
              r.dec == d
    ensures r.supplied.Some? <==> d.mft && o.infoOk && !o.providesSamples && o.sampleOk && o.bufferOk
    ensures r.supplied.Some? ==> r.supplied.value == OutputBufferSize(o.cbSize, d.width, d.height)
    ensures Valid(d) ==> Valid(r.dec)
    ensures r.dec.initialized == d.initialized && r.dec.mft == d.mft
    ensures d.configured ==> r.dec.configured
  {
    if !d.mft || !o.infoOk then Drained(d, false, None)
    else if !o.providesSamples && (!o.sampleOk || !o.bufferOk) then Drained(d, false, None)
    else
      var alloc := if o.providesSamples then None else Some(OutputBufferSize(o.cbSize, d.width, d.height));
      match o.result
        case StreamChange => Drained(Negotiate(d, o.types, o.setOk).dec, false, alloc)
        case TypeNotSet => Drained(Negotiate(d, o.types, o.setOk).dec, false, alloc)
        case NeedMoreInput => Drained(d, false, alloc)
        case OutputFailed => Drained(d, false, alloc)
        case Produced =>
          if o.providesSamples && !o.sampleReturned then Drained(d, false, alloc)
          else if !o.contiguousOk || !o.lockOk || |o.data| == 0 then Drained(d, false, alloc)
          else Drained(StoreFrame(d, o.data), true, alloc)
  }

  /**
   A produced sample shorter than one frame still counts as a decoded frame:
   `DrainOutput` reports success while the output buffer keeps the previous
   frame's bytes.
   */
  lemma {:induction false} ShortSampleReportsStaleFrame(d: Decoder, o: OutputScript)
    requires d.mft && o.infoOk && (o.providesSamples ==> o.sampleReturned)
    requires !o.providesSamples ==> o.sampleOk && o.bufferOk
    requires o.result == Produced && o.contiguousOk && o.lockOk
    requires 0 < |o.data| < FrameBytes(d.width, d.height)
    ensures DrainOutput(d, o).got && DrainOutput(d, o).dec == d
  {
  }

  /** A stream change negotiates the output type, and the drain reports no frame even when negotiation succeeded. */
  lemma {:induction false} StreamChangeConfiguresWithoutFrame(d: Decoder, o: OutputScript)
    requires d.mft && o.infoOk && (!o.providesSamples ==> o.sampleOk && o.bufferOk)
    requires o.result == StreamChange || o.result == TypeNotSet
    requires FirstNv12(o.types).Some? && o.setOk
    ensures var r := DrainOutput(d, o);
            && !r.got && r.dec.configured
            && r.dec.width == o.types[FirstNv12(o.types).value].width
            && r.dec.height == o.types[FirstNv12(o.types).value].height
  {
  }

  // ---------------------------------------------------------------------------
  // DecodeNal
  // ---------------------------------------------------------------------------

  /** Result of one `ProcessInput` call. */
  datatype InputResult = InputAccepted | NotAccepting | InputFailed

  /**
   What `DecodeNal` learns from the transform: whether the first input
   sample and buffer can be created and locked, the two `ProcessInput`
   results (the second is used only after `NotAccepting`), and the three
   drains it may run: the one before resubmitting, the first pull, and the
   retry.
   */
  datatype DecodeScript = DecodeScript(
    sampleOk: bool,
    bufferOk: bool,
    lockOk: bool,
    firstInput: InputResult,
    retryInput: InputResult,
    makeRoom: OutputScript,
    pull: OutputScript,
    retryPull: OutputScript)

  /** The calls `DecodeNal` makes on the transform, in order. */
  datatype MftCall = Submit(bytes: seq<byte>) | Drain

  datatype Decoded = Decoded(dec: Decoder, got: bool, calls: seq<MftCall>)

  /** Submits the NAL (resubmitting once after `NotAccepting`); yields the state, the final result and the calls made. */
  function SubmitInput(d: Decoder, nal: seq<byte>, s: DecodeScript): (r: Decoded)
    requires d.mft
    ensures r.got <==> s.firstInput == InputAccepted || (s.firstInput == NotAccepting && s.retryInput == InputAccepted)
    ensures s.firstInput != NotAccepting ==> r.dec == d && r.calls == [Submit(if s.lockOk then nal else [])]
    ensures s.firstInput == NotAccepting ==>
              && r.dec == DrainOutput(d, s.makeRoom).dec
              && r.calls == [Submit(if s.lockOk then nal else []), Drain, Submit(nal)]
  {
    var first := [Submit(if s.lockOk then nal else [])];
    if s.firstInput != NotAccepting then Decoded(d, s.firstInput == InputAccepted, first)
    else
      var made := DrainOutput(d, s.makeRoom);
      Decoded(made.dec, s.retryInput == InputAccepted, first + [Drain, Submit(nal)])
  }

  /**
   `DecodeNal`: feeds one NAL unit (`present` false stands for a null
   pointer) and tries to pull a frame; true means a decoded NV12 frame is in
   the output buffer.
   */
  function DecodeNal(d: Decoder, present: bool, nal: seq<byte>, s: DecodeScript): (r: Decoded)
    ensures !d.initialized || !d.mft || !present || |nal| == 0 ==> r == Decoded(d, false, [])
    ensures r.got ==> r.dec.configured
    ensures |r.calls| <= 5
    ensures Valid(d) ==> Valid(r.dec)
    ensures r.dec.initialized == d.initialized && r.dec.mft == d.mft
  {
    if !d.initialized || !d.mft || !present || |nal| == 0 then Decoded(d, false, [])
    else if !s.sampleOk || !s.bufferOk then Decoded(d, false, [])
    else
      var input := SubmitInput(d, nal, s);
      if !input.got then Decoded(input.dec, false, input.calls)
      else
        var first := DrainOutput(input.dec, s.pull);
        if !first.dec.configured then Decoded(first.dec, false, input.calls + [Drain])
        else if first.got then Decoded(first.dec, true, input.calls + [Drain])
        else
          var retry := DrainOutput(first.dec, s.retryPull);
          Decoded(retry.dec, retry.got, input.calls + [Drain, Drain])
  }

  /** Number of drains in a call sequence. */
  function Drains(calls: seq<MftCall>): (n: nat)
    ensures n <= |calls|
  {
    if |calls| == 0 then 0 else (if calls[0] == Drain then 1 else 0) + Drains(calls[1..])
  }

  /**
   `NotAccepting` on the first submission leads to exactly one drain and
   then one resubmission of the same NAL, before anything else.
   */
  lemma {:induction false} NotAcceptingDrainsThenResubmits(d: Decoder, nal: seq<byte>, s: DecodeScript)
    requires d.initialized && d.mft && |nal| > 0 && s.sampleOk && s.bufferOk && s.lockOk
    requires s.firstInput == NotAccepting
    ensures var r := DecodeNal(d, true, nal, s);
            |r.calls| >= 3 && r.calls[..3] == [Submit(nal), Drain, Submit(nal)]
  {
  }

  /** Drains of consecutive call sequences add up. */
  lemma {:induction false} DrainsAppend(a: seq<MftCall>, b: seq<MftCall>)
    ensures Drains(a + b) == Drains(a) + Drains(b)
    decreases |a|
  {
    if |a| > 0 {
      assert (a + b)[1..] == a[1..] + b;
      DrainsAppend(a[1..], b);
    } else {
      assert a + b == b;
    }
  }

  /**
   Once the input is taken, whether on the first submission or on the
   resubmission after `NotAccepting`: no frame is reported while the output
   type is not configured, a frame from the first pull ends the call, and
   otherwise the pull is retried exactly once.
   */
  lemma {:induction false} RetriesOnceWhenConfigured(d: Decoder, nal: seq<byte>, s: DecodeScript)
    requires d.initialized && d.mft && |nal| > 0 && s.sampleOk && s.bufferOk
    requires SubmitInput(d, nal, s).got
    ensures var input := SubmitInput(d, nal, s);
            var r := DecodeNal(d, true, nal, s);
            var first := DrainOutput(input.dec, s.pull);
            && Drains(input.calls) == (if s.firstInput == NotAccepting then 1 else 0)
            && (!first.dec.configured ==> !r.got && Drains(r.calls) == Drains(input.calls) + 1)
            && (first.dec.configured && !first.got ==>
                  r.got == DrainOutput(first.dec, s.retryPull).got && Drains(r.calls) == Drains(input.calls) + 2)
            && (first.dec.configured && first.got ==> r.got && Drains(r.calls) == Drains(input.calls) + 1)
  {
    var input := SubmitInput(d, nal, s);
    var submit := [Submit(if s.lockOk then nal else [])];
    assert Drains(submit) == 0 by {
      assert submit[1..] == [];
    }
    if s.firstInput == NotAccepting {
      DrainsAppend(submit, [Drain, Submit(nal)]);
      assert [Drain, Submit(nal)][1..] == [Submit(nal)];
      assert [Submit(nal)][1..] == [];
    }
    DrainsAppend(input.calls, [Drain]);
    DrainsAppend(input.calls, [Drain, Drain]);
    assert [Drain][1..] == [];
    assert [Drain, Drain][1..] == [Drain];
  }

  /**
   The first decode after the parameter sets: the pull negotiates the output
   type, reports nothing, and the retry pulls the frame.
   */
  lemma {:induction false} FirstFrameAfterNegotiation(d: Decoder, nal: seq<byte>, s: DecodeScript)
    requires d.initialized && d.mft && !d.configured && |nal| > 0 && s.sampleOk && s.bufferOk
    requires s.firstInput == InputAccepted
    requires s.pull.infoOk && (!s.pull.providesSamples ==> s.pull.sampleOk && s.pull.bufferOk)
    requires s.pull.result == StreamChange && FirstNv12(s.pull.types).Some? && s.pull.setOk
    ensures var r := DecodeNal(d, true, nal, s);
            var n := Negotiate(d, s.pull.types, true).dec;
            && r.dec == DrainOutput(n, s.retryPull).dec
            && r.got == DrainOutput(n, s.retryPull).got
            && r.dec.configured
  {
  }
}

=== FILE: frame_reader.dfy ===
/**
 The consumer side of the frame channel (`SharedFrameReader`).

 The named pipe is modelled as a queue of slots: each slot is what one
 `ReadFile` will return, either the bytes of one message or a read error.
 A peek succeeds while the producer is connected and reports how many bytes
 are queued (`Available`); an empty message adds none. `arrivals[i]` holds the slots the producer writes during the i-th
 one-millisecond sleep of a poll.
 */
module FrameReader {
  import opened Bytes
  import opened Wire

  /** `SharedFrameReader`'s fields; `open` stands for a valid pipe handle. */
  datatype Reader = Reader(
    open: bool,
    buffer: seq<byte>,          // raw bytes of the most recent read
    cachedHeader: FrameHeader,  // header of the most recently accepted message
    hasFrame: bool,
    lastSequence: u32)

  /** A freshly constructed reader. */
  const Fresh := Reader(false, [], ZeroHeader, false, 0)

  /** What every operation keeps: a held frame has an accepted size, an open reader a full receive buffer. */
  ghost predicate Valid(r: Reader) {
    && (r.hasFrame ==> r.open && 0 < r.cachedHeader.frameSize <= MaxFrameDataSize)
    && (r.open ==> |r.buffer| == MaxMessageSize)
  }

  datatype Slot = Written(data: seq<byte>) | Fault

  datatype Pipe = Pipe(connected: bool, slots: seq<Slot>, arrivals: seq<seq<Slot>>)

  /** Outcome of the connection attempt in `Open`. */
  datatype Connect = NoServer | ModeRejected | Connected

  datatype Opened = Opened(reader: Reader, ok: bool)

  /** Where the bytes of each read land: straight into the receive buffer (as written) or only once accepted. */
  datatype ReadMode = InPlace | Staged

  datatype Wait = Wait(reader: Reader, pipe: Pipe, got: bool, peeks: nat, sleeps: nat)

  datatype Copied = Copied(reader: Reader, data: Option<seq<byte>>)

  /** Releases the handle; the receive buffer, cached header and sequence survive. */
  function Close(r: Reader): (c: Reader)
    ensures !c.open && !c.hasFrame && Valid(c)
    ensures c.buffer == r.buffer && c.cachedHeader == r.cachedHeader && c.lastSequence == r.lastSequence
  {
    r.(open := false, hasFrame := false)
  }

  lemma CloseIdempotent(r: Reader)
    ensures Close(Close(r)) == Close(r)
    ensures !IsOpen(Close(r))
  {
  }

  function IsOpen(r: Reader): bool {
    r.open
  }

  /** Connects after closing any previous connection; a success starts with no frame and sequence 0. */
  function Open(r: Reader, c: Connect): (o: Opened)
    ensures Valid(o.reader) && !o.reader.hasFrame
    ensures o.ok == o.reader.open
    ensures o.ok <==> c == Connected
    ensures o.ok ==> o.reader.lastSequence == 0 && |o.reader.buffer| == MaxMessageSize
    ensures !o.ok ==> o.reader == Close(r)
  {
    match c
    case NoServer => Opened(Close(r), false)
    case ModeRejected => Opened(Close(r), false)
    case Connected =>
      var closed := Close(r);
      Opened(closed.(open := true, buffer := Resize(closed.buffer, MaxMessageSize), hasFrame := false, lastSequence := 0), true)
  }

  /** Whether the reader was open before makes no difference to `Open`. */
  lemma {:induction false} OpenClosesFirst(r: Reader, c: Connect)
    ensures Open(r, c) == Open(Close(r), c)
  {
  }

  /** One millisecond passes: whatever the producer wrote during it is queued. */
  function Sleep(p: Pipe): (q: Pipe)
    ensures q.connected == p.connected
  {
    if |p.arrivals| == 0 then p
    else p.(slots := p.slots + p.arrivals[0], arrivals := p.arrivals[1..])
  }

  /** The bytes the peek counts for one slot; a pending read error counts as one. */
  function SlotBytes(s: Slot): nat {
    if s.Fault? then 1 else |s.data|
  }

  /** The byte count `PeekNamedPipe` reports: the bytes of every queued message. */
  function QueuedBytes(slots: seq<Slot>): nat {
    if |slots| == 0 then 0 else SlotBytes(slots[0]) + QueuedBytes(slots[1..])
  }

  /** The peek reports a positive byte count. */
  predicate Available(slots: seq<Slot>) {
    QueuedBytes(slots) > 0
  }

  /** Queues concatenate byte counts. */
  lemma {:induction false} QueuedBytesAppend(a: seq<Slot>, b: seq<Slot>)
    ensures QueuedBytes(a + b) == QueuedBytes(a) + QueuedBytes(b)
    decreases |a|
  {
    if |a| > 0 {
      assert (a + b)[1..] == a[1..] + b;
      QueuedBytesAppend(a[1..], b);
    } else {
      assert a + b == b;
    }
  }

  /** The queue the first peek that reports bytes sees, within `budget` further sleeps; `None` if time runs out first. */
  function Arrival(p: Pipe, budget: nat): (q: Option<Pipe>)
    ensures q.Some? ==> Available(q.value.slots) && q.value.connected == p.connected
    decreases budget
  {
    if Available(p.slots) then Some(p)
    else if budget == 0 then None
    else Arrival(Sleep(p), budget - 1)
  }

  /** A slot whose bytes pass the reader's acceptance test. */
  predicate Accepted(s: Slot) {
    s.Written? && WellFormed(s.data)
  }

  /** One `ReadFile` into the receive buffer: the bytes read overwrite its front. */
  function ReadInto(buf: seq<byte>, m: seq<byte>): (b: seq<byte>)
    requires |m| <= |buf|
    ensures |b| == |buf|
  {
    m + buf[|m|..]
  }

  /** A read is a `memcpy` of the bytes read to the start of the buffer. */
  lemma ReadIntoIsMemcpy(buf: seq<byte>, m: seq<byte>)
    requires |m| <= |buf|
    ensures ReadInto(buf, m) == Memcpy(buf, 0, m)
    ensures ReadInto(buf, m)[..|m|] == m
  {
  }

  /** A reader in the middle of a drain; `readOk` is whether it holds an accepted message. */
  ghost predicate Draining(r: Reader, readOk: bool) {
    && r.open && |r.buffer| == MaxMessageSize
    && (r.hasFrame ==> 0 < r.cachedHeader.frameSize <= MaxFrameDataSize)
    && readOk == r.hasFrame
  }

  /** A read that returned an accepted message: its bytes land in the buffer and its header is cached. */
  function Accept(r: Reader, m: seq<byte>): (a: Reader)
    requires |m| <= |r.buffer| && WellFormed(m)
    ensures a.open == r.open && a.hasFrame && a.lastSequence == r.lastSequence
    ensures a.cachedHeader == ParseHeader(m) && |a.buffer| == |r.buffer|
  {
    r.(buffer := ReadInto(r.buffer, m), cachedHeader := ParseHeader(m), hasFrame := true)
  }

  /** The accepted message fills the front of the buffer. */
  lemma AcceptFillsFront(r: Reader, m: seq<byte>)
    requires |m| <= |r.buffer| && WellFormed(m)
    ensures Accept(r, m).buffer[..|m|] == m
  {
  }

  /**
   A read that did not return an accepted message ends the drain with the
   current result: a read error closes the reader; a message longer than the
   buffer (ERROR_MORE_DATA) fills the buffer and leaves its tail queued; a
   malformed message is dropped.
   */
  function Reject(r: Reader, p: Pipe, readOk: bool, mode: ReadMode): (w: Wait)
    requires Draining(r, readOk) && Available(p.slots) && !Accepted(p.slots[0])
    ensures Valid(w.reader) && w.sleeps == 0 && w.peeks == 0 && w.got == readOk
    ensures w.reader.hasFrame <==> w.got && w.reader.open
    ensures w.reader.open <==> p.slots[0].Written?
    ensures w.reader.cachedHeader == r.cachedHeader && w.reader.lastSequence == r.lastSequence
    ensures w.pipe == p.(slots := Leftover(p.slots))
    ensures |w.reader.buffer| == |r.buffer|
    ensures mode == Staged || p.slots[0].Fault? ==> w.reader.buffer == r.buffer
    ensures mode == InPlace && p.slots[0].Written? && |p.slots[0].data| <= MaxMessageSize ==>
              w.reader.buffer == ReadInto(r.buffer, p.slots[0].data)
  {
    match p.slots[0]
    case Fault =>
      Wait(Close(r), p.(slots := p.slots[1..]), readOk, 0, 0)
    case Written(m) =>
      if |m| > MaxMessageSize then
        var r1 := if mode == InPlace then r.(buffer := ReadInto(r.buffer, m[..MaxMessageSize])) else r;
        Wait(r1, p.(slots := [Written(m[MaxMessageSize..])] + p.slots[1..]), readOk, 0, 0)
      else
        var r1 := if mode == InPlace then r.(buffer := ReadInto(r.buffer, m)) else r;
        Wait(r1, p.(slots := p.slots[1..]), readOk, 0, 0)
  }

  /** The drain loop: read, validate, and keep reading while the peek shows more bytes queued. */
  function Drain(r: Reader, p: Pipe, readOk: bool, mode: ReadMode): (w: Wait)
    requires Draining(r, readOk) && Available(p.slots)
    ensures Valid(w.reader) && w.sleeps == 0
    ensures w.reader.hasFrame <==> w.got && w.reader.open
    ensures w.got <==> readOk || Accepted(p.slots[0])
    ensures w.reader.lastSequence == r.lastSequence
    decreases |p.slots|
  {
    if !Accepted(p.slots[0]) then Reject(r, p, readOk, mode)
    else
      var m := p.slots[0].data;
      var r2 := Accept(r, m);
      var rest := p.(slots := p.slots[1..]);
      if !rest.connected || !Available(rest.slots) then Wait(r2, rest, true, 1, 0)
      else
        var w := Drain(r2, rest, true, mode);
        w.(peeks := w.peeks + 1)
  }

  /** The polling loop: peek, drain if bytes are queued, otherwise sleep one unit while time remains. */
  function Poll(r: Reader, p: Pipe, elapsed: nat, timeoutMs: nat, mode: ReadMode): (w: Wait)
    requires r.open && |r.buffer| == MaxMessageSize && !r.hasFrame
    requires elapsed <= timeoutMs
    ensures Valid(w.reader)
    ensures w.reader.hasFrame <==> w.got && w.reader.open
    ensures var q := Arrival(p, timeoutMs - elapsed);
            w.got <==> p.connected && q.Some? && Accepted(q.value.slots[0])
    ensures !p.connected ==> !w.reader.open
    ensures 1 <= w.peeks && w.sleeps <= timeoutMs - elapsed
    ensures w.reader.lastSequence == r.lastSequence
    decreases timeoutMs - elapsed
  {
    if !p.connected then Wait(Close(r), p, false, 1, 0)
    else if Available(p.slots) then
      var d := Drain(r, p, false, mode);
      d.(peeks := d.peeks + 1)
    else if elapsed < timeoutMs then
      var w := Poll(r, Sleep(p), elapsed + 1, timeoutMs, mode);
      w.(peeks := w.peeks + 1, sleeps := w.sleeps + 1)
    else Wait(r, p, false, 1, 0)
  }

  /** `WaitForFrame` with the chosen read mode. */
  function WaitWith(r: Reader, p: Pipe, timeoutMs: nat, mode: ReadMode): (w: Wait)
    requires Valid(r)
    ensures Valid(w.reader)
    ensures !r.open ==> w == Wait(r, p, false, 0, 0)
    ensures r.open ==> 1 <= w.peeks && w.sleeps <= timeoutMs
    ensures w.reader.hasFrame <==> w.got && w.reader.open
    ensures var q := Arrival(p, timeoutMs);
            w.got <==> r.open && p.connected && q.Some? && LeadingAccepted(q.value.slots) > 0
    ensures w.reader.lastSequence == r.lastSequence
  {
    if !r.open then Wait(r, p, false, 0, 0)
    else Poll(r.(hasFrame := false), p, 0, timeoutMs, mode)
  }

  /** `SharedFrameReader::WaitForFrame` as written. */
  function WaitForFrame(r: Reader, p: Pipe, timeoutMs: nat): (w: Wait)
    requires Valid(r)
    ensures Valid(w.reader)
    ensures !r.open ==> w == Wait(r, p, false, 0, 0)
    ensures r.open ==> 1 <= w.peeks && w.sleeps <= timeoutMs
    ensures w.reader.hasFrame <==> w.got && w.reader.open
    ensures var q := Arrival(p, timeoutMs);
            w.got <==> r.open && p.connected && q.Some? && LeadingAccepted(q.value.slots) > 0
  {
    WaitWith(r, p, timeoutMs, InPlace)
  }

  function ReadHeader(r: Reader): (h: Option<FrameHeader>)
    ensures h.Some? <==> r.hasFrame
    ensures h.Some? ==> h.value == r.cachedHeader
  {
    if r.hasFrame then Some(r.cachedHeader) else None
  }

  /**
   Copies the payload of the held message into a destination of `dstSize`
   bytes (`dstPresent` false stands for a null destination) and records its
   sequence number.
   */
  function ReadFrameData(r: Reader, dstPresent: bool, dstSize: nat, header: FrameHeader): (c: Copied)
    requires Valid(r)
    ensures c.data.None? <==> !r.hasFrame || !dstPresent || header.frameSize > dstSize
                              || header.frameSize > MaxFrameDataSize
    ensures c.data.None? ==> c.reader == r
    ensures c.data.Some? ==> |c.data.value| == header.frameSize <= dstSize
    ensures c.data.Some? ==> c.data.value == r.buffer[HeaderSize..HeaderSize + header.frameSize]
    ensures c.data.Some? ==> c.reader == r.(lastSequence := header.sequence)
  {
    if !r.hasFrame || !dstPresent then Copied(r, None)
    else if header.frameSize > dstSize then Copied(r, None)
    else if header.frameSize > MaxFrameDataSize then Copied(r, None)
    else Copied(r.(lastSequence := header.sequence), Some(r.buffer[HeaderSize..HeaderSize + header.frameSize]))
  }

  // ---------------------------------------------------------------------------
  // Reference description of one drain
  // ---------------------------------------------------------------------------

  /** Number of leading slots the reader accepts; the drain stops at the first other slot. */
  function LeadingAccepted(slots: seq<Slot>): (k: nat)
    ensures k <= |slots|
    ensures forall i :: 0 <= i < k ==> Accepted(slots[i])
    ensures k < |slots| ==> !Accepted(slots[k])
  {
    if |slots| == 0 then 0
    else if Accepted(slots[0]) then 1 + LeadingAccepted(slots[1..])
    else 0
  }

  /**
   What a drain that stops at the head of `t` leaves queued: slots the peek
   reports no bytes for stay unread, and an oversized message keeps its unread tail.
   */
  function Leftover(t: seq<Slot>): seq<Slot> {
    if !Available(t) then t
    else match t[0]
      case Fault => t[1..]
      case Written(m) =>
        if |m| > MaxMessageSize then [Written(m[MaxMessageSize..])] + t[1..] else t[1..]
  }

  /** A queue the peek reports empty holds only empty messages, so the reader accepts none of it. */
  lemma {:induction false} SilentQueue(slots: seq<Slot>)
    requires !Available(slots)
    ensures forall i :: 0 <= i < |slots| ==> slots[i] == Written([])
    ensures LeadingAccepted(slots) == 0
    decreases |slots|
  {
    if |slots| > 0 {
      SilentQueue(slots[1..]);
      assert forall i :: 1 <= i < |slots| ==> slots[i] == slots[1..][i - 1];
    }
  }

  /** The slot that ended the drain leaves the payload of the latest accepted message in place. */
  predicate Harmless(slots: seq<Slot>, k: nat)
    requires k <= |slots|
  {
    k == |slots| || slots[k].Fault? || |slots[k].data| <= HeaderSize
  }

  /** After an accepted read, the drain goes on exactly while the peek reports bytes. */
  lemma DrainStep(r: Reader, p: Pipe, readOk: bool, mode: ReadMode)
    requires Draining(r, readOk) && Available(p.slots) && p.connected && Accepted(p.slots[0])
    ensures var r2 := Accept(r, p.slots[0].data);
            var rest := p.(slots := p.slots[1..]);
            && (Available(rest.slots) ==> Drain(r, p, readOk, mode) == Drain(r2, rest, true, mode).(peeks := Drain(r2, rest, true, mode).peeks + 1))
            && (!Available(rest.slots) ==> Drain(r, p, readOk, mode) == Wait(r2, rest, true, 1, 0))
  {
  }

  /**
   Drain-to-latest: the drain accepts the leading well-formed messages and
   caches the header of the LAST one (whether it accepted any is in `Drain`'s
   own contract).
   */
  lemma {:induction false} DrainToLatest(r: Reader, p: Pipe, readOk: bool, mode: ReadMode)
    requires Draining(r, readOk) && Available(p.slots) && p.connected
    ensures var k := LeadingAccepted(p.slots);
            var w := Drain(r, p, readOk, mode);
            && (k == 0 ==> w.reader.cachedHeader == r.cachedHeader)
            && (k > 0 ==> w.reader.cachedHeader == ParseHeader(p.slots[k - 1].data))
    decreases |p.slots|
  {
    if Accepted(p.slots[0]) {
      var r2 := Accept(r, p.slots[0].data);
      var rest := p.(slots := p.slots[1..]);
      var k' := LeadingAccepted(rest.slots);
      assert LeadingAccepted(p.slots) == k' + 1;
      DrainStep(r, p, readOk, mode);
      if Available(rest.slots) {
        DrainToLatest(r2, rest, true, mode);
        if k' > 0 {
          assert p.slots[k'] == rest.slots[k' - 1];
        }
      } else {
        SilentQueue(rest.slots);
      }
    }
  }

  /** The drain closes the reader exactly when the slot that stopped it is a read error. */
  lemma {:induction false} DrainClosesOnlyOnFault(r: Reader, p: Pipe, readOk: bool, mode: ReadMode)
    requires Draining(r, readOk) && Available(p.slots) && p.connected
    ensures var k := LeadingAccepted(p.slots);
            Drain(r, p, readOk, mode).reader.open <==> k == |p.slots| || p.slots[k].Written?
    decreases |p.slots|
  {
    if Accepted(p.slots[0]) {
      var r2 := Accept(r, p.slots[0].data);
      var rest := p.(slots := p.slots[1..]);
      DrainStep(r, p, readOk, mode);
      if Available(rest.slots) {
        DrainClosesOnlyOnFault(r2, rest, true, mode);
        var k' := LeadingAccepted(rest.slots);
        if k' < |rest.slots| {
          assert p.slots[k' + 1] == rest.slots[k'];
        }
      } else {
        SilentQueue(rest.slots);
      }
    }
  }

  /**
   The drain stops at, and consumes, the first slot it does not accept,
   keeping the unread tail of an oversized message queued.
   */
  lemma {:induction false} DrainStopsAtFirstRejected(r: Reader, p: Pipe, readOk: bool, mode: ReadMode)
    requires Draining(r, readOk) && Available(p.slots) && p.connected
    ensures Drain(r, p, readOk, mode).pipe == p.(slots := Leftover(p.slots[LeadingAccepted(p.slots)..]))
    decreases |p.slots|
  {
    if Accepted(p.slots[0]) {
      var r2 := Accept(r, p.slots[0].data);
      var rest := p.(slots := p.slots[1..]);
      var k' := LeadingAccepted(rest.slots);
      assert LeadingAccepted(p.slots) == k' + 1;
      DrainStep(r, p, readOk, mode);
      if Available(rest.slots) {
        DrainStopsAtFirstRejected(r2, rest, true, mode);
        assert p.slots[k' + 1..] == rest.slots[k'..];
      } else {
        SilentQueue(rest.slots);
      }
    }
  }

  /**
   The payload bytes a drain leaves in the receive buffer: in staged mode
   always those of the last accepted message; as written, only when the slot
   that ended the drain is harmless.
   */
  lemma {:induction false} DrainKeepsLatestPayload(r: Reader, p: Pipe, readOk: bool, mode: ReadMode)
    requires Draining(r, readOk) && Available(p.slots) && p.connected
    requires LeadingAccepted(p.slots) > 0
    requires mode == Staged || Harmless(p.slots, LeadingAccepted(p.slots))
    ensures var m := p.slots[LeadingAccepted(p.slots) - 1].data;
            var w := Drain(r, p, readOk, mode);
            |m| <= |w.reader.buffer| && w.reader.buffer[HeaderSize..|m|] == m[HeaderSize..]
    decreases |p.slots|
  {
    var m := p.slots[0].data;
    var r2 := Accept(r, m);
    var rest := p.(slots := p.slots[1..]);
    DrainStep(r, p, readOk, mode);
    if Available(rest.slots) {
      var k' := LeadingAccepted(rest.slots);
      if k' > 0 {
        assert p.slots[k'] == rest.slots[k' - 1];
        assert Harmless(p.slots, k' + 1) == Harmless(rest.slots, k');
        DrainKeepsLatestPayload(r2, rest, true, mode);
      } else {
        HarmlessRejectKeepsPayload(r2, rest, mode);
        AcceptKeepsPayload(r, m);
      }
    } else {
      SilentQueue(rest.slots);
      AcceptKeepsPayload(r, m);
    }
  }

  /** Accepting `m` puts its payload right after the header in the buffer. */
  lemma AcceptKeepsPayload(r: Reader, m: seq<byte>)
    requires |m| <= |r.buffer| && WellFormed(m)
    ensures Accept(r, m).buffer[HeaderSize..|m|] == m[HeaderSize..]
  {
    var b := Accept(r, m).buffer;
    assert b == m + r.buffer[|m|..];
    assert b[HeaderSize..|m|] == m[HeaderSize..];
  }

  /** A harmless rejected slot ends the drain without touching the payload area. */
  lemma HarmlessRejectKeepsPayload(r: Reader, p: Pipe, mode: ReadMode)
    requires Draining(r, true) && Available(p.slots) && !Accepted(p.slots[0])
    requires mode == Staged || Harmless(p.slots, 0)
    ensures Drain(r, p, true, mode).reader.buffer[HeaderSize..] == r.buffer[HeaderSize..]
  {
    var w := Reject(r, p, true, mode);
    if mode == InPlace && p.slots[0].Written? {
      var d := p.slots[0].data;
      assert w.reader.buffer == d + r.buffer[|d|..];
      assert (d + r.buffer[|d|..])[HeaderSize..] == r.buffer[HeaderSize..];
    }
  }

  /**
   Drain-to-latest through the whole `WaitForFrame` call (staged reads): with
   messages queued, the held header and payload are those of the last message
   accepted before the first rejected slot, and `got` says whether there was one.
   */
  lemma {:induction false} StagedWaitReadsLatest(r: Reader, p: Pipe, timeoutMs: nat)
    requires Valid(r) && r.open && p.connected && Available(p.slots)
    ensures var k := LeadingAccepted(p.slots);
            var w := WaitWith(r, p, timeoutMs, Staged);
            && w.got == (k > 0)
            && w.sleeps == 0
            && (k > 0 && (k == |p.slots| || p.slots[k].Written?) ==>
                  var m := p.slots[k - 1].data;
                  var h := ParseHeader(m);
                  && ReadHeader(w.reader) == Some(h)
                  && ReadFrameData(w.reader, true, h.frameSize, h).data == Some(m[HeaderSize..]))
  {
    var r0 := r.(hasFrame := false);
    var d := Drain(r0, p, false, Staged);
    assert WaitWith(r, p, timeoutMs, Staged) == d.(peeks := d.peeks + 1);
    DrainToLatest(r0, p, false, Staged);
    DrainClosesOnlyOnFault(r0, p, false, Staged);
    var k := LeadingAccepted(p.slots);
    if k > 0 && (k == |p.slots| || p.slots[k].Written?) {
      var m := p.slots[k - 1].data;
      assert Accepted(p.slots[k - 1]);
      assert ParseHeader(m).frameSize == AnnouncedSize(m);
      DrainKeepsLatestPayload(r0, p, false, Staged);
      assert d.reader.hasFrame;
    }
  }

  /**
   With no bytes queued and none arriving (empty messages add none), a poll
   peeks once per unit of time, sleeps exactly until the timeout, returns no
   frame and leaves what was queued unread.
   */
  lemma {:induction false} SilentPipeTimesOut(r: Reader, p: Pipe, elapsed: nat, timeoutMs: nat, mode: ReadMode)
    requires r.open && |r.buffer| == MaxMessageSize && !r.hasFrame
    requires elapsed <= timeoutMs
    requires p.connected && !Available(p.slots)
    requires forall i :: 0 <= i < |p.arrivals| ==> !Available(p.arrivals[i])
    ensures var w := Poll(r, p, elapsed, timeoutMs, mode);
            && !w.got && w.reader == r
            && w.sleeps == timeoutMs - elapsed
            && w.peeks == timeoutMs - elapsed + 1
            && |p.slots| <= |w.pipe.slots| && w.pipe.slots[..|p.slots|] == p.slots
            && (p.arrivals == [] ==> w.pipe == p)
    decreases timeoutMs - elapsed
  {
    if elapsed < timeoutMs {
      var q := Sleep(p);
      if |p.arrivals| > 0 {
        QueuedBytesAppend(p.slots, p.arrivals[0]);
      }
      assert forall i :: 0 <= i < |q.arrivals| ==> q.arrivals[i] == p.arrivals[i + 1];
      SilentPipeTimesOut(r, q, elapsed + 1, timeoutMs, mode);
      assert q.slots[..|p.slots|] == p.slots;
    }
  }

  /**
   An empty message adds no bytes to the peek: the wait that finds only it
   times out and leaves it queued, and the next wait reads it first, rejects
   it, and reports no frame although an accepted message is queued behind it.
   */
  lemma {:induction false} EmptyMessageStallsWait(r: Reader, m: seq<byte>, timeoutMs: nat, mode: ReadMode)
    requires Valid(r) && r.open && WellFormed(m)
    ensures var w := WaitWith(r, Pipe(true, [Written([])], []), timeoutMs, mode);
            !w.got && w.sleeps == timeoutMs && w.pipe.slots == [Written([])]
    ensures var w := WaitWith(r, Pipe(true, [Written([]), Written(m)], []), timeoutMs, mode);
            !w.got && w.reader.open && w.sleeps == 0 && w.pipe.slots == [Written(m)]
  {
    var r0 := r.(hasFrame := false);
    var p := Pipe(true, [Written([])], []);
    assert QueuedBytes(p.slots) == 0;
    SilentPipeTimesOut(r0, p, 0, timeoutMs, mode);
    var p2 := Pipe(true, [Written([]), Written(m)], []);
    assert p2.slots[1..] == [Written(m)] && p2.slots[1..][1..] == [];
    assert QueuedBytes(p2.slots) == |m| > 0;
    assert !Accepted(p2.slots[0]);
    var d := Drain(r0, p2, false, mode);
    assert d.pipe == Reject(r0, p2, false, mode).pipe == p2.(slots := p2.slots[1..]);
    assert Poll(r0, p2, 0, timeoutMs, mode) == d.(peeks := d.peeks + 1);
  }

  /** Two waits that agree on everything but the bytes left in the receive buffer. */
  predicate SameButBuffer(a: Wait, b: Wait) {
    a == b.(reader := b.reader.(buffer := a.reader.buffer))
  }

  /** Within one drain the read mode changes only the receive buffer. */
  lemma {:induction false} DrainModesAgree(r: Reader, p: Pipe, readOk: bool)
    requires Draining(r, readOk) && Available(p.slots)
    ensures SameButBuffer(Drain(r, p, readOk, InPlace), Drain(r, p, readOk, Staged))
    decreases |p.slots|
  {
    if Accepted(p.slots[0]) {
      var rest := p.(slots := p.slots[1..]);
      if rest.connected && Available(rest.slots) {
        DrainModesAgree(Accept(r, p.slots[0].data), rest, true);
      }
    }
  }

  /** Within one poll the read mode changes only the receive buffer. */
  lemma {:induction false} PollModesAgree(r: Reader, p: Pipe, elapsed: nat, timeoutMs: nat)
    requires r.open && |r.buffer| == MaxMessageSize && !r.hasFrame
    requires elapsed <= timeoutMs
    ensures SameButBuffer(Poll(r, p, elapsed, timeoutMs, InPlace), Poll(r, p, elapsed, timeoutMs, Staged))
    decreases timeoutMs - elapsed
  {
    if p.connected && Available(p.slots) {
      DrainModesAgree(r, p, false);
    } else if p.connected && elapsed < timeoutMs {
      PollModesAgree(r, Sleep(p), elapsed + 1, timeoutMs);
    }
  }

  /**
   The as-written and the staged wait report the same result, cached header,
   open state, sequence, queue and timing; they differ only in the bytes left
   in the receive buffer, that is, in the payload `ReadFrameData` hands out.
   */
  lemma {:induction false} ReadModesAgree(r: Reader, p: Pipe, timeoutMs: nat)
    requires Valid(r)
    ensures SameButBuffer(WaitForFrame(r, p, timeoutMs), WaitWith(r, p, timeoutMs, Staged))
  {
    if r.open {
      PollModesAgree(r.(hasFrame := false), p, 0, timeoutMs);
    }
  }

  /** A failed peek (producer gone) closes the reader and reports no frame. */
  lemma {:induction false} BrokenPipeCloses(r: Reader, p: Pipe, timeoutMs: nat, mode: ReadMode)
    requires Valid(r) && r.open && !p.connected
    ensures var w := WaitWith(r, p, timeoutMs, mode);
            !w.got && !w.reader.open && w.peeks == 1 && w.sleeps == 0
  {
  }

  /**
   One wait over an accepted message followed by a rejected one that fits the
   buffer (an empty second message is never read, and reading it would change nothing).
   */
  lemma {:induction false} DrainAcceptThenReject(r: Reader, m1: seq<byte>, m2: seq<byte>)
    requires r.open && |r.buffer| == MaxMessageSize && !r.hasFrame
    requires CheckMessage(m1).Some? && CheckMessage(m2).None? && |m2| <= MaxMessageSize
    ensures var p := Pipe(true, [Written(m1), Written(m2)], []);
            var asWritten := WaitWith(r, p, 0, InPlace);
            var staged := WaitWith(r, p, 0, Staged);
            && asWritten.got && staged.got && asWritten.reader.hasFrame && staged.reader.hasFrame
            && asWritten.reader.cachedHeader == CheckMessage(m1).value == staged.reader.cachedHeader
            && asWritten.reader.buffer == ReadInto(Accept(r, m1).buffer, m2)
            && staged.reader.buffer == Accept(r, m1).buffer
  {
    var p := Pipe(true, [Written(m1), Written(m2)], []);
    var rest := p.(slots := p.slots[1..]);
    assert rest.slots == [Written(m2)];
    var r2 := Accept(r, m1);
    if |m2| > 0 {
      assert Drain(r, p, false, InPlace).reader == Reject(r2, rest, true, InPlace).reader;
      assert Drain(r, p, false, Staged).reader == Reject(r2, rest, true, Staged).reader;
    } else {
      assert QueuedBytes(rest.slots) == 0;
      SilentQueue(rest.slots);
      assert ReadInto(r2.buffer, m2) == r2.buffer;
    }
  }

  /** The two messages of the counterexample below and how the reader judges them. */
  lemma CounterexampleMessages(h1: FrameHeader, h2: FrameHeader)
    requires h1 == FrameHeader(0, 0, 0, 1, 1) && h2 == FrameHeader(0, 0, 0, 2, 0)
    ensures CheckMessage(Message(h1, [7])) == Some(h1)
    ensures CheckMessage(Message(h2, [9])).None?
  {
    AcceptsExactlyTrueSizes(h1, [7]);
    AcceptsExactlyTrueSizes(h2, [9]);
  }

  /**
   An accepted one-byte message followed by a rejected message of the same
   length: the as-written wait reports the first header over the second
   message's payload byte, the staged wait over the first's.
   */
  lemma {:induction false} RejectedTwinOverwritesPayload(r: Reader, m1: seq<byte>, m2: seq<byte>)
    requires r.open && |r.buffer| == MaxMessageSize && !r.hasFrame
    requires CheckMessage(m1).Some? && CheckMessage(m2).None? && |m1| == |m2| == HeaderSize + 1
    ensures var h := CheckMessage(m1).value;
            var p := Pipe(true, [Written(m1), Written(m2)], []);
            var asWritten := WaitForFrame(r, p, 0);
            var staged := WaitWith(r, p, 0, Staged);
            && asWritten.got && staged.got
            && ReadHeader(asWritten.reader) == Some(h) && h.frameSize == 1
            && ReadFrameData(asWritten.reader, true, 1, h).data == Some(m2[HeaderSize..])
            && ReadFrameData(staged.reader, true, 1, h).data == Some(m1[HeaderSize..])
  {
    var p := Pipe(true, [Written(m1), Written(m2)], []);
    DrainAcceptThenReject(r, m1, m2);
    var a := WaitWith(r, p, 0, InPlace);
    var s := WaitWith(r, p, 0, Staged);
    assert a.reader.buffer[..|m2|] == m2;
    assert s.reader.buffer[..|m1|] == m1;
  }

  /**
   The receive buffer and the cached header can disagree: a well-formed
   message followed, in the same drain, by a rejected one longer than a
   header leaves the first message's header cached while `ReadFrameData`
   hands out bytes of the second. The staged reader returns the right payload.
   */
  lemma InPlaceDrainCorruptsPayload(r: Reader)
    requires r == Open(Fresh, Connected).reader
    ensures var h1 := FrameHeader(0, 0, 0, 1, 1);
            var h2 := FrameHeader(0, 0, 0, 2, 0);
            var p := Pipe(true, [Written(Message(h1, [7])), Written(Message(h2, [9]))], []);
            var asWritten := WaitForFrame(r, p, 0);
            var staged := WaitWith(r, p, 0, Staged);
            && asWritten.got && staged.got
            && ReadHeader(asWritten.reader) == Some(h1)
            && ReadFrameData(asWritten.reader, true, 1, h1).data == Some([9])
            && ReadFrameData(staged.reader, true, 1, h1).data == Some([7])
  {
    var h1 := FrameHeader(0, 0, 0, 1, 1);
    var h2 := FrameHeader(0, 0, 0, 2, 0);
    var m1 := Message(h1, [7]);
    var m2 := Message(h2, [9]);
    CounterexampleMessages(h1, h2);
    assert m1[HeaderSize..] == [7] && m2[HeaderSize..] == [9];
    RejectedTwinOverwritesPayload(r, m1, m2);
  }
}

=== FILE: media.dfy ===
/**
 Vocabulary the stream and the source share: the status codes their
 methods return, the events they queue, and what a delivered sample holds.
 */
module Media {
  import opened Bytes
  import opened Nv12

  /** The `HRESULT`s the modelled methods return; `Failed` carries the code of a failing platform call. */
  datatype Status =
    | Ok                       // S_OK
    | ErrShutdown              // MF_E_SHUTDOWN
    | InvalidRequest           // MF_E_INVALIDREQUEST
    | InvalidStateTransition   // MF_E_INVALID_STATE_TRANSITION
    | UnsupportedTimeFormat    // MF_E_UNSUPPORTED_TIME_FORMAT
    | InvalidStreamNumber      // MF_E_INVALIDSTREAMNUMBER
    | NotInitialized           // MF_E_NOT_INITIALIZED
    | NullPointer              // E_POINTER
    | Unexpected               // E_UNEXPECTED
    | OutOfMemory              // E_OUTOFMEMORY
    | NoInterface              // E_NOINTERFACE
    | Failed(code: nat)

  /** A decoded NV12 picture: the bytes a copy reads from and the geometry it was decoded at. */
  datatype Frame = Frame(data: seq<byte>, width: u32, height: u32)

  /**
   What ends up in a delivered sample's buffer. The byte-level effect of
   each kind is the matching operation of the `Nv12` module.
   */
  datatype Picture =
    | Copied2D(source: Frame, pitch: int, planes: Planes)   // CopyNv12ToBuffer into a locked 2D buffer
    | Blank2D(pitch: int, planes: Planes)                   // black rows written into a locked 2D buffer
    | Packed(source: Frame, size: nat)                      // the first `size` bytes of the frame, contiguously
    | BlankPacked(width: u32, height: u32)                  // a contiguous black frame
    | AsAllocated                                           // locked, but nothing fitted: left as allocated
    | BlackSample(width: u32, height: u32, filled: bool)    // a new memory buffer; unfilled when its lock failed

  /** Which decoded frame, if any, a picture shows. */
  function Shown(p: Picture): Option<Frame> {
    match p
    case Copied2D(f, _, _) => Some(f)
    case Packed(f, _) => Some(f)
    case _ => None
  }

  /** One sample: presentation time and duration in 100-ns units, and the request token if one was given. */
  datatype Sample = Sample(time: int, duration: nat, token: Option<nat>, picture: Picture)

  /** Duration of every sample: one thirtieth of a second in 100-ns units. */
  const SampleDuration: nat := 333333

  /** Events, in the order the source and the stream queue them. */
  datatype Event =
    | SourceStarted
    | SourceStopped
    | NewStream
    | UpdatedStream
    | StreamStarted
    | StreamStopped
    | MediaSample(sample: Sample)
    | Posted(kind: nat)   // an event a client queued through `QueueEvent`
}

=== FILE: nv12.dfy ===
/**
 NV12 pictures and the stream's writes into locked media buffers.

 An NV12 picture of width w and height h is a luma plane of h rows of w bytes
 followed by an interleaved U/V plane of h/2 rows of w bytes. In a locked 2D
 buffer every row starts `pitch` bytes after the previous one and the chroma
 plane starts right after the last luma row. Buffers are byte sequences and
 every write produces a new sequence; positions are `Offset(row, col, pitch)`.
 */
module Nv12 {
  import opened Bytes

  /** Luma value of black in limited range. */
  const Black: byte := 16
  /** Chroma value of a colourless pixel. */
  const Neutral: byte := 128

  /** Bytes of a tightly packed NV12 picture (`w * h * 3 / 2`). */
  function Nv12Size(w: nat, h: nat): nat {
    w * h * 3 / 2
  }

  /** Where row `row` starts when each row starts `pitch` bytes after the previous one. */
  function RowStart(row: nat, pitch: nat): nat {
    if row == 0 then 0 else RowStart(row - 1, pitch) + pitch
  }

  /** Position of column `col` of row `row`. */
  function Offset(row: nat, col: nat, pitch: nat): nat {
    RowStart(row, pitch) + col
  }

  // ---------------------------------------------------------------------------
  // Arithmetic facts about row layout
  // ---------------------------------------------------------------------------

  /** A packed picture is its luma plane followed by half as many chroma bytes. */
  lemma Nv12SizeSplit(w: nat, h: nat)
    ensures Nv12Size(w, h) == w * h + w * h / 2
  {
  }

  lemma MulLeft(a: nat, b: nat, p: nat)
    requires a <= b
    ensures a * p <= b * p
  {
  }

  lemma {:induction false} OffsetIsProduct(r: nat, c: nat, p: nat)
    ensures Offset(r, c, p) == r * p + c
  {
    if r > 0 {
      OffsetIsProduct(r - 1, c, p);
    }
  }

  lemma OffsetSplit(r: nat, c: nat, p: nat)
    ensures Offset(r, c, p) == Offset(r, 0, p) + c
  {
  }

  /** Row `r1` lies entirely before row `r2` when `r1 < r2`. */
  lemma {:induction false} RowBelow(r1: nat, r2: nat, p: nat)
    requires r1 < r2
    ensures Offset(r1, 0, p) + p <= Offset(r2, 0, p)
    ensures RowStart(r1, p) + p <= RowStart(r2, p)
  {
    if r1 + 1 < r2 {
      RowBelow(r1, r2 - 1, p);
    }
  }

  lemma RowNoLater(r1: nat, r2: nat, p: nat)
    requires r1 <= r2
    ensures Offset(r1, 0, p) <= Offset(r2, 0, p)
  {
    if r1 < r2 {
      RowBelow(r1, r2, p);
    }
  }

  /** Every column of a row lies before the start of any later row. */
  lemma OffsetWithin(r: nat, c: nat, p: nat, rows: nat)
    requires r < rows && c < p
    ensures Offset(r, c, p) < Offset(rows, 0, p)
  {
    OffsetSplit(r, c, p);
    RowBelow(r, rows, p);
  }

  /** Every pixel of the first `rows` rows lies before row `rows`. */
  lemma AllWithin(rows: nat, p: nat)
    ensures forall r, c :: 0 <= r < rows && 0 <= c < p ==> Offset(r, c, p) < Offset(rows, 0, p)
  {
    forall r, c | 0 <= r < rows && 0 <= c < p
      ensures Offset(r, c, p) < Offset(rows, 0, p)
    {
      OffsetWithin(r, c, p, rows);
    }
  }

  lemma MulDivCancel(a: nat, b: nat)
    requires b > 0
    ensures a * b / b == a
  {
    var q := a * b / b;
    var r := a * b % b;
    assert a * b == q * b + r;
    if q < a {
      MulLeft(q + 1, a, b);
      assert false;
    }
    if q > a {
      MulLeft(a + 1, q, b);
      assert false;
    }
  }

  /** The luma rows and the chroma rows of an h-row picture fit in a packed picture of pitch-wide rows. */
  lemma PlanesFit(p: nat, h: nat)
    ensures Offset(h + h / 2, 0, p) <= Nv12Size(p, h)
  {
    OffsetIsProduct(h + h / 2, 0, p);
    assert (h / 2) * p <= h * p / 2 by {
      assert (h / 2) * p * 2 <= h * p by {
        MulLeft((h / 2) * 2, h, p);
        assert (h / 2) * p * 2 == (h / 2) * 2 * p;
      }
    }
    Nv12SizeSplit(p, h);
  }

  /** Nearest-neighbour index: output position `d` of `dstLen` maps to `floor(d * srcLen / dstLen)`. */
  function Nearest(d: nat, srcLen: nat, dstLen: nat): nat
    requires dstLen > 0
  {
    d * srcLen / dstLen
  }

  lemma NearestBelow(d: nat, srcLen: nat, dstLen: nat)
    requires d < dstLen && 0 < srcLen
    ensures Nearest(d, srcLen, dstLen) < srcLen
  {
    var q := d * srcLen / dstLen;
    if q >= srcLen {
      MulLeft(srcLen, q, dstLen);
      MulLeft(d, dstLen, srcLen);
      assert q * dstLen <= d * srcLen;
      assert d * srcLen < dstLen * srcLen by { MulLeft(d + 1, dstLen, srcLen); }
      assert false;
    }
  }

  /** Clears the low bit (`x & ~1`): the U byte of the pair `x` falls in. */
  function EvenDown(x: nat): (e: nat)
    ensures e <= x && e % 2 == 0 && x - e < 2
  {
    x - x % 2
  }

  /** Source index of luma output pixel (dy, dx) in the scaling path. */
  function LumaSource(dy: nat, dx: nat, srcW: nat, srcH: nat, dstW: nat, dstH: nat): nat
    requires dy < dstH && dx < dstW
  {
    Offset(Nearest(dy, srcH, dstH), Nearest(dx, srcW, dstW), srcW)
  }

  /**
   Source index of chroma output byte `dx` of chroma row `j` in the scaling
   path: the pair starting at the even column `dx - dx % 2` copies the pair
   at the evenly rounded nearest source column, U to U and V to V.
   */
  function ChromaSource(j: nat, dx: nat, srcW: nat, srcH: nat, dstW: nat, dstH: nat): nat
    requires j < dstH / 2 && dx < dstW
  {
    Offset(srcH + Nearest(j, srcH / 2, dstH / 2), EvenDown(Nearest(EvenDown(dx), srcW, dstW)) + dx % 2, srcW)
  }

  /**
   What the copy needs of the geometry to read inside the source picture:
   equal sizes, or, for the scaling path, a source with an even width and
   at least one chroma row (every U/V pair read then lies in its row).
   */
  predicate ScalingDefined(srcW: nat, srcH: nat, dstW: nat, dstH: nat) {
    (srcW == dstW && srcH == dstH) || (2 <= srcW && srcW % 2 == 0 && 2 <= srcH)
  }

  lemma LumaSourceInside(dy: nat, dx: nat, srcW: nat, srcH: nat, dstW: nat, dstH: nat)
    requires dy < dstH && dx < dstW && 0 < srcW && 0 < srcH
    ensures LumaSource(dy, dx, srcW, srcH, dstW, dstH) < Offset(srcH, 0, srcW)
  {
    NearestBelow(dy, srcH, dstH);
    NearestBelow(dx, srcW, dstW);
    OffsetWithin(Nearest(dy, srcH, dstH), Nearest(dx, srcW, dstW), srcW, srcH);
  }

  lemma ChromaSourceInside(j: nat, dx: nat, srcW: nat, srcH: nat, dstW: nat, dstH: nat)
    requires j < dstH / 2 && dx < dstW && 2 <= srcW && srcW % 2 == 0 && 2 <= srcH
    ensures Offset(srcH, 0, srcW) <= ChromaSource(j, dx, srcW, srcH, dstW, dstH) < Offset(srcH + srcH / 2, 0, srcW)
  {
    NearestBelow(j, srcH / 2, dstH / 2);
    NearestBelow(EvenDown(dx), srcW, dstW);
    var col := EvenDown(Nearest(EvenDown(dx), srcW, dstW)) + dx % 2;
    assert col < srcW;
    OffsetWithin(srcH + Nearest(j, srcH / 2, dstH / 2), col, srcW, srcH + srcH / 2);
    RowNoLater(srcH, srcH + Nearest(j, srcH / 2, dstH / 2), srcW);
    OffsetSplit(srcH + Nearest(j, srcH / 2, dstH / 2), col, srcW);
  }

  lemma LumaAllInside(srcW: nat, srcH: nat, dstW: nat, dstH: nat)
    requires 0 < srcW && 0 < srcH
    ensures forall dy, dx :: 0 <= dy < dstH && 0 <= dx < dstW ==>
              LumaSource(dy, dx, srcW, srcH, dstW, dstH) < Offset(srcH, 0, srcW)
  {
    forall dy, dx | 0 <= dy < dstH && 0 <= dx < dstW
      ensures LumaSource(dy, dx, srcW, srcH, dstW, dstH) < Offset(srcH, 0, srcW)
    {
      LumaSourceInside(dy, dx, srcW, srcH, dstW, dstH);
    }
  }

  lemma ChromaAllInside(srcW: nat, srcH: nat, dstW: nat, dstH: nat)
    requires 2 <= srcW && srcW % 2 == 0 && 2 <= srcH
    ensures forall j, dx :: 0 <= j < dstH / 2 && 0 <= dx < dstW ==>
              ChromaSource(j, dx, srcW, srcH, dstW, dstH) < Offset(srcH + srcH / 2, 0, srcW)
  {
    forall j, dx | 0 <= j < dstH / 2 && 0 <= dx < dstW
      ensures ChromaSource(j, dx, srcW, srcH, dstW, dstH) < Offset(srcH + srcH / 2, 0, srcW)
    {
      ChromaSourceInside(j, dx, srcW, srcH, dstW, dstH);
    }
  }

  /** At scale one, nearest-neighbour scaling picks every pixel from where it already is. */
  lemma {:induction false} ScalingAtUnitScaleIsIdentity(w: nat, h: nat, dy: nat, dx: nat, j: nat)
    requires dy < h && dx < w && j < h / 2 && w % 2 == 0
    ensures LumaSource(dy, dx, w, h, w, h) == Offset(dy, dx, w)
    ensures ChromaSource(j, dx, w, h, w, h) == Offset(h + j, dx, w)
  {
    MulDivCancel(dy, h);
    MulDivCancel(dx, w);
    MulDivCancel(j, h / 2);
    MulDivCancel(EvenDown(dx), w);
    assert EvenDown(EvenDown(dx)) + dx % 2 == dx;
  }

  // ---------------------------------------------------------------------------
  // Strided row writes
  // ---------------------------------------------------------------------------

  /** `rows` can be written as rows `first ..` of a buffer of `len` bytes with the given pitch. */
  predicate RowsFit(pitch: nat, first: nat, rows: seq<seq<byte>>, len: nat) {
    && (forall i :: 0 <= i < |rows| ==> |rows[i]| <= pitch)
    && Offset(first + |rows|, 0, pitch) <= len
  }

  /** Rows `first .. first + n` hold `rows[0 .. n]` in their first bytes. */
  ghost predicate RowsUpTo(out: seq<byte>, pitch: nat, first: nat, rows: seq<seq<byte>>, n: nat)
    requires RowsFit(pitch, first, rows, |out|) && n <= |rows|
  {
    AllWithin(first + |rows|, pitch);
    forall r, c :: first <= r < first + n && 0 <= c < |rows[r - first]| ==>
      out[Offset(r, c, pitch)] == rows[r - first][c]
  }

  /** Row `r` (for `first <= r`) holds `rows[r - first]` in its first bytes. */
  ghost predicate RowsWritten(out: seq<byte>, pitch: nat, first: nat, rows: seq<seq<byte>>)
    requires RowsFit(pitch, first, rows, |out|)
  {
    RowsUpTo(out, pitch, first, rows, |rows|)
  }

  /** The bytes between the end of each written row and the next row start are those of `dst`. */
  ghost predicate PaddingKept(out: seq<byte>, dst: seq<byte>, pitch: nat, first: nat, rows: seq<seq<byte>>)
    requires RowsFit(pitch, first, rows, |out|) && |dst| == |out|
  {
    AllWithin(first + |rows|, pitch);
    forall r, c :: first <= r < first + |rows| && |rows[r - first]| <= c < pitch ==>
      out[Offset(r, c, pitch)] == dst[Offset(r, c, pitch)]
  }

  /** Outside `[lo, hi)` nothing changed. */
  ghost predicate OutsideKept(out: seq<byte>, dst: seq<byte>, lo: nat, hi: nat) {
    && |out| == |dst|
    && forall k :: 0 <= k < |dst| && (k < lo || hi <= k) ==> out[k] == dst[k]
  }

  /** Rows `first .. first + i` hold their contents, every padding byte and every byte outside the rows still written is `dst`'s. */
  ghost predicate WrittenSoFar(out: seq<byte>, dst: seq<byte>, pitch: nat, first: nat, rows: seq<seq<byte>>, i: nat)
    requires RowsFit(pitch, first, rows, |dst|) && |out| == |dst| && i <= |rows|
  {
    && RowsUpTo(out, pitch, first, rows, i)
    && PaddingKept(out, dst, pitch, first, rows)
    && OutsideKept(out, dst, Offset(first, 0, pitch), Offset(first + i, 0, pitch))
  }

  /** Row `first + i` begins after every earlier row and ends before the next. */
  lemma RowSlot(pitch: nat, first: nat, rows: seq<seq<byte>>, i: nat, len: nat)
    requires RowsFit(pitch, first, rows, len) && i < |rows|
    ensures Offset(first, 0, pitch) <= Offset(first + i, 0, pitch)
    ensures Offset(first + i, 0, pitch) + pitch <= Offset(first + i + 1, 0, pitch) <= len
  {
    RowBelow(first + i, first + i + 1, pitch);
    RowNoLater(first + i + 1, first + |rows|, pitch);
    RowNoLater(first, first + i, pitch);
  }

  lemma StepKeepsRows(prev: seq<byte>, out: seq<byte>, pitch: nat, first: nat, rows: seq<seq<byte>>, i: nat)
    requires RowsFit(pitch, first, rows, |prev|) && i < |rows|
    requires Offset(first + i, 0, pitch) + |rows[i]| <= |prev|
    requires out == Memcpy(prev, Offset(first + i, 0, pitch), rows[i])
    requires RowsUpTo(prev, pitch, first, rows, i)
    ensures |out| == |prev| && RowsUpTo(out, pitch, first, rows, i + 1)
  {
    AllWithin(first + |rows|, pitch);
    forall r, c | first <= r < first + i + 1 && 0 <= c < |rows[r - first]|
      ensures out[Offset(r, c, pitch)] == rows[r - first][c]
    {
      if r < first + i {
        OffsetWithin(r, c, pitch, first + i);
        assert out[Offset(r, c, pitch)] == prev[Offset(r, c, pitch)];
      }
    }
  }

  lemma StepKeepsPadding(prev: seq<byte>, out: seq<byte>, dst: seq<byte>, pitch: nat, first: nat, rows: seq<seq<byte>>, i: nat)
    requires RowsFit(pitch, first, rows, |prev|) && i < |rows| && |dst| == |prev|
    requires Offset(first + i, 0, pitch) + |rows[i]| <= |prev|
    requires out == Memcpy(prev, Offset(first + i, 0, pitch), rows[i])
    requires PaddingKept(prev, dst, pitch, first, rows)
    ensures |out| == |prev| && PaddingKept(out, dst, pitch, first, rows)
  {
    RowSlot(pitch, first, rows, i, |prev|);
    AllWithin(first + |rows|, pitch);
    forall r, c | first <= r < first + |rows| && |rows[r - first]| <= c < pitch
      ensures out[Offset(r, c, pitch)] == dst[Offset(r, c, pitch)]
    {
      if r < first + i {
        OffsetWithin(r, c, pitch, first + i);
      } else if r > first + i {
        RowBelow(first + i, r, pitch);
      }
      assert out[Offset(r, c, pitch)] == prev[Offset(r, c, pitch)];
    }
  }

  lemma StepKeepsOutside(prev: seq<byte>, out: seq<byte>, dst: seq<byte>, pitch: nat, first: nat, rows: seq<seq<byte>>, i: nat)
    requires RowsFit(pitch, first, rows, |prev|) && i < |rows| && |dst| == |prev|
    requires Offset(first + i, 0, pitch) + |rows[i]| <= |prev|
    requires out == Memcpy(prev, Offset(first + i, 0, pitch), rows[i])
    requires OutsideKept(prev, dst, Offset(first, 0, pitch), Offset(first + i, 0, pitch))
    ensures OutsideKept(out, dst, Offset(first, 0, pitch), Offset(first + i + 1, 0, pitch))
  {
    RowSlot(pitch, first, rows, i, |prev|);
  }

  /** Writing row `first + i` extends the written rows by one. */
  lemma WriteRowStep(prev: seq<byte>, dst: seq<byte>, pitch: nat, first: nat, rows: seq<seq<byte>>, i: nat)
    requires RowsFit(pitch, first, rows, |dst|) && |prev| == |dst| && i < |rows|
    requires WrittenSoFar(prev, dst, pitch, first, rows, i)
    ensures Offset(first + i, 0, pitch) + |rows[i]| <= |prev|
    ensures WrittenSoFar(Memcpy(prev, Offset(first + i, 0, pitch), rows[i]), dst, pitch, first, rows, i + 1)
  {
    RowSlot(pitch, first, rows, i, |prev|);
    var out := Memcpy(prev, Offset(first + i, 0, pitch), rows[i]);
    StepKeepsRows(prev, out, pitch, first, rows, i);
    StepKeepsPadding(prev, out, dst, pitch, first, rows, i);
    StepKeepsOutside(prev, out, dst, pitch, first, rows, i);
  }

  /** One `memcpy` per row: row `first + i` receives `rows[i]` and no other byte changes. */
  method WriteRows(dst: seq<byte>, pitch: nat, first: nat, rows: seq<seq<byte>>) returns (out: seq<byte>)
    requires RowsFit(pitch, first, rows, |dst|)
    ensures |out| == |dst|
    ensures RowsWritten(out, pitch, first, rows)
    ensures PaddingKept(out, dst, pitch, first, rows)
    ensures OutsideKept(out, dst, Offset(first, 0, pitch), Offset(first + |rows|, 0, pitch))
  {
    out := dst;
    var i := 0;
    while i < |rows|
      invariant 0 <= i <= |rows|
      invariant |out| == |dst|
      invariant WrittenSoFar(out, dst, pitch, first, rows, i)
    {
      WriteRowStep(out, dst, pitch, first, rows, i);
      out := Memcpy(out, Offset(first + i, 0, pitch), rows[i]);
      i := i + 1;
    }
  }

  // ---------------------------------------------------------------------------
  // Blank pictures
  // ---------------------------------------------------------------------------

  /** Black luma over the first `w` bytes of rows `0 .. h` and neutral chroma over rows `h .. h + h/2`. */
  ghost predicate BlankPlanar(out: seq<byte>, pitch: nat, w: nat, h: nat)
    requires w <= pitch && Offset(h + h / 2, 0, pitch) <= |out|
  {
    AllWithin(h + h / 2, pitch);
    && (forall r, c :: 0 <= r < h && 0 <= c < w ==> out[Offset(r, c, pitch)] == Black)
    && (forall r, c :: h <= r < h + h / 2 && 0 <= c < w ==> out[Offset(r, c, pitch)] == Neutral)
  }

  /** Beyond the first `w` bytes of each of the `rows` rows, `out` equals `dst`. */
  ghost predicate PictureOnly(out: seq<byte>, dst: seq<byte>, pitch: nat, w: nat, rows: nat)
    requires w <= pitch && Offset(rows, 0, pitch) <= |out| == |dst|
  {
    AllWithin(rows, pitch);
    && (forall r, c :: 0 <= r < rows && w <= c < pitch ==> out[Offset(r, c, pitch)] == dst[Offset(r, c, pitch)])
    && (forall k :: Offset(rows, 0, pitch) <= k < |dst| ==> out[k] == dst[k])
  }

  /** `n` rows of `w` copies of `v`. */
  function Uniform(n: nat, w: nat, v: byte): (rows: seq<seq<byte>>)
    ensures |rows| == n
    ensures forall i :: 0 <= i < n ==> rows[i] == Repeat(w, v)
  {
    seq(n, _ => Repeat(w, v))
  }

  /** Written rows of width `w` leave the rest of the picture area and everything after it untouched. */
  lemma WrittenPictureOnly(out: seq<byte>, dst: seq<byte>, pitch: nat, w: nat, rows: seq<seq<byte>>)
    requires RowsFit(pitch, 0, rows, |dst|) && w <= pitch && |out| == |dst|
    requires forall i :: 0 <= i < |rows| ==> |rows[i]| == w
    requires PaddingKept(out, dst, pitch, 0, rows)
    requires OutsideKept(out, dst, Offset(0, 0, pitch), Offset(|rows|, 0, pitch))
    ensures PictureOnly(out, dst, pitch, w, |rows|)
  {
  }

  /**
   The black frame of the 2D path: one `memset` of `w` bytes per luma row,
   then one per chroma row (the chroma plane starts at row `h`, so this is
   one pass over `h + h/2` rows).
   */
  method FillBlankPlanar(dst: seq<byte>, pitch: nat, w: nat, h: nat) returns (out: seq<byte>)
    requires w <= pitch && Offset(h + h / 2, 0, pitch) <= |dst|
    ensures |out| == |dst|
    ensures BlankPlanar(out, pitch, w, h)
    ensures PictureOnly(out, dst, pitch, w, h + h / 2)
  {
    var rows := Uniform(h, w, Black) + Uniform(h / 2, w, Neutral);
    out := WriteRows(dst, pitch, 0, rows);
    WrittenPictureOnly(out, dst, pitch, w, rows);
  }

  /** The black frame of a linear buffer: `w * h` luma bytes, then `w * h / 2` chroma bytes. */
  function FillBlankLinear(buf: seq<byte>, w: nat, h: nat): (out: seq<byte>)
    requires Nv12Size(w, h) <= |buf|
    ensures |out| == |buf|
    ensures forall k :: 0 <= k < w * h ==> out[k] == Black
    ensures forall k :: w * h <= k < Nv12Size(w, h) ==> out[k] == Neutral
    ensures forall k :: Nv12Size(w, h) <= k < |buf| ==> out[k] == buf[k]
  {
    Nv12SizeSplit(w, h);
    Memset(Memset(buf, 0, w * h, Black), w * h, w * h / 2, Neutral)
  }

  /** For an even height the packed planes end exactly at the packed size. */
  lemma PackedPlanesExact(w: nat, h: nat)
    requires h % 2 == 0
    ensures Offset(h, 0, w) == w * h
    ensures Offset(h + h / 2, 0, w) == Nv12Size(w, h)
  {
    OffsetIsProduct(h, 0, w);
    OffsetIsProduct(h + h / 2, 0, w);
    var m := h / 2;
    assert h == 2 * m;
    assert (h + m) * w == 3 * (m * w);
    assert w * h == 2 * (m * w);
  }

  /** For an even height, the linear black frame is the 2D black frame at pitch equal to width. */
  lemma {:induction false} LinearBlankIsPlanar(buf: seq<byte>, w: nat, h: nat)
    requires Nv12Size(w, h) <= |buf| && h % 2 == 0
    ensures Offset(h + h / 2, 0, w) <= |buf|
    ensures BlankPlanar(FillBlankLinear(buf, w, h), w, w, h)
  {
    PackedPlanesExact(w, h);
    AllWithin(h, w);
    AllWithin(h + h / 2, w);
    var out := FillBlankLinear(buf, w, h);
    forall r, c | h <= r < h + h / 2 && 0 <= c < w
      ensures w * h <= Offset(r, c, w)
    {
      RowNoLater(h, r, w);
      OffsetSplit(r, c, w);
    }
  }

  // ---------------------------------------------------------------------------
  // Copying a decoded picture (CopyNv12ToBuffer)
  // ---------------------------------------------------------------------------

  datatype CopyPath = Exact | Restrided | Scaled

  /** Each of the rows `first .. first + n` ends no later than row `first + n` starts. */
  lemma RowsEnd(first: nat, n: nat, w: nat)
    ensures forall r :: first <= r < first + n ==> Offset(r, 0, w) + w <= Offset(first + n, 0, w)
  {
    forall r | first <= r < first + n
      ensures Offset(r, 0, w) + w <= Offset(first + n, 0, w)
    {
      RowBelow(r, first + n, w);
    }
  }

  /** Packed rows `first .. first + n` of `src`, each `w` bytes (luma rows, then chroma rows). */
  function PackedRows(src: seq<byte>, w: nat, first: nat, n: nat): (rows: seq<seq<byte>>)
    requires Offset(first + n, 0, w) <= |src|
    ensures |rows| == n
    ensures forall i :: 0 <= i < n ==> |rows[i]| == w
  {
    RowsEnd(first, n, w);
    seq(n, i requires 0 <= i < n => src[Offset(first + i, 0, w)..Offset(first + i, 0, w) + w])
  }

  lemma PackedRowsAt(src: seq<byte>, w: nat, first: nat, n: nat)
    requires Offset(first + n, 0, w) <= |src|
    ensures (AllWithin(first + n, w);
             forall r, c :: first <= r < first + n && 0 <= c < w ==>
               PackedRows(src, w, first, n)[r - first][c] == src[Offset(r, c, w)])
  {
    AllWithin(first + n, w);
    RowsEnd(first, n, w);
  }

  /** Each pixel of the picture's `rows` rows and `w` columns sits at its packed position in `src`. */
  ghost predicate Copied(out: seq<byte>, src: seq<byte>, pitch: nat, w: nat, rows: nat)
    requires w <= pitch && Offset(rows, 0, pitch) <= |out| && Offset(rows, 0, w) <= |src|
  {
    AllWithin(rows, pitch);
    AllWithin(rows, w);
    forall r, c :: 0 <= r < rows && 0 <= c < w ==> out[Offset(r, c, pitch)] == src[Offset(r, c, w)]
  }

  /** Every output pixel holds the source pixel nearest-neighbour scaling picks for it. */
  ghost predicate ScaledFrom(out: seq<byte>, src: seq<byte>, pitch: nat, srcW: nat, srcH: nat, dstW: nat, dstH: nat)
    requires dstW <= pitch && Offset(dstH + dstH / 2, 0, pitch) <= |out|
    requires 2 <= srcW && srcW % 2 == 0 && 2 <= srcH && Offset(srcH + srcH / 2, 0, srcW) <= |src|
  {
    AllWithin(dstH + dstH / 2, pitch);
    LumaAllInside(srcW, srcH, dstW, dstH);
    ChromaAllInside(srcW, srcH, dstW, dstH);
    RowNoLater(srcH, srcH + srcH / 2, srcW);
    && (forall dy, dx :: 0 <= dy < dstH && 0 <= dx < dstW ==>
          out[Offset(dy, dx, pitch)] == src[LumaSource(dy, dx, srcW, srcH, dstW, dstH)])
    && (forall r, dx :: dstH <= r < dstH + dstH / 2 && 0 <= dx < dstW ==>
          out[Offset(r, dx, pitch)] == src[ChromaSource(r - dstH, dx, srcW, srcH, dstW, dstH)])
  }

  /** Output luma rows of the scaling path. */
  function ScaledLumaRows(src: seq<byte>, srcW: nat, srcH: nat, dstW: nat, dstH: nat): (rows: seq<seq<byte>>)
    requires 0 < srcW && 0 < srcH && Offset(srcH, 0, srcW) <= |src|
    ensures |rows| == dstH
    ensures forall i :: 0 <= i < dstH ==> |rows[i]| == dstW
    ensures (LumaAllInside(srcW, srcH, dstW, dstH);
             forall dy, dx :: 0 <= dy < dstH && 0 <= dx < dstW ==> rows[dy][dx] == src[LumaSource(dy, dx, srcW, srcH, dstW, dstH)])
  {
    LumaAllInside(srcW, srcH, dstW, dstH);
    seq(dstH, dy requires 0 <= dy < dstH =>
      seq(dstW, dx requires 0 <= dx < dstW => src[LumaSource(dy, dx, srcW, srcH, dstW, dstH)]))
  }

  /** Output chroma rows (U/V pairs) of the scaling path. */
  function ScaledChromaRows(src: seq<byte>, srcW: nat, srcH: nat, dstW: nat, dstH: nat): (rows: seq<seq<byte>>)
    requires 2 <= srcW && srcW % 2 == 0 && 2 <= srcH && Offset(srcH + srcH / 2, 0, srcW) <= |src|
    ensures |rows| == dstH / 2
    ensures forall i :: 0 <= i < dstH / 2 ==> |rows[i]| == dstW
    ensures (ChromaAllInside(srcW, srcH, dstW, dstH);
             forall j, dx :: 0 <= j < dstH / 2 && 0 <= dx < dstW ==> rows[j][dx] == src[ChromaSource(j, dx, srcW, srcH, dstW, dstH)])
  {
    ChromaAllInside(srcW, srcH, dstW, dstH);
    seq(dstH / 2, j requires 0 <= j < dstH / 2 =>
      seq(dstW, dx requires 0 <= dx < dstW => src[ChromaSource(j, dx, srcW, srcH, dstW, dstH)]))
  }

  /** The exact path: one copy of the luma plane, one of the chroma plane right behind it. */
  function CopyContiguous(src: seq<byte>, w: nat, h: nat, dst: seq<byte>): (out: seq<byte>)
    requires Nv12Size(w, h) <= |src| && Nv12Size(w, h) <= |dst|
    ensures OutsideKept(out, dst, 0, Nv12Size(w, h))
    ensures out[..Nv12Size(w, h)] == src[..Nv12Size(w, h)]
  {
    Nv12SizeSplit(w, h);
    var n := w * h;
    var out := Memcpy(Memcpy(dst, 0, src[..n]), n, src[n..n + n / 2]);
    assert out[..Nv12Size(w, h)] == src[..Nv12Size(w, h)];
    out
  }

  /** The restrided path: luma rows, then chroma rows, each copied to its pitch-spaced position. */
  method CopyRestrided(src: seq<byte>, w: nat, h: nat, dst: seq<byte>, pitch: nat) returns (out: seq<byte>)
    requires w <= pitch && Offset(h + h / 2, 0, pitch) <= |dst| && Offset(h + h / 2, 0, w) <= |src|
    ensures |out| == |dst|
    ensures Copied(out, src, pitch, w, h + h / 2)
    ensures PictureOnly(out, dst, pitch, w, h + h / 2)
  {
    var rows := PackedRows(src, w, 0, h + h / 2);
    PackedRowsAt(src, w, 0, h + h / 2);
    out := WriteRows(dst, pitch, 0, rows);
    WrittenPictureOnly(out, dst, pitch, w, rows);
  }

  /** The scaling path: nearest-neighbour luma rows, then chroma rows. */
  method CopyScaled(src: seq<byte>, srcW: nat, srcH: nat, dst: seq<byte>, pitch: nat, dstW: nat, dstH: nat)
    returns (out: seq<byte>)
    requires 2 <= srcW && srcW % 2 == 0 && 2 <= srcH && Offset(srcH + srcH / 2, 0, srcW) <= |src|
    requires dstW <= pitch && Offset(dstH + dstH / 2, 0, pitch) <= |dst|
    ensures |out| == |dst|
    ensures ScaledFrom(out, src, pitch, srcW, srcH, dstW, dstH)
    ensures PictureOnly(out, dst, pitch, dstW, dstH + dstH / 2)
  {
    RowNoLater(srcH, srcH + srcH / 2, srcW);
    var luma := ScaledLumaRows(src, srcW, srcH, dstW, dstH);
    var chroma := ScaledChromaRows(src, srcW, srcH, dstW, dstH);
    out := WriteRows(dst, pitch, 0, luma + chroma);
    WrittenPictureOnly(out, dst, pitch, dstW, luma + chroma);
  }

  /**
   The destination columns the chroma loop of the scaling path writes in one
   row as written, from the even column `dx` on: the pair `dx, dx + 1` for
   every even `dx` below `dstW`.
   */
  function PairColumns(dx: nat, dstW: nat): (cols: seq<nat>)
    requires dx % 2 == 0
    ensures dx >= dstW ==> cols == []
    ensures dx <= dstW ==> |cols| == dstW + dstW % 2 - dx
    ensures forall i :: 0 <= i < |cols| ==> cols[i] == dx + i
    decreases dstW - dx
  {
    if dx >= dstW then [] else [dx, dx + 1] + PairColumns(dx + 2, dstW)
  }

  /**
   As written, an odd destination width makes the chroma loop write column
   `dstW` of every chroma row, one byte past the row. When the width is the
   pitch, the byte written past the last chroma row is the first byte after
   the picture's planes.
   */
  lemma OddWidthWritesPastRow(dstW: nat, dstH: nat)
    requires dstW % 2 == 1 && 2 <= dstH
    ensures dstW in PairColumns(0, dstW)
    ensures Offset(dstH + (dstH / 2 - 1), dstW, dstW) == Offset(dstH + dstH / 2, 0, dstW)
  {
    assert PairColumns(0, dstW)[dstW] == dstW;
  }

  /**
   A locked buffer with pitch 3 and length 9 gets a 3x2 picture, which the
   copy accepts; scaling a 4x4 frame into it writes, as written, byte 9 of
   the 9-byte buffer, while the corrected loop stays inside the picture.
   */
  lemma OddPitchOverrunsBuffer()
    ensures LockedGeometry(3, 9, 4, 4) == Planes(3, 2)
    ensures CopyFits(Nv12Size(4, 4), 4, 4, 9, 3, 3, 2)
    ensures Offset(2, PairColumns(0, 3)[3], 3) == 9
    ensures Offset(2 + 2 / 2, 0, 3) <= 9
  {
    OddWidthWritesPastRow(3, 2);
    OffsetIsProduct(2, 3, 3);
    OffsetIsProduct(3, 0, 3);
  }

  /** What `CopyNv12ToBuffer` needs of its arguments: both pictures fit their buffers and the copy reads inside the source. */
  predicate CopyFits(srcLen: nat, srcW: nat, srcH: nat, dstLen: nat, pitch: int, dstW: nat, dstH: nat) {
    && Nv12Size(srcW, srcH) <= srcLen
    && dstW <= pitch && Nv12Size(pitch as nat, dstH) <= dstLen
    && ScalingDefined(srcW, srcH, dstW, dstH)
  }

  /**
   `CopyNv12ToBuffer`: copies a packed decoded picture into a locked 2D
   buffer. Identical geometry with pitch equal to width is one contiguous
   copy; identical geometry otherwise copies row by row honouring the pitch;
   any other geometry scales with nearest-neighbour sampling.
   */
  method CopyNv12ToBuffer(src: seq<byte>, srcW: nat, srcH: nat, dst: seq<byte>, pitch: nat, dstW: nat, dstH: nat)
    returns (out: seq<byte>, path: CopyPath)
    requires CopyFits(|src|, srcW, srcH, |dst|, pitch, dstW, dstH)
    ensures |out| == |dst|
    ensures path == Exact <==> srcW == dstW && srcH == dstH && srcW == pitch
    ensures path == Restrided <==> srcW == dstW && srcH == dstH && srcW != pitch
    ensures path == Exact ==> OutsideKept(out, dst, 0, Nv12Size(srcW, srcH))
    ensures path == Exact ==> out[..Nv12Size(srcW, srcH)] == src[..Nv12Size(srcW, srcH)]
    ensures Offset(dstH + dstH / 2, 0, pitch) <= |dst| && Offset(srcH + srcH / 2, 0, srcW) <= |src|
    ensures path == Restrided ==> Copied(out, src, pitch, srcW, srcH + srcH / 2)
    ensures path == Scaled ==> ScaledFrom(out, src, pitch, srcW, srcH, dstW, dstH)
    ensures path != Exact ==> PictureOnly(out, dst, pitch, dstW, dstH + dstH / 2)
  {
    PlanesFit(pitch, dstH);
    PlanesFit(srcW, srcH);
    if srcW == dstW && srcH == dstH && srcW == pitch {
      out := CopyContiguous(src, srcW, srcH, dst);
      path := Exact;
    } else if srcW == dstW && srcH == dstH {
      out := CopyRestrided(src, srcW, srcH, dst, pitch);
      path := Restrided;
    } else {
      out := CopyScaled(src, srcW, srcH, dst, pitch, dstW, dstH);
      path := Scaled;
    }
  }

  /**
   For an even height, the contiguous copy of the exact path and the row
   copy of the restrided path produce the same picture when pitch equals
   width, in both directions.
   */
  lemma {:induction false} ContiguousIsRowCopy(out: seq<byte>, src: seq<byte>, w: nat, h: nat)
    requires h % 2 == 0 && Nv12Size(w, h) <= |src| && Nv12Size(w, h) <= |out|
    ensures Offset(h + h / 2, 0, w) == Nv12Size(w, h)
    ensures out[..Nv12Size(w, h)] == src[..Nv12Size(w, h)] <==> Copied(out, src, w, w, h + h / 2)
  {
    PackedPlanesExact(w, h);
    AllWithin(h + h / 2, w);
    var n := Nv12Size(w, h);
    if Copied(out, src, w, w, h + h / 2) {
      forall k | 0 <= k < n
        ensures out[k] == src[k]
      {
        Decompose(k, w, h + h / 2);
      }
      assert out[..n] == src[..n];
    }
    if out[..n] == src[..n] {
      forall r, c | 0 <= r < h + h / 2 && 0 <= c < w
        ensures out[Offset(r, c, w)] == src[Offset(r, c, w)]
      {
        assert out[..n][Offset(r, c, w)] == src[..n][Offset(r, c, w)];
      }
    }
  }

  /** Every position before row `rows` of a `w`-wide packed picture is some row's column. */
  lemma Decompose(k: nat, w: nat, rows: nat)
    requires k < Offset(rows, 0, w)
    ensures 0 < w && k / w < rows && k % w < w && Offset(k / w, k % w, w) == k
  {
    OffsetIsProduct(rows, 0, w);
    OffsetIsProduct(k / w, k % w, w);
    if k / w >= rows {
      MulLeft(rows, k / w, w);
    }
  }

  // ---------------------------------------------------------------------------
  // Geometry of a locked 2D buffer
  // ---------------------------------------------------------------------------

  datatype Planes = Planes(width: nat, height: nat)

  /**
   Picture size assumed for a locked 2D buffer: the pitch is the width; the
   height is the tallest picture whose luma and chroma rows fit in whole
   rows of the buffer (`length / pitch * 2 / 3`); without a positive pitch or
   length the stream's own size stands in.
   */
  function LockedGeometry(pitch: int, length: nat, width: nat, height: nat): (g: Planes)
    ensures pitch > 0 ==> g.width == pitch
    ensures pitch <= 0 ==> g.width == width
    ensures pitch > 0 && length > 0 ==> 3 * g.height <= 2 * (length / pitch) < 3 * (g.height + 1)
    ensures !(pitch > 0 && length > 0) ==> g.height == height
  {
    var w := if pitch > 0 then pitch as nat else width;
    var h := if length > 0 && pitch > 0 then length / pitch * 2 / 3 else height;
    Planes(w, h)
  }

  /** The rows the stream writes into a locked buffer always fit inside it. */
  lemma {:induction false} LockedGeometryFits(pitch: int, length: nat, width: nat, height: nat)
    requires pitch > 0 && length > 0
    ensures var g := LockedGeometry(pitch, length, width, height);
            Nv12Size(g.width, g.height) <= length && Offset(g.height + g.height / 2, 0, g.width) <= length
  {
    var g := LockedGeometry(pitch, length, width, height);
    var p: nat := pitch as nat;
    var q := length / p;
    assert 3 * g.height <= 2 * q;
    assert p * g.height * 3 <= 2 * (p * q) by {
      MulLeft(3 * g.height, 2 * q, p);
    }
    assert p * q <= length by {
      assert length == q * p + length % p;
    }
    PlanesFit(p, g.height);
  }
}

=== FILE: source.dfy ===
/**
 The media source (`FluxMicMediaSource`): the lifecycle the capture pipeline
 drives (Start, Stop, Pause, Shutdown), the checks every entry point makes,
 and the media types it offers.

 The source's queue and its stream's queue are modelled as one log holding
 both queues' events in the order they were queued.
 */
module MediaSource {
  import opened Bytes
  import opened Media
  import MediaStream

  // ---------------------------------------------------------------------------
  // Offered media types
  // ---------------------------------------------------------------------------

  datatype Subtype = NV12 | RGB32

  datatype MediaType = MediaType(subtype: Subtype, width: u32, height: u32, fps: nat)

  datatype Resolution = Resolution(width: u32, height: u32, fps: nat)

  /** The resolutions offered, best first. */
  const Resolutions: seq<Resolution> := [Resolution(1920, 1080, 30), Resolution(1280, 720, 30)]

  /** One NV12 type, then one RGB32 type, per resolution, in order. */
  function TypesFor(res: seq<Resolution>): (types: seq<MediaType>)
    ensures |types| == 2 * |res|
    ensures forall i :: 0 <= i < |res| ==>
              && types[2 * i] == MediaType(NV12, res[i].width, res[i].height, res[i].fps)
              && types[2 * i + 1] == MediaType(RGB32, res[i].width, res[i].height, res[i].fps)
  {
    if |res| == 0 then []
    else
      var rest := TypesFor(res[1..]);
      var r := res[0];
      var types := [MediaType(NV12, r.width, r.height, r.fps), MediaType(RGB32, r.width, r.height, r.fps)] + rest;
      assert forall i :: 1 <= i < |res| ==> res[i] == res[1..][i - 1];
      forall i | 1 <= i < |res|
        ensures types[2 * i] == rest[2 * (i - 1)] && types[2 * i + 1] == rest[2 * (i - 1) + 1]
      {
        assert 2 * i == 2 + 2 * (i - 1);
      }
      types
  }

  /** The four types the stream descriptor carries. */
  function OfferedTypes(): (types: seq<MediaType>)
    ensures |types| == 4
  {
    TypesFor(Resolutions)
  }

  /**
   Exactly four types: NV12 then RGB32 at 1920x1080, then the same at
   1280x720, all at 30 frames per second.
   */
  lemma {:induction false} OfferedTypesInOrder()
    ensures OfferedTypes() == [MediaType(NV12, 1920, 1080, 30), MediaType(RGB32, 1920, 1080, 30),
                               MediaType(NV12, 1280, 720, 30), MediaType(RGB32, 1280, 720, 30)]
    ensures forall t :: t in OfferedTypes() ==> t.fps == 30
  {
    var types := OfferedTypes();
    assert types[0] == MediaType(NV12, 1920, 1080, 30) && types[1] == MediaType(RGB32, 1920, 1080, 30);
    assert types[2] == MediaType(NV12, 1280, 720, 30) && types[3] == MediaType(RGB32, 1280, 720, 30);
  }

  // ---------------------------------------------------------------------------
  // State and construction
  // ---------------------------------------------------------------------------

  /**
   The source's fields. `stream` is the attached stream (none once detached),
   `presentation` and `attributes` stand for non-null descriptor and
   attribute pointers, and `log` holds both queues' events.
   */
  datatype Source = Source(
    started: bool,
    shutdown: bool,
    startTime: int,
    stream: Option<MediaStream.Stream>,
    presentation: bool,
    attributes: bool,
    log: seq<Event>)

  /** What every operation keeps: an attached stream is valid and alive; a shut-down source holds nothing. */
  ghost predicate Valid(s: Source) {
    && (s.stream.Some? ==> MediaStream.Valid(s.stream.value) && !s.stream.value.shutdown)
    && (s.shutdown ==> s.stream.None? && !s.presentation && !s.attributes && !s.started)
  }

  /** The constructed object before `Initialize`: not started, not shut down, start time 0. */
  const Constructed := Source(false, false, 0, None, false, false, [])

  /**
   Outcomes of the calls `Initialize` makes, in order: the event queue, the
   attribute store, the four media types, the stream descriptor, selecting
   the first type as current, the presentation descriptor, allocating the
   stream, and the stream's own attribute store.
   */
  datatype SourceInit = SourceInit(
    queue: Status,
    attributes: Status,
    types: Status,
    streamDescriptor: Status,
    firstTypeSelected: bool,
    presentation: Status,
    streamAllocated: bool,
    streamAttributes: bool)

  datatype Built = Built(source: Option<Source>, status: Status)

  /**
   `Initialize`: builds the source's objects in order and stops at the first
   failure, reporting it. On success the stream is attached, stopped, and
   sized from the first offered type.
   */
  function Initialize(i: SourceInit): (b: Built)
    ensures b.source.Some? <==> b.status == Ok
    ensures b.status == Ok <==> i.queue == Ok && i.attributes == Ok && i.types == Ok && i.streamDescriptor == Ok
                                && i.presentation == Ok && i.streamAllocated
    ensures i.queue != Ok ==> b.status == i.queue
    ensures i.queue == Ok && i.attributes != Ok ==> b.status == i.attributes
    ensures i.queue == Ok && i.attributes == Ok && i.types != Ok ==> b.status == i.types
    ensures i.queue == Ok && i.attributes == Ok && i.types == Ok && i.streamDescriptor != Ok ==> b.status == i.streamDescriptor
    ensures i.queue == Ok && i.attributes == Ok && i.types == Ok && i.streamDescriptor == Ok && i.presentation != Ok ==>
              b.status == i.presentation
    ensures (i.queue == Ok && i.attributes == Ok && i.types == Ok && i.streamDescriptor == Ok && i.presentation == Ok
             && !i.streamAllocated) ==> b.status == OutOfMemory
    ensures b.source.Some? ==> var s := b.source.value;
              && Valid(s) && !s.started && !s.shutdown && s.log == [] && s.presentation && s.attributes
              && s.stream.Some? && s.stream.value.state == MediaStream.Stopped
              && s.stream.value.attributes == i.streamAttributes
  {
    if i.queue != Ok then Built(None, i.queue)
    else if i.attributes != Ok then Built(None, i.attributes)
    else if i.types != Ok then Built(None, i.types)
    else if i.streamDescriptor != Ok then Built(None, i.streamDescriptor)
    else if i.presentation != Ok then Built(None, i.presentation)
    else if !i.streamAllocated then Built(None, OutOfMemory)
    else
      var first := OfferedTypes()[0];
      var current := if i.firstTypeSelected then Some((first.width, first.height)) else None;
      var stream := MediaStream.Create(true, current, i.streamAttributes);
      Built(Some(Constructed.(stream := Some(stream), presentation := true, attributes := true)), Ok)
  }

  /** Whether or not the first type could be made current, the stream starts at the first type's size, 1920x1080. */
  lemma {:induction false} StreamSizedFromFirstType(i: SourceInit)
    requires Initialize(i).status == Ok
    ensures var st := Initialize(i).source.value.stream.value;
            st.width == OfferedTypes()[0].width == 1920 && st.height == OfferedTypes()[0].height == 1080
  {
    OfferedTypesInOrder();
  }

  // ---------------------------------------------------------------------------
  // Entry points
  // ---------------------------------------------------------------------------

  datatype Result = Result(source: Source, status: Status)

  /** `BeginGetEvent`, `EndGetEvent` and `GetEvent`: refused after shutdown, otherwise the queue answers. */
  function EventAccess(s: Source, queueResult: Status): (r: Status)
    ensures s.shutdown ==> r == ErrShutdown
    ensures !s.shutdown ==> r == queueResult
  {
    if s.shutdown then ErrShutdown else queueResult
  }

  /**
   `QueueEvent`: refused after shutdown, otherwise the event queue's answer,
   `queueResult`, is returned and the event joins the log only when that
   answer is a success.
   */
  function QueueEvent(s: Source, kind: nat, queueResult: Status): (r: Result)
    ensures s.shutdown ==> r.status == ErrShutdown
    ensures !s.shutdown ==> r.status == queueResult
    ensures r.source.log == if !s.shutdown && queueResult == Ok then s.log + [Posted(kind)] else s.log
    ensures r.source == s.(log := r.source.log)
  {
    if s.shutdown then Result(s, ErrShutdown)
    else if queueResult == Ok then Result(s.(log := s.log + [Posted(kind)]), Ok)
    else Result(s, queueResult)
  }

  /** `GetCharacteristics` (the source is live); `present` false stands for a null out-pointer. */
  function GetCharacteristics(s: Source, present: bool): (r: Status)
    ensures r == Ok <==> present && !s.shutdown
    ensures !present ==> r == NullPointer
  {
    if !present then NullPointer
    else if s.shutdown then ErrShutdown
    else Ok
  }

  /** `CreatePresentationDescriptor`: `cloneResult` is the outcome of cloning the descriptor. */
  function CreatePresentationDescriptor(s: Source, present: bool, cloneResult: Status): (r: Status)
    ensures !present ==> r == NullPointer
    ensures present && s.shutdown ==> r == ErrShutdown
    ensures present && !s.shutdown ==> r == if s.presentation then cloneResult else NotInitialized
  {
    if !present then NullPointer
    else if s.shutdown then ErrShutdown
    else if !s.presentation then NotInitialized
    else cloneResult
  }

  /** The time format argument of `Start`: none, the default (`GUID_NULL`), or another one. */
  datatype TimeFormat = NoFormat | DefaultFormat | OtherFormat

  /**
   `Start`: refused after shutdown and for a time format other than the
   default. Otherwise records the start time and queues MESourceStarted,
   then MENewStream (MEUpdatedStream if it was already started), and only
   then starts the stream, which queues MEStreamStarted.
   */
  function Start(s: Source, format: TimeFormat, now: int, setup: MediaStream.AllocatorSetup): (r: Result)
    requires Valid(s)
    ensures Valid(r.source)
    ensures s.shutdown ==> r == Result(s, ErrShutdown)
    ensures !s.shutdown && format == OtherFormat ==> r == Result(s, UnsupportedTimeFormat)
    ensures !s.shutdown && format != OtherFormat ==>
              && r.status == Ok && r.source.started && r.source.startTime == now
              && r.source.log == s.log + [SourceStarted]
                                 + (if s.stream.Some? then [if s.started then UpdatedStream else NewStream, StreamStarted] else [])
    ensures !s.shutdown && format != OtherFormat && s.stream.Some? ==>
              r.source.stream == Some(MediaStream.Start(s.stream.value, now, setup).stream)
    ensures s.log <= r.source.log
  {
    if s.shutdown then Result(s, ErrShutdown)
    else if format == OtherFormat then Result(s, UnsupportedTimeFormat)
    else
      var t := s.(startTime := now, started := true, log := s.log + [SourceStarted]);
      match s.stream
      case None => Result(t, Ok)
      case Some(st) =>
        var announced := t.log + [if s.started then UpdatedStream else NewStream];
        var o := MediaStream.Start(st, now, setup);
        Result(t.(stream := Some(o.stream), log := announced + o.events), Ok)
  }

  /** `Stop`: refused after shutdown; otherwise stops the stream (MEStreamStopped), clears started and queues MESourceStopped. */
  function Stop(s: Source): (r: Result)
    requires Valid(s)
    ensures Valid(r.source)
    ensures s.shutdown ==> r == Result(s, ErrShutdown)
    ensures !s.shutdown ==> r.status == Ok && !r.source.started
    ensures !s.shutdown ==> r.source.log == s.log + (if s.stream.Some? then [StreamStopped] else []) + [SourceStopped]
    ensures !s.shutdown && s.stream.Some? ==> r.source.stream == Some(MediaStream.Stop(s.stream.value).stream)
    ensures s.log <= r.source.log
  {
    if s.shutdown then Result(s, ErrShutdown)
    else
      match s.stream
      case None => Result(s.(started := false, log := s.log + [SourceStopped]), Ok)
      case Some(st) =>
        var o := MediaStream.Stop(st);
        Result(s.(stream := Some(o.stream), started := false, log := s.log + o.events + [SourceStopped]), Ok)
  }

  /** `Pause`: a virtual camera cannot pause, in any state. */
  function Pause(s: Source): (r: Result)
    ensures r == Result(s, InvalidStateTransition)
  {
    Result(s, InvalidStateTransition)
  }

  /**
   `Shutdown`: the first call marks the source shut down, clears started,
   shuts the stream down and detaches it, and releases the queue and the
   descriptors; a second call reports success and changes nothing.
   */
  function Shutdown(s: Source): (r: Result)
    requires Valid(s)
    ensures Valid(r.source)
    ensures r.status == Ok
    ensures r.source.shutdown && !r.source.started && r.source.stream.None?
    ensures s.shutdown ==> r.source == s
    ensures r.source.log == s.log
  {
    if s.shutdown then Result(s, Ok)
    else Result(s.(shutdown := true, started := false, stream := None, presentation := false, attributes := false), Ok)
  }

  /** The stream the first `Shutdown` detaches has itself been shut down. */
  function DetachedStream(s: Source): (d: Option<MediaStream.Stream>)
    requires Valid(s)
    ensures s.stream.Some? ==> d.Some? && d.value.shutdown && MediaStream.Valid(d.value)
    ensures s.stream.None? ==> d.None?
  {
    match s.stream
    case None => None
    case Some(st) => Some(MediaStream.Shutdown(st).stream)
  }

  /** `GetSourceAttributes`. */
  function GetSourceAttributes(s: Source, present: bool): (r: Status)
    ensures r == Ok <==> present && !s.shutdown && s.attributes
    ensures !present ==> r == NullPointer
    ensures present && s.shutdown ==> r == ErrShutdown
  {
    if !present then NullPointer
    else if s.shutdown then ErrShutdown
    else if !s.attributes then Unexpected
    else Ok
  }

  /** `GetStreamAttributes`: only stream 0 exists; its attributes are the stream's own. */
  function GetStreamAttributes(s: Source, id: nat, present: bool): (r: Status)
    ensures !present ==> r == NullPointer
    ensures present && s.shutdown ==> r == ErrShutdown
    ensures present && !s.shutdown && id != 0 ==> r == InvalidStreamNumber
    ensures r == Ok <==> present && !s.shutdown && id == 0 && s.stream.Some?
                         && MediaStream.GetAttributes(s.stream.value, true) == Ok
  {
    if !present then NullPointer
    else if s.shutdown then ErrShutdown
    else if id != 0 then InvalidStreamNumber
    else if s.stream.None? then Unexpected
    else MediaStream.GetAttributes(s.stream.value, true)
  }

  /** What `SetDefaultAllocator` is handed: a video sample allocator, or an object without that interface. */
  datatype AllocatorObject = VideoAllocator(id: nat) | OtherObject

  /**
   `SetDefaultAllocator`: refused after shutdown and for any stream but 0;
   a video allocator is passed on to the stream.
   */
  function SetDefaultAllocator(s: Source, id: nat, allocator: AllocatorObject): (r: Result)
    requires Valid(s)
    ensures Valid(r.source)
    ensures s.shutdown ==> r == Result(s, ErrShutdown)
    ensures !s.shutdown && (id != 0 || s.stream.None?) ==> r == Result(s, InvalidStreamNumber)
    ensures !s.shutdown && id == 0 && s.stream.Some? && allocator.OtherObject? ==> r == Result(s, NoInterface)
    ensures !s.shutdown && id == 0 && s.stream.Some? && allocator.VideoAllocator? ==>
              var o := MediaStream.SetSampleAllocator(s.stream.value, Some(allocator.id));
              r == Result(s.(stream := Some(o.stream)), o.status)
    ensures r.source.log == s.log && r.source.started == s.started && r.source.shutdown == s.shutdown
  {
    if s.shutdown then Result(s, ErrShutdown)
    else if id != 0 || s.stream.None? then Result(s, InvalidStreamNumber)
    else match allocator
      case OtherObject => Result(s, NoInterface)
      case VideoAllocator(a) =>
        var o := MediaStream.SetSampleAllocator(s.stream.value, Some(a));
        Result(s.(stream := Some(o.stream)), o.status)
  }

  datatype Usage = Usage(status: Status, inputStream: Option<nat>, usesProvidedAllocator: bool)

  /** `GetAllocatorUsage`: the source always uses the allocator it is given; the input stream echoes the output stream. */
  function GetAllocatorUsage(outputId: nat, inputPresent: bool, usagePresent: bool): (u: Usage)
    ensures !usagePresent ==> u == Usage(NullPointer, None, false)
    ensures usagePresent ==> u.status == Ok && u.usesProvidedAllocator
    ensures usagePresent && inputPresent ==> u.inputStream == Some(outputId)
    ensures !inputPresent ==> u.inputStream.None?
  {
    if !usagePresent then Usage(NullPointer, None, false)
    else Usage(Ok, if inputPresent then Some(outputId) else None, true)
  }

  /**
   A sample request reaching the stream: the attached stream answers and its
   events join the log; a detached stream was shut down and refuses.
   */
  function RequestSample(s: Source, token: Option<nat>, env: MediaStream.Environment): (r: Result)
    requires Valid(s)
    ensures Valid(r.source)
    ensures s.stream.None? ==> r == Result(s, ErrShutdown)
    ensures s.stream.Some? ==> var o := MediaStream.RequestSample(s.stream.value, token, env);
              r == Result(s.(stream := Some(o.stream), log := s.log + o.events), o.status)
    ensures s.log <= r.source.log
  {
    match s.stream
    case None => Result(s, ErrShutdown)
    case Some(st) =>
      var o := MediaStream.RequestSample(st, token, env);
      Result(s.(stream := Some(o.stream), log := s.log + o.events), o.status)
  }

  // ---------------------------------------------------------------------------
  // Lifecycle properties
  // ---------------------------------------------------------------------------

  /**
   The event order a start produces: MESourceStarted, then MENewStream for
   a source that was not started, then MEStreamStarted.
   */
  lemma {:induction false} FirstStartAnnouncesNewStream(i: SourceInit, format: TimeFormat, now: int,
                                                        setup: MediaStream.AllocatorSetup)
    requires Initialize(i).status == Ok && format != OtherFormat
    ensures var r := Start(Initialize(i).source.value, format, now, setup);
            && r.status == Ok
            && r.source.log == [SourceStarted, NewStream, StreamStarted]
            && r.source.stream.value.state == MediaStream.Running
  {
  }

  /** Starting a started source announces the stream as updated, not new. */
  lemma {:induction false} RestartAnnouncesUpdatedStream(s: Source, f1: TimeFormat, f2: TimeFormat, t1: int, t2: int,
                                                         a1: MediaStream.AllocatorSetup, a2: MediaStream.AllocatorSetup)
    requires Valid(s) && !s.shutdown && s.stream.Some? && f1 != OtherFormat && f2 != OtherFormat
    ensures var r1 := Start(s, f1, t1, a1);
            var r2 := Start(r1.source, f2, t2, a2);
            r2.source.log == r1.source.log + [SourceStarted, UpdatedStream, StreamStarted]
  {
  }

  /** A stop in between makes the next start announce a new stream again. */
  lemma {:induction false} StopMakesNextStartNew(s: Source, format: TimeFormat, now: int, setup: MediaStream.AllocatorSetup)
    requires Valid(s) && !s.shutdown && s.stream.Some? && format != OtherFormat
    ensures var r1 := Stop(s);
            var r2 := Start(r1.source, format, now, setup);
            r2.source.log == s.log + [StreamStopped, SourceStopped, SourceStarted, NewStream, StreamStarted]
  {
  }

  /**
   Shutdown is terminal: afterwards every guarded entry point refuses with
   MF_E_SHUTDOWN and changes nothing, a detached stream refuses samples,
   and shutting down again reports success.
   */
  lemma {:induction false} ShutdownIsTerminal(s: Source, format: TimeFormat, now: int, setup: MediaStream.AllocatorSetup,
                                              id: nat, allocator: AllocatorObject, kind: nat, queueResult: Status,
                                              cloneResult: Status, token: Option<nat>, env: MediaStream.Environment)
    requires Valid(s)
    ensures var t := Shutdown(s).source;
            && Start(t, format, now, setup) == Result(t, ErrShutdown)
            && Stop(t) == Result(t, ErrShutdown)
            && SetDefaultAllocator(t, id, allocator) == Result(t, ErrShutdown)
            && QueueEvent(t, kind, queueResult) == Result(t, ErrShutdown)
            && RequestSample(t, token, env) == Result(t, ErrShutdown)
            && EventAccess(t, queueResult) == ErrShutdown
            && GetCharacteristics(t, true) == ErrShutdown
            && CreatePresentationDescriptor(t, true, cloneResult) == ErrShutdown
            && GetSourceAttributes(t, true) == ErrShutdown
            && GetStreamAttributes(t, id, true) == ErrShutdown
            && Shutdown(t) == Result(t, Ok)
  {
  }
}

=== FILE: stream.dfy ===
/**
 The camera's one video stream (`FluxMicMediaStream`): its state machine and
 the sample it builds for each request.

 Every platform call the stream makes is replaced by its outcome, supplied
 as an input: the pipe and the connection attempt, the decoder transform,
 the sample allocator and the buffers it hands out, the system clock and
 the event queue. Each operation returns the new state, the status it
 reports and the events it queued, in order.
 */
module MediaStream {
  import opened Bytes
  import opened Wire
  import opened Nv12
  import opened Media
  import FrameReader
  import H264

  datatype StreamState = Stopped | Paused | Running

  /**
   The stream's fields. `allocator` is the identity of the sample allocator
   (none for a null pointer), `attributes` and `descriptor` stand for non-null
   attribute store and stream descriptor pointers.
   */
  datatype Stream = Stream(
    state: StreamState,
    shutdown: bool,
    allocator: Option<nat>,
    allocatorInitialized: bool,
    attributes: bool,
    descriptor: bool,
    reader: FrameReader.Reader,
    decoder: H264.Decoder,
    decoderInitialized: bool,
    nalBuffer: seq<byte>,
    lastNv12: seq<byte>,
    hasLastFrame: bool,
    lastWidth: u32,
    lastHeight: u32,
    width: u32,
    height: u32,
    startTime: int,
    sampleIndex: nat)

  /** Status, new state and the events queued, in order. */
  datatype Outcome = Outcome(stream: Stream, status: Status, events: seq<Event>)

  /** Output size used until the descriptor says otherwise. */
  const DefaultWidth: u32 := 1920
  const DefaultHeight: u32 := 1080

  /** How long one request waits for a message, in milliseconds. */
  const FrameWaitMs: nat := 5

  /**
   What every operation keeps: the reader and the decoder are valid, the
   decoder flag mirrors the decoder, a cached frame covers its geometry, and
   a shut-down stream holds no pipe, decoder, allocator, attributes or
   descriptor.
   */
  ghost predicate Valid(s: Stream) {
    && FrameReader.Valid(s.reader)
    && H264.Valid(s.decoder)
    && s.decoderInitialized == s.decoder.initialized
    && (s.hasLastFrame ==> |s.lastNv12| >= H264.FrameBytes(s.lastWidth, s.lastHeight))
    && (s.shutdown ==> !s.reader.open && !s.decoderInitialized && s.allocator.None? && !s.attributes && !s.descriptor)
  }

  /**
   A new stream. `current` is the frame size of the descriptor's current
   media type, when it could be read; `attributesCreated` says whether the
   stream's attribute store was created.
   */
  function Create(descriptor: bool, current: Option<(u32, u32)>, attributesCreated: bool): (s: Stream)
    ensures Valid(s)
    ensures s.state == Stopped && !s.shutdown && s.sampleIndex == 0
    ensures s.allocator.None? && !s.allocatorInitialized
    ensures !s.reader.open && !s.decoderInitialized && !s.hasLastFrame
    ensures descriptor && current.Some? ==> (s.width, s.height) == current.value
    ensures !(descriptor && current.Some?) ==> s.width == DefaultWidth && s.height == DefaultHeight
  {
    var size := if descriptor && current.Some? then current.value else (DefaultWidth, DefaultHeight);
    Stream(Stopped, false, None, false, attributesCreated, descriptor, FrameReader.Fresh, H264.Fresh, false,
           Repeat(MaxFrameDataSize, 0), [], false, 0, 0, size.0, size.1, 0, 0)
  }

  // ---------------------------------------------------------------------------
  // Allocator negotiation
  // ---------------------------------------------------------------------------

  /** Outcomes of the calls `InitializeAllocatorLocked` makes. */
  datatype AllocatorSetup = AllocatorSetup(handlerOk: bool, currentTypeOk: bool, initOk: bool)

  datatype Negotiated = Negotiated(stream: Stream, attempted: bool)

  /**
   Prepares the allocator for the current media type, unless there is no
   allocator or it is already prepared; only a successful attempt marks it
   prepared.
   */
  function InitializeAllocator(s: Stream, a: AllocatorSetup): (n: Negotiated)
    ensures n.attempted <==> s.allocator.Some? && !s.allocatorInitialized && a.handlerOk && a.currentTypeOk
    ensures n.stream.allocatorInitialized <==> s.allocatorInitialized || (n.attempted && a.initOk)
    ensures n.stream == s.(allocatorInitialized := n.stream.allocatorInitialized)
  {
    if s.allocator.None? || s.allocatorInitialized then Negotiated(s, false)
    else if !a.handlerOk || !a.currentTypeOk then Negotiated(s, false)
    else Negotiated(s.(allocatorInitialized := a.initOk), true)
  }

  /** Replaces the allocator; refused after shutdown and while running. */
  function SetSampleAllocator(s: Stream, allocator: Option<nat>): (o: Outcome)
    ensures o.events == []
    ensures s.shutdown ==> o == Outcome(s, ErrShutdown, [])
    ensures !s.shutdown && s.state == Running ==> o == Outcome(s, InvalidRequest, [])
    ensures !s.shutdown && s.state != Running ==>
              o.status == Ok && o.stream.allocator == allocator && !o.stream.allocatorInitialized
    ensures o.stream == s.(allocator := o.stream.allocator, allocatorInitialized := o.stream.allocatorInitialized)
    ensures Valid(s) ==> Valid(o.stream)
  {
    if s.shutdown then Outcome(s, ErrShutdown, [])
    else if s.state == Running then Outcome(s, InvalidRequest, [])
    else Outcome(s.(allocator := allocator, allocatorInitialized := false), Ok, [])
  }

  /**
   Negotiation runs at most once per allocator: once an attempt succeeded,
   further calls attempt nothing until a new allocator is set, which makes
   the next call attempt again when the descriptor answers.
   */
  lemma {:induction false} NegotiatesOncePerAllocator(s: Stream, a: AllocatorSetup, b: AllocatorSetup, next: nat)
    requires s.allocator.Some? && !s.allocatorInitialized && a.handlerOk && a.currentTypeOk && a.initOk
    ensures var n := InitializeAllocator(s, a);
            && n.attempted && n.stream.allocatorInitialized
            && !InitializeAllocator(n.stream, b).attempted
    ensures var n := InitializeAllocator(s, a);
            !n.stream.shutdown && n.stream.state != Running ==>
              (InitializeAllocator(SetSampleAllocator(n.stream, Some(next)).stream, b).attempted
               <==> b.handlerOk && b.currentTypeOk)
  {
    var n := InitializeAllocator(s, a);
    assert n.stream.allocator == s.allocator;
  }

  /** A failed attempt leaves the allocator unprepared, so the next start tries again. */
  lemma {:induction false} FailedNegotiationRetries(s: Stream, a: AllocatorSetup, b: AllocatorSetup)
    requires s.allocator.Some? && !s.allocatorInitialized && !a.initOk
    ensures !InitializeAllocator(s, a).stream.allocatorInitialized
    ensures InitializeAllocator(InitializeAllocator(s, a).stream, b).attempted <==> b.handlerOk && b.currentTypeOk
  {
  }

  // ---------------------------------------------------------------------------
  // Stream state changes
  // ---------------------------------------------------------------------------

  /**
   `SetStreamState`: records the state; entering Running prepares the
   allocator and queues MEStreamStarted, entering Stopped queues
   MEStreamStopped.
   */
  function SetStreamState(s: Stream, value: StreamState, a: AllocatorSetup): (o: Outcome)
    ensures s.shutdown ==> o == Outcome(s, ErrShutdown, [])
    ensures !s.shutdown ==> o.status == Ok && o.stream.state == value
    ensures !s.shutdown ==> o.events == (match value
                                         case Running => [StreamStarted]
                                         case Stopped => [StreamStopped]
                                         case Paused => [])
    ensures !s.shutdown && value != Running ==> o.stream == s.(state := value)
    ensures !s.shutdown && value == Running ==> o.stream == InitializeAllocator(s, a).stream.(state := Running)
    ensures Valid(s) ==> Valid(o.stream)
  {
    if s.shutdown then Outcome(s, ErrShutdown, [])
    else
      var t := s.(state := value);
      match value
      case Running => Outcome(InitializeAllocator(t, a).stream, Ok, [StreamStarted])
      case Stopped => Outcome(t, Ok, [StreamStopped])
      case Paused => Outcome(t, Ok, [])
  }

  /**
   `Start`, called by the source: records the start time, restarts the
   sample count, enters Running, prepares the allocator and queues
   MEStreamStarted. The stream's own method has no shutdown check; the
   source never starts a stream it has shut down.
   */
  function Start(s: Stream, startTime: int, a: AllocatorSetup): (o: Outcome)
    requires !s.shutdown
    ensures o.status == Ok && o.events == [StreamStarted]
    ensures o.stream.state == Running && o.stream.sampleIndex == 0 && o.stream.startTime == startTime
    ensures o.stream == InitializeAllocator(s, a).stream.(state := Running, sampleIndex := 0, startTime := startTime)
    ensures Valid(s) ==> Valid(o.stream)
  {
    var t := s.(startTime := startTime, sampleIndex := 0, state := Running);
    Outcome(InitializeAllocator(t, a).stream, Ok, [StreamStarted])
  }

  /** `Stop`, called by the source: enters Stopped, closes the pipe, forgets the cached frame and queues MEStreamStopped. */
  function Stop(s: Stream): (o: Outcome)
    requires !s.shutdown
    ensures o.status == Ok && o.events == [StreamStopped]
    ensures o.stream.state == Stopped && !o.stream.reader.open && !o.stream.hasLastFrame
    ensures o.stream == s.(state := Stopped, reader := FrameReader.Close(s.reader), hasLastFrame := false)
    ensures Valid(s) ==> Valid(o.stream)
  {
    Outcome(s.(state := Stopped, reader := FrameReader.Close(s.reader), hasLastFrame := false), Ok, [StreamStopped])
  }

  /**
   `Shutdown`: closes the pipe, shuts the decoder down and releases the
   allocator, the queue, the attributes and the descriptor. A second call
   changes nothing; both report success.
   */
  function Shutdown(s: Stream): (o: Outcome)
    ensures o.status == Ok && o.events == []
    ensures o.stream.shutdown
    ensures !s.shutdown ==> !o.stream.reader.open && !o.stream.decoderInitialized && !o.stream.decoder.mft
    ensures !s.shutdown ==> o.stream.allocator.None? && !o.stream.attributes && !o.stream.descriptor
    ensures s.shutdown ==> o.stream == s
    ensures Valid(s) ==> Valid(o.stream)
  {
    if s.shutdown then Outcome(s, Ok, [])
    else
      Outcome(s.(shutdown := true, reader := FrameReader.Close(s.reader), decoder := H264.Shutdown(s.decoder),
                 decoderInitialized := false, allocator := None, attributes := false, descriptor := false), Ok, [])
  }

  /** Shutting down twice is shutting down once. */
  lemma {:induction false} ShutdownIdempotent(s: Stream)
    ensures Shutdown(Shutdown(s).stream) == Shutdown(s)
  {
  }

  /** `GetAttributes` (`present` false stands for a null out-pointer). */
  function GetAttributes(s: Stream, present: bool): (r: Status)
    ensures r == Ok <==> present && !s.shutdown && s.attributes
    ensures !present ==> r == NullPointer
    ensures present && s.shutdown ==> r == ErrShutdown
  {
    if !present then NullPointer
    else if s.shutdown then ErrShutdown
    else if !s.attributes then Unexpected
    else Ok
  }

  /** `GetStreamDescriptor` (`present` false stands for a null out-pointer). */
  function GetStreamDescriptor(s: Stream, present: bool): (r: Status)
    ensures r == Ok <==> present && !s.shutdown && s.descriptor
    ensures !present ==> r == NullPointer
    ensures present && s.shutdown ==> r == ErrShutdown
  {
    if !present then NullPointer
    else if s.shutdown then ErrShutdown
    else if !s.descriptor then Unexpected
    else Ok
  }

  /**
   `QueueEvent` from a client: refused after shutdown, otherwise the event
   queue's answer, `queueResult`, is returned and the event is queued only
   when that answer is a success.
   */
  function QueueEvent(s: Stream, kind: nat, queueResult: Status): (o: Outcome)
    ensures s.shutdown ==> o.status == ErrShutdown
    ensures !s.shutdown ==> o.status == queueResult
    ensures o.stream == s
    ensures o.events == if !s.shutdown && queueResult == Ok then [Posted(kind)] else []
  {
    if s.shutdown then Outcome(s, ErrShutdown, [])
    else if queueResult == Ok then Outcome(s, Ok, [Posted(kind)])
    else Outcome(s, queueResult, [])
  }

  // ---------------------------------------------------------------------------
  // Choosing the picture: fresh decode, cached frame, or nothing
  // ---------------------------------------------------------------------------

  /** A frame whose bytes cover its packed size, as every copy from it reads that many. */
  predicate Covers(f: Frame) {
    |f.data| >= H264.FrameBytes(f.width, f.height)
  }

  /** The fields no step of picture choice touches. */
  predicate SameSettings(a: Stream, b: Stream) {
    && a.state == b.state && a.shutdown == b.shutdown
    && a.allocator == b.allocator && a.allocatorInitialized == b.allocatorInitialized
    && a.attributes == b.attributes && a.descriptor == b.descriptor
    && a.width == b.width && a.height == b.height
    && a.startTime == b.startTime && a.sampleIndex == b.sampleIndex
  }

  /** The cached last good frame is the same in both. */
  predicate SameCache(a: Stream, b: Stream) {
    a.lastNv12 == b.lastNv12 && a.hasLastFrame == b.hasLastFrame
    && a.lastWidth == b.lastWidth && a.lastHeight == b.lastHeight
  }

  /** The cache holds the decoder's current picture: its geometry and its packed bytes. */
  predicate CachesDecoderPicture(s: Stream) {
    && s.hasLastFrame && s.lastWidth == s.decoder.width && s.lastHeight == s.decoder.height
    && |s.decoder.output| >= H264.FrameBytes(s.decoder.width, s.decoder.height)
    && |s.lastNv12| >= H264.FrameBytes(s.decoder.width, s.decoder.height)
    && s.lastNv12[..H264.FrameBytes(s.decoder.width, s.decoder.height)]
       == s.decoder.output[..H264.FrameBytes(s.decoder.width, s.decoder.height)]
  }

  /** Stores the decoder's current picture as the last good frame. */
  function Remember(s: Stream): (t: Stream)
    requires s.decoder.configured && |s.decoder.output| >= H264.FrameBytes(s.decoder.width, s.decoder.height)
    ensures CachesDecoderPicture(t)
    ensures t == s.(lastNv12 := t.lastNv12, hasLastFrame := true, lastWidth := t.lastWidth, lastHeight := t.lastHeight)
  {
    var n := H264.FrameBytes(s.decoder.width, s.decoder.height);
    var grown := if |s.lastNv12| < n then Resize(s.lastNv12, n) else s.lastNv12;
    var last := s.decoder.output[..n] + grown[n..];
    assert last[..n] == s.decoder.output[..n];
    s.(lastNv12 := last, hasLastFrame := true, lastWidth := s.decoder.width, lastHeight := s.decoder.height)
  }

  datatype Fetched = Fetched(stream: Stream, decoded: bool)

  datatype Loaded = Loaded(stream: Stream, payload: Option<seq<byte>>)

  /**
   After a successful wait: reads the held message's header and copies its
   payload into the NAL buffer, growing the buffer first if the payload
   would not fit.
   */
  function Load(s: Stream): (l: Loaded)
    requires Valid(s)
    ensures Valid(l.stream) && SameSettings(l.stream, s) && SameCache(l.stream, s)
    ensures l.stream.decoder == s.decoder && l.stream.decoderInitialized == s.decoderInitialized
    ensures l.stream.reader.open == s.reader.open && l.stream.reader.hasFrame == s.reader.hasFrame
    ensures l.payload.Some? <==> s.reader.hasFrame
    ensures s.reader.hasFrame ==> var h := s.reader.cachedHeader;
              && l.payload == Some(s.reader.buffer[HeaderSize..HeaderSize + h.frameSize])
              && |l.stream.nalBuffer| >= h.frameSize
              && l.stream.nalBuffer[..h.frameSize] == l.payload.value
              && l.stream.reader.lastSequence == h.sequence
  {
    match FrameReader.ReadHeader(s.reader)
    case None => Loaded(s, None)
    case Some(h) =>
      var nal := if h.frameSize > |s.nalBuffer| then Resize(s.nalBuffer, h.frameSize) else s.nalBuffer;
      var c := FrameReader.ReadFrameData(s.reader, |nal| > 0, |nal|, h);
      match c.data
      case None => Loaded(s.(reader := c.reader, nalBuffer := nal), None)
      case Some(payload) =>
        Loaded(s.(reader := c.reader, nalBuffer := FrameReader.ReadInto(nal, payload)), Some(payload))
  }

  /** Reads the held message and decodes it; a decoded picture becomes the cached frame. */
  function Fetch(s: Stream, script: H264.DecodeScript): (f: Fetched)
    requires Valid(s)
    ensures Valid(f.stream) && SameSettings(f.stream, s)
    ensures f.decoded ==> s.reader.hasFrame && f.stream.decoder.configured && CachesDecoderPicture(f.stream)
    ensures !f.decoded ==> SameCache(f.stream, s)
    ensures f.stream.reader.open == s.reader.open && f.stream.reader.hasFrame == s.reader.hasFrame
    ensures s.reader.hasFrame ==> var h := s.reader.cachedHeader;
              && |f.stream.nalBuffer| >= h.frameSize
              && f.stream.nalBuffer[..h.frameSize] == s.reader.buffer[HeaderSize..HeaderSize + h.frameSize]
              && f.stream.reader.lastSequence == h.sequence
    ensures f.stream.decoderInitialized == s.decoderInitialized
  {
    var l := Load(s);
    match l.payload
    case None => Fetched(l.stream, false)
    case Some(payload) => DecodeInto(l.stream, payload, script)
  }

  /** Decodes one payload; a decoded picture becomes the cached frame. */
  function DecodeInto(s: Stream, payload: seq<byte>, script: H264.DecodeScript): (f: Fetched)
    requires Valid(s)
    ensures Valid(f.stream) && SameSettings(f.stream, s)
    ensures f.decoded ==> f.stream.decoder.configured && CachesDecoderPicture(f.stream)
    ensures !f.decoded ==> SameCache(f.stream, s)
    ensures f.stream.reader == s.reader && f.stream.nalBuffer == s.nalBuffer
    ensures f.stream.decoderInitialized == s.decoderInitialized
  {
    var d := H264.DecodeNal(s.decoder, true, payload, script);
    var t := s.(decoder := d.dec);
    if d.got then Fetched(Remember(t), true) else Fetched(t, false)
  }

  /** The outcomes a request's frame acquisition depends on. */
  datatype Supply = Supply(connect: FrameReader.Connect, pipe: FrameReader.Pipe,
                           decoderInit: H264.InitScript, decode: H264.DecodeScript)

  datatype Acquired = Acquired(stream: Stream, frame: Option<Frame>, decoded: bool)

  /** The stream after opening the pipe if it is closed and starting the decoder if it is not started. */
  function Prepare(s: Stream, supply: Supply): (t: Stream)
    requires Valid(s) && !s.shutdown
    ensures Valid(t) && !t.shutdown && SameSettings(t, s) && SameCache(t, s)
    ensures t.reader.open <==> s.reader.open || supply.connect == FrameReader.Connected
    ensures s.reader.open ==> t.reader == s.reader
    ensures t.decoderInitialized <==> s.decoderInitialized || H264.Initialize(s.decoder, supply.decoderInit).ok
  {
    var r := if s.reader.open then s.reader else FrameReader.Open(s.reader, supply.connect).reader;
    if s.decoderInitialized then s.(reader := r)
    else
      var started := H264.Initialize(s.decoder, supply.decoderInit);
      s.(reader := r, decoder := started.dec, decoderInitialized := started.ok)
  }

  /**
   The open-pipe path of picture choice: wait up to five milliseconds for a
   message and decode it; without a new picture fall back to the cache.
   */
  function Collect(t: Stream, supply: Supply): (a: Acquired)
    requires Valid(t) && t.reader.open && t.decoderInitialized
    ensures Valid(a.stream) && SameSettings(a.stream, t)
    ensures a.stream.decoderInitialized
    ensures a.decoded ==> CachesDecoderPicture(a.stream)
    ensures a.decoded ==> a.frame == Some(Frame(a.stream.decoder.output, a.stream.decoder.width, a.stream.decoder.height))
    ensures !a.decoded ==> SameCache(a.stream, t)
    ensures !a.decoded ==> a.frame == if t.hasLastFrame then Some(Frame(t.lastNv12, t.lastWidth, t.lastHeight)) else None
  {
    var w := FrameReader.WaitWith(t.reader, supply.pipe, FrameWaitMs, FrameReader.Staged);
    var u := t.(reader := w.reader);
    var f := if w.got then Fetch(u, supply.decode) else Fetched(u, false);
    if f.decoded then
      var d := f.stream.decoder;
      Acquired(f.stream, Some(Frame(d.output, d.width, d.height)), true)
    else if f.stream.hasLastFrame then
      Acquired(f.stream, Some(Frame(f.stream.lastNv12, f.stream.lastWidth, f.stream.lastHeight)), false)
    else Acquired(f.stream, None, false)
  }

  /**
   The three tiers of picture choice. With the pipe open and the decoder
   started, a freshly decoded picture is used (and cached), otherwise the
   cached frame if there is one. Without pipe or decoder there is no picture
   at all.
   */
  function Acquire(s: Stream, supply: Supply): (a: Acquired)
    requires Valid(s) && !s.shutdown
    ensures Valid(a.stream) && !a.stream.shutdown && SameSettings(a.stream, s)
    ensures a.frame.Some? ==> Covers(a.frame.value)
    ensures a.decoded ==> Prepare(s, supply).reader.open && Prepare(s, supply).decoderInitialized
    ensures a.decoded ==> CachesDecoderPicture(a.stream)
    ensures a.decoded ==> a.frame == Some(Frame(a.stream.decoder.output, a.stream.decoder.width, a.stream.decoder.height))
    ensures !a.decoded ==> SameCache(a.stream, s)
    ensures !a.decoded ==> (a.frame.Some? <==> Prepare(s, supply).reader.open && Prepare(s, supply).decoderInitialized
                                                && s.hasLastFrame)
    ensures !a.decoded && a.frame.Some? ==> a.frame == Some(Frame(s.lastNv12, s.lastWidth, s.lastHeight))
    ensures a.stream.decoderInitialized == Prepare(s, supply).decoderInitialized
  {
    var t := Prepare(s, supply);
    if !(t.reader.open && t.decoderInitialized) then Acquired(t, None, false)
    else Collect(t, supply)
  }

  // ---------------------------------------------------------------------------
  // Building the sample
  // ---------------------------------------------------------------------------

  /**
   How the sample's buffer can be locked: as a 2D buffer (`pitch` and
   buffer length reported by `Lock2DSize`) or, when the buffer has no 2D
   interface, as a plain buffer of `maxLength` bytes.
   */
  datatype Lock =
    | Lock2D(result: Status, pitch: int, length: u32)
    | Lock1D(result: Status, maxLength: u32)

  /** Outcomes of the allocator path: `AllocateSample` (and whether it returned a sample), `GetBufferByIndex`, the lock. */
  datatype AllocatedBuffer = AllocatedBuffer(sampleResult: Status, sampleReturned: bool, buffer: Status, lock: Lock)

  /** Outcomes of the calls `CreateBlackSample` makes. */
  datatype BlackBuffer = BlackBuffer(sample: Status, buffer: Status, lockOk: bool)

  datatype Produced = Produced(status: Status, picture: Option<Picture>)

  /**
   `CreateBlackSample`: a new sample with a memory buffer of one packed
   frame at the stream's size; a failed lock still yields the sample, with
   its buffer unfilled.
   */
  function CreateBlackSample(width: u32, height: u32, b: BlackBuffer): (p: Produced)
    ensures p.status == Ok <==> b.sample == Ok && b.buffer == Ok
    ensures p.status == Ok ==> p.picture == Some(BlackSample(width, height, b.lockOk))
    ensures p.status != Ok ==> p.picture.None? && (p.status == b.sample || p.status == b.buffer)
  {
    if b.sample != Ok then Produced(b.sample, None)
    else if b.buffer != Ok then Produced(b.buffer, None)
    else Produced(Ok, Some(BlackSample(width, height, b.lockOk)))
  }

  /** The buffer outcomes a request's sample depends on. */
  datatype Delivery = Delivery(allocation: AllocatedBuffer, black: BlackBuffer)

  /**
   Builds the sample's picture from the chosen frame. With an allocator
   whose sample arrives, the frame is copied into the locked buffer (a 2D
   buffer is scaled to the geometry its pitch and length imply; a plain
   buffer takes the packed frame only when it fits). Without an allocator,
   or when it hands out no sample, a black sample is made instead.
   */
  function Produce(s: Stream, frame: Option<Frame>, d: Delivery): (p: Produced)
    ensures p.status == Ok <==> p.picture.Some?
    ensures s.allocator.None? ==> p == CreateBlackSample(s.width, s.height, d.black)
    ensures p.picture.Some? && Shown(p.picture.value).Some? ==> Shown(p.picture.value) == frame
    ensures var a := d.allocation;
            s.allocator.Some? && a.sampleResult == Ok && a.sampleReturned && a.buffer == Ok && a.lock.result == Ok ==>
              p.status == Ok && (Shown(p.picture.value) == frame <==>
                                 a.lock.Lock2D? || frame.None? || H264.FrameBytes(frame.value.width, frame.value.height) <= a.lock.maxLength)
    ensures var a := d.allocation;
            s.allocator.Some? && a.sampleResult == Ok && a.sampleReturned && a.buffer == Ok && a.lock.Lock2D? && a.lock.result == Ok ==>
              var g := LockedGeometry(a.lock.pitch, a.lock.length, s.width, s.height);
              p.picture == Some(if frame.Some? then Copied2D(frame.value, a.lock.pitch, g) else Blank2D(a.lock.pitch, g))
    ensures var a := d.allocation;
            s.allocator.Some? && !(a.sampleResult == Ok && a.sampleReturned) ==> p == CreateBlackSample(s.width, s.height, d.black)
    ensures var a := d.allocation;
            s.allocator.Some? && a.sampleResult == Ok && a.sampleReturned && (a.buffer != Ok || a.lock.result != Ok) ==>
              p.status != Ok
  {
    var a := d.allocation;
    if s.allocator.None? || !(a.sampleResult == Ok && a.sampleReturned) then CreateBlackSample(s.width, s.height, d.black)
    else if a.buffer != Ok then Produced(a.buffer, None)
    else match a.lock
      case Lock2D(result, pitch, length) =>
        if result != Ok then Produced(result, None)
        else
          var g := LockedGeometry(pitch, length, s.width, s.height);
          Produced(Ok, Some(if frame.Some? then Copied2D(frame.value, pitch, g) else Blank2D(pitch, g)))
      case Lock1D(result, maxLength) =>
        if result != Ok then Produced(result, None)
        else if frame.Some? then
          var n := H264.FrameBytes(frame.value.width, frame.value.height);
          Produced(Ok, Some(if n <= maxLength then Packed(frame.value, n) else AsAllocated))
        else
          var n := H264.FrameBytes(s.width, s.height);
          Produced(Ok, Some(if n <= maxLength then BlankPacked(s.width, s.height) else AsAllocated))
  }

  /**
   A picture built for a locked 2D buffer with positive pitch and length
   stays inside it: it is no wider than the pitch, its luma and chroma rows
   end within the buffer, and a copied frame whose packed size fits 32 bits
   holds every byte the copy reads. The copy's destination width is the
   pitch, and `CopyNv12ToBuffer` accepts the picture exactly when its
   geometry lets the copy read inside the source (`ScalingDefined`).
   */
  lemma {:induction false} LockedPictureFits(s: Stream, frame: Option<Frame>, d: Delivery)
    requires var a := d.allocation;
             && s.allocator.Some? && a.sampleResult == Ok && a.sampleReturned && a.buffer == Ok
             && a.lock.Lock2D? && a.lock.result == Ok && a.lock.pitch > 0 && a.lock.length > 0
    requires frame.Some? ==> Covers(frame.value) && frame.value.width * frame.value.height * 3 < 0x1_0000_0000
    ensures var p := Produce(s, frame, d).picture.value;
            && (p.Copied2D? || p.Blank2D?)
            && p.planes.width <= p.pitch
            && Nv12Size(p.planes.width, p.planes.height) <= d.allocation.lock.length
            && Offset(p.planes.height + p.planes.height / 2, 0, p.planes.width) <= d.allocation.lock.length
            && (p.Copied2D? ==> Nv12Size(p.source.width, p.source.height) <= |p.source.data|)
            && (p.Copied2D? ==> p.planes.width == p.pitch)
            && (p.Copied2D? ==>
                  (CopyFits(|p.source.data|, p.source.width, p.source.height, d.allocation.lock.length,
                            p.pitch, p.planes.width, p.planes.height)
                   <==> ScalingDefined(p.source.width, p.source.height, p.planes.width, p.planes.height)))
  {
    var a := d.allocation;
    LockedGeometryFits(a.lock.pitch, a.lock.length, s.width, s.height);
    if frame.Some? {
      H264.FrameBytesExact(frame.value.width, frame.value.height);
    }
  }

  /**
   A picture built for a plain buffer copies only what fits: a packed copy
   takes exactly the frame's packed size, which the buffer and the frame
   both hold, and a blank frame is written only when it fits.
   */
  lemma {:induction false} PackedPictureFits(s: Stream, frame: Option<Frame>, d: Delivery)
    requires var a := d.allocation;
             && s.allocator.Some? && a.sampleResult == Ok && a.sampleReturned && a.buffer == Ok
             && a.lock.Lock1D? && a.lock.result == Ok
    requires frame.Some? ==> Covers(frame.value)
    ensures var p := Produce(s, frame, d).picture.value;
            && (p.Packed? ==> frame == Some(p.source) && p.size == H264.FrameBytes(p.source.width, p.source.height)
                              && p.size <= d.allocation.lock.maxLength && p.size <= |p.source.data|)
            && (p.BlankPacked? ==> frame.None? && H264.FrameBytes(s.width, s.height) <= d.allocation.lock.maxLength)
            && (p.AsAllocated? ==> H264.FrameBytes(if frame.Some? then frame.value.width else s.width,
                                                   if frame.Some? then frame.value.height else s.height)
                                   > d.allocation.lock.maxLength)
            && (p.Packed? || p.BlankPacked? || p.AsAllocated?)
  {
  }

  /** Everything a request depends on besides the stream and the token. */
  datatype Environment = Environment(supply: Supply, delivery: Delivery, now: int, queued: Status)

  /**
   `RequestSample`: refused after shutdown and outside Running; otherwise
   chooses a picture, builds a sample stamped with the current time, a
   duration of 1/30 s and the token, and queues it as MEMediaSample. The
   sample count advances whenever a sample was built, even when queueing it
   fails.
   */
  function RequestSample(s: Stream, token: Option<nat>, env: Environment): (o: Outcome)
    requires Valid(s)
    ensures Valid(o.stream)
    ensures s.shutdown ==> o == Outcome(s, ErrShutdown, [])
    ensures !s.shutdown && s.state != Running ==> o == Outcome(s, InvalidRequest, [])
    ensures o.status == Ok <==> |o.events| == 1
    ensures |o.events| <= 1
    ensures o.status == Ok ==> o.events[0].MediaSample? && o.stream.sampleIndex == s.sampleIndex + 1
    ensures o.status == Ok ==> var sample := o.events[0].sample;
                               sample.time == env.now && sample.duration == SampleDuration && sample.token == token
    ensures o.stream.sampleIndex == s.sampleIndex || o.stream.sampleIndex == s.sampleIndex + 1
    ensures o.stream.state == s.state && o.stream.shutdown == s.shutdown && o.stream.allocator == s.allocator
            && o.stream.allocatorInitialized == s.allocatorInitialized
  {
    if s.shutdown then Outcome(s, ErrShutdown, [])
    else if s.state != Running then Outcome(s, InvalidRequest, [])
    else
      var a := Acquire(s, env.supply);
      Deliver(a.stream, a.frame, token, env)
  }

  /**
   The second half of a request: builds the sample for the chosen frame,
   counts it, and queues it stamped with the current time, a duration of
   1/30 s and the token.
   */
  function Deliver(s: Stream, frame: Option<Frame>, token: Option<nat>, env: Environment): (o: Outcome)
    requires Valid(s)
    ensures Valid(o.stream)
    ensures o.status == Ok <==> |o.events| == 1
    ensures |o.events| <= 1
    ensures o.status == Ok ==> o.events[0].MediaSample? && o.stream.sampleIndex == s.sampleIndex + 1
    ensures o.status == Ok ==> var sample := o.events[0].sample;
                               && sample.time == env.now && sample.duration == SampleDuration && sample.token == token
                               && Some(sample.picture) == Produce(s, frame, env.delivery).picture
    ensures o.stream == s || o.stream == s.(sampleIndex := s.sampleIndex + 1)
  {
    var p := Produce(s, frame, env.delivery);
    if p.status != Ok then Outcome(s, p.status, [])
    else
      var counted := s.(sampleIndex := s.sampleIndex + 1);
      if env.queued != Ok then Outcome(counted, env.queued, [])
      else Outcome(counted, Ok, [MediaSample(Sample(env.now, SampleDuration, token, p.picture.value))])
  }

  // ---------------------------------------------------------------------------
  // Properties across requests
  // ---------------------------------------------------------------------------

  /**
   The sample delivered for a request shows exactly the frame the tiers
   chose, whenever an allocator's 2D buffer received it; a request with no
   frame to show delivers a blank picture.
   */
  lemma {:induction false} SampleShowsChosenFrame(s: Stream, token: Option<nat>, env: Environment)
    requires Valid(s) && !s.shutdown && s.state == Running
    requires s.allocator.Some?
    requires var a := env.delivery.allocation;
             a.sampleResult == Ok && a.sampleReturned && a.buffer == Ok && a.lock.Lock2D? && a.lock.result == Ok
    requires env.queued == Ok
    ensures var o := RequestSample(s, token, env);
            o.status == Ok && Shown(o.events[0].sample.picture) == Acquire(s, env.supply).frame
  {
    var a := Acquire(s, env.supply);
    assert a.stream.allocator == s.allocator;
  }

  /**
   Without an allocator every request delivers a black sample at the
   stream's size, even when a picture was just decoded.
   */
  lemma {:induction false} WithoutAllocatorAlwaysBlack(s: Stream, token: Option<nat>, env: Environment)
    requires Valid(s) && s.allocator.None?
    ensures var o := RequestSample(s, token, env);
            o.status == Ok ==> o.events[0].sample.picture == BlackSample(s.width, s.height, env.delivery.black.lockOk)
  {
    if !s.shutdown && s.state == Running {
      var a := Acquire(s, env.supply);
      assert a.stream.allocator.None? && a.stream.width == s.width && a.stream.height == s.height;
    }
  }

  /** A refused request changes nothing, queues nothing and leaves the sample count alone. */
  lemma {:induction false} RefusedRequestIsInert(s: Stream, token: Option<nat>, env: Environment)
    requires Valid(s) && (s.shutdown || s.state != Running)
    ensures RequestSample(s, token, env).stream == s
    ensures RequestSample(s, token, env).events == []
    ensures RequestSample(s, token, env).status in {ErrShutdown, InvalidRequest}
  {
  }

  /**
   The cache tier: after a request that decoded a picture, a request that
   decodes nothing new but still finds the pipe open and the decoder started
   shows the same picture again, byte for byte over its packed size.
   */
  lemma {:induction false} CachedFrameReplayed(s: Stream, first: Supply, second: Supply)
    requires Valid(s) && !s.shutdown
    requires Acquire(s, first).decoded
    ensures var a := Acquire(s, first);
            var b := Acquire(a.stream, second);
            var f := a.frame.value;
            var n := H264.FrameBytes(f.width, f.height);
            !b.decoded && Prepare(a.stream, second).reader.open ==>
              && b.frame.Some?
              && b.frame.value.width == f.width && b.frame.value.height == f.height
              && b.frame.value.data[..n] == f.data[..n]
  {
    var a := Acquire(s, first);
    var b := Acquire(a.stream, second);
    assert a.stream.decoderInitialized;
    assert Prepare(a.stream, second).decoderInitialized;
  }

  /**
   The cache is used only on the open-pipe path: if the pipe stays closed
   the request shows no picture even though a frame is cached.
   */
  lemma {:induction false} ClosedPipeHidesCache(s: Stream, supply: Supply)
    requires Valid(s) && !s.shutdown && s.hasLastFrame
    requires !s.reader.open && supply.connect != FrameReader.Connected
    ensures Acquire(s, supply).frame.None?
    ensures Acquire(s, supply).stream.hasLastFrame
  {
  }

  /** After `Stop`, no request shows a cached frame until a new picture is decoded. */
  lemma {:induction false} StopForgetsLastFrame(s: Stream, supply: Supply)
    requires Valid(s) && !s.shutdown
    ensures var t := Stop(s).stream;
            var a := Acquire(t, supply);
            a.frame.Some? ==> a.decoded
  {
  }

  /**
   `Start` after `Stop` with a prepared allocator: the stream is running
   again with the count restarted and queued MEStreamStopped then
   MEStreamStarted.
   */
  lemma {:induction false} StopThenStart(s: Stream, startTime: int, a: AllocatorSetup)
    requires Valid(s) && !s.shutdown
    ensures var o1 := Stop(s);
            var o2 := Start(o1.stream, startTime, a);
            o1.events + o2.events == [StreamStopped, StreamStarted]
            && o2.stream.state == Running && o2.stream.sampleIndex == 0 && !o2.stream.hasLastFrame
            && !o2.stream.reader.open
  {
  }

  /** Once shut down, the stream refuses every request and state change, and shutting down again is harmless. */
  lemma {:induction false} ShutdownIsTerminal(s: Stream, token: Option<nat>, env: Environment, value: StreamState,
                                              a: AllocatorSetup, allocator: Option<nat>, kind: nat, queueResult: Status)
    requires Valid(s)
    ensures var t := Shutdown(s).stream;
            && RequestSample(t, token, env) == Outcome(t, ErrShutdown, [])
            && QueueEvent(t, kind, queueResult) == Outcome(t, ErrShutdown, [])
            && SetStreamState(t, value, a) == Outcome(t, ErrShutdown, [])
            && SetSampleAllocator(t, allocator) == Outcome(t, ErrShutdown, [])
            && GetAttributes(t, true) == ErrShutdown
            && Shutdown(t) == Outcome(t, Ok, [])
  {
  }
}

=== FILE: wire.dfy ===
/**
 The frame channel's wire format: every message is a packed 24-byte
 little-endian header followed by `frame_size` payload bytes.
 */
module Wire {
  import opened Bytes

  const HeaderSize: nat := 24
  const MaxWidth: nat := 1920
  const MaxHeight: nat := 1080
  /** Largest payload a message may carry (a 1920x1080 four-byte-per-pixel frame). */
  const MaxFrameDataSize: nat := MaxWidth * MaxHeight * 4
  /** Size of the reader's receive buffer: one header plus the largest payload. */
  const MaxMessageSize: nat := HeaderSize + MaxFrameDataSize

  datatype FrameHeader = FrameHeader(
    width: u32,
    height: u32,
    timestamp: u64,   // producer clock ticks
    sequence: u32,    // wrapping frame counter
    frameSize: u32)   // payload bytes following the header

  const ZeroHeader := FrameHeader(0, 0, 0, 0, 0)

  /** 256 to the power `n`. */
  function Pow256(n: nat): (p: nat)
    ensures p >= 1
  {
    if n == 0 then 1 else 0x100 * Pow256(n - 1)
  }

  /** The unsigned little-endian integer stored in the `n` bytes `b[off..off + n]`. */
  function LeBytes(b: seq<byte>, off: nat, n: nat): (v: nat)
    requires off + n <= |b|
    ensures v < Pow256(n)
    decreases n
  {
    if n == 0 then 0 else b[off] + 0x100 * LeBytes(b, off + 1, n - 1)
  }

  /** The unsigned 32-bit little-endian integer stored at `b[off..off + 4]`. */
  function LeU32(b: seq<byte>, off: nat): u32
    requires off + 4 <= |b|
  {
    assert Pow256(4) == 0x1_0000_0000;
    LeBytes(b, off, 4)
  }

  /** The four bytes of a 32-bit field, least significant first. */
  lemma LeU32Value(b: seq<byte>, off: nat)
    requires off + 4 <= |b|
    ensures LeU32(b, off) == b[off] as int + 0x100 * (b[off + 1] as int + 0x100 * (b[off + 2] as int + 0x100 * b[off + 3] as int))
  {
    assert LeBytes(b, off + 3, 1) == b[off + 3];
    assert LeBytes(b, off + 2, 2) == b[off + 2] as int + 0x100 * b[off + 3] as int;
  }

  /** The unsigned 64-bit little-endian integer stored at `b[off..off + 8]`. */
  function LeU64(b: seq<byte>, off: nat): u64
    requires off + 8 <= |b|
  {
    LeU32(b, off) + 0x1_0000_0000 * LeU32(b, off + 4)
  }

  function EncodeU32(v: u32): (b: seq<byte>)
    ensures |b| == 4
  {
    var q1 := v / 0x100;
    var q2 := q1 / 0x100;
    [v % 0x100, q1 % 0x100, q2 % 0x100, q2 / 0x100]
  }

  function EncodeU64(v: u64): (b: seq<byte>)
    ensures |b| == 8
  {
    EncodeU32(v % 0x1_0000_0000) + EncodeU32(v / 0x1_0000_0000)
  }

  /** Reads the header a message starts with (the `memcpy` into `FrameHeader`). */
  function ParseHeader(b: seq<byte>): (h: FrameHeader)
    requires |b| >= HeaderSize
  {
    FrameHeader(LeU32(b, 0), LeU32(b, 4), LeU64(b, 8), LeU32(b, 16), LeU32(b, 20))
  }

  /** The 24 bytes a producer writes for header `h`. */
  function EncodeHeader(h: FrameHeader): (b: seq<byte>)
    ensures |b| == HeaderSize
  {
    EncodeU32(h.width) + EncodeU32(h.height) + EncodeU64(h.timestamp)
      + EncodeU32(h.sequence) + EncodeU32(h.frameSize)
  }

  /** A complete message as the producer writes it. */
  function Message(h: FrameHeader, payload: seq<byte>): (m: seq<byte>)
    ensures |m| == HeaderSize + |payload|
  {
    EncodeHeader(h) + payload
  }

  /** The payload size announced in the header `m` starts with (its `frame_size` field). */
  function AnnouncedSize(m: seq<byte>): u32
    requires |m| >= HeaderSize
  {
    LeU32(m, 20)
  }

  /**
   The reader's acceptance test on the bytes one read returned: at least a
   header, an announced payload size in (0, MaxFrameDataSize], and exactly
   that many bytes after the header.
   */
  predicate WellFormed(m: seq<byte>) {
    && |m| >= HeaderSize
    && 0 < AnnouncedSize(m) <= MaxFrameDataSize
    && |m| == HeaderSize + AnnouncedSize(m)
  }

  /** The acceptance test, yielding the header of an accepted message. */
  function CheckMessage(m: seq<byte>): (r: Option<FrameHeader>)
    ensures r.Some? <==> WellFormed(m)
    ensures r.Some? ==> |m| >= HeaderSize && r.value == ParseHeader(m)
    ensures r.Some? ==> 0 < r.value.frameSize <= MaxFrameDataSize && |m| == HeaderSize + r.value.frameSize
    ensures r.None? ==> |m| < HeaderSize || ParseHeader(m).frameSize == 0
                        || ParseHeader(m).frameSize > MaxFrameDataSize
                        || |m| != HeaderSize + ParseHeader(m).frameSize
  {
    if |m| < HeaderSize then None
    else
      var h := ParseHeader(m);
      if h.frameSize == 0 || h.frameSize > MaxFrameDataSize then None
      else if |m| != HeaderSize + h.frameSize then None
      else Some(h)
  }

  /** A well-formed message fits the reader's receive buffer. */
  lemma WellFormedFits(m: seq<byte>)
    requires WellFormed(m)
    ensures |m| <= MaxMessageSize
  {
  }

  /** Splitting off the low byte of `lo + 0x100 * hi`. */
  lemma ByteSplit(lo: int, hi: int)
    requires 0 <= lo < 0x100 && 0 <= hi
    ensures (lo + 0x100 * hi) % 0x100 == lo && (lo + 0x100 * hi) / 0x100 == hi
  {
  }

  lemma U32RoundTrip(v: u32)
    ensures LeU32(EncodeU32(v), 0) == v
  {
    var q1 := v / 0x100;
    var q2 := q1 / 0x100;
    LeU32Value(EncodeU32(v), 0);
    assert v == v % 0x100 + 0x100 * q1;
    assert q1 == q1 % 0x100 + 0x100 * q2;
    assert q2 == q2 % 0x100 + 0x100 * (q2 / 0x100);
  }

  lemma U32Encode(b: seq<byte>, off: nat)
    requires off + 4 <= |b|
    ensures EncodeU32(LeU32(b, off)) == b[off..off + 4]
  {
    var b0: int, b1: int, b2: int, b3: int := b[off], b[off + 1], b[off + 2], b[off + 3];
    var q2 := b2 + 0x100 * b3;
    var q1 := b1 + 0x100 * q2;
    var v := b0 + 0x100 * q1;
    LeU32Value(b, off);
    assert LeU32(b, off) == v;
    ByteSplit(b0, q1);
    ByteSplit(b1, q2);
    ByteSplit(b2, b3);
  }

  lemma U64RoundTrip(v: u64)
    ensures LeU64(EncodeU64(v), 0) == v
  {
    var lo := v % 0x1_0000_0000;
    var hi := v / 0x1_0000_0000;
    U32RoundTrip(lo);
    U32RoundTrip(hi);
    var b := EncodeU64(v);
    assert b[..4] == EncodeU32(lo) && b[4..] == EncodeU32(hi);
    assert LeU32(b, 0) == LeU32(EncodeU32(lo), 0);
    assert LeU32(b, 4) == LeU32(EncodeU32(hi), 0);
  }

  lemma U64Encode(b: seq<byte>, off: nat)
    requires off + 8 <= |b|
    ensures EncodeU64(LeU64(b, off)) == b[off..off + 8]
  {
    var lo := LeU32(b, off);
    var hi := LeU32(b, off + 4);
    var v := LeU64(b, off);
    assert v % 0x1_0000_0000 == lo && v / 0x1_0000_0000 == hi;
    U32Encode(b, off);
    U32Encode(b, off + 4);
    assert b[off..off + 8] == b[off..off + 4] + b[off + 4..off + 8];
  }

  /** Decoding the bytes of an encoded header gives the header back. */
  lemma {:induction false} HeaderRoundTrip(h: FrameHeader)
    ensures ParseHeader(EncodeHeader(h)) == h
  {
    var b := EncodeHeader(h);
    U32RoundTrip(h.width);
    U32RoundTrip(h.height);
    U64RoundTrip(h.timestamp);
    U32RoundTrip(h.sequence);
    U32RoundTrip(h.frameSize);
    assert b[0..4] == EncodeU32(h.width);
    assert b[4..8] == EncodeU32(h.height);
    assert b[8..16] == EncodeU64(h.timestamp);
    assert b[16..20] == EncodeU32(h.sequence);
    assert b[20..24] == EncodeU32(h.frameSize);
    assert LeU32(b, 0) == LeU32(b[0..4], 0);
    assert LeU32(b, 4) == LeU32(b[4..8], 0);
    assert LeU64(b, 8) == LeU64(b[8..16], 0);
    assert LeU32(b, 16) == LeU32(b[16..20], 0);
    assert LeU32(b, 20) == LeU32(b[20..24], 0);
  }

  /** Encoding the header parsed from any 24 bytes reproduces those bytes. */
  lemma {:induction false} HeaderEncodeParse(b: seq<byte>)
    requires |b| >= HeaderSize
    ensures EncodeHeader(ParseHeader(b)) == b[..HeaderSize]
  {
    U32Encode(b, 0);
    U32Encode(b, 4);
    U64Encode(b, 8);
    U32Encode(b, 16);
    U32Encode(b, 20);
    assert b[..HeaderSize] == b[0..4] + b[4..8] + b[8..16] + b[16..20] + b[20..24];
  }

  /**
   A producer's message passes the reader's test exactly when its payload is
   non-empty, within the maximum, and announced with its true length.
   */
  lemma {:induction false} AcceptsExactlyTrueSizes(h: FrameHeader, payload: seq<byte>)
    ensures CheckMessage(Message(h, payload)) == Some(h)
            <==> 0 < |payload| <= MaxFrameDataSize && h.frameSize == |payload|
    ensures CheckMessage(Message(h, payload)).Some? ==> CheckMessage(Message(h, payload)) == Some(h)
  {
    HeaderRoundTrip(h);
    assert Message(h, payload)[..HeaderSize] == EncodeHeader(h);
    assert ParseHeader(Message(h, payload)) == ParseHeader(EncodeHeader(h)) by {
      var m := Message(h, payload);
      assert m[0..4] == EncodeHeader(h)[0..4];
      assert forall i :: 0 <= i < HeaderSize ==> m[i] == EncodeHeader(h)[i];
    }
  }

  /** Every accepted message is a producer message: header bytes, then exactly `frameSize` payload bytes. */
  lemma {:induction false} AcceptedIsMessage(m: seq<byte>)
    requires CheckMessage(m).Some?
    ensures m == Message(CheckMessage(m).value, m[HeaderSize..])
    ensures |m[HeaderSize..]| == CheckMessage(m).value.frameSize
    ensures |m| <= MaxMessageSize
  {
    HeaderEncodeParse(m);
    assert m == m[..HeaderSize] + m[HeaderSize..];
  }
}
